=== FILE: README.md ===
# Reminder and planning engine of the assignment Discord bot

This project models the core of a Discord bot. The bot copies a student's
Canvas courses and assignments into SQLite, asks for a planned work time for
each assignment due this week, reminds the student before each planned
session and before each due date, records completions, and congratulates a
student whose week is complete.

How the model represents the system:

- **Time.** Every instant is an integer number of seconds since the Unix
  epoch. The local zone is a fixed UTC offset given as a parameter. Python's
  `datetime` values become `DateTimes.DateTime`: wall-clock seconds, a
  microsecond part, and an optional offset. An absent offset is a naive
  value.
- **Tables.** Each table is a map keyed by its primary key:
  - assignments by `(course_id, id)`;
  - study plans and per-user status by `(user_id, course_id, assignment_id)`;
  - week notifications by `(user_id, "%Y-%U" key)`.
- **Queries and updates.** Each SQL statement is a pure function: a query
  returns a set, an update maps one store to the next. A query without
  `ORDER BY` has no defined row order, so its rows are a set. A query with
  `ORDER BY` is a listing: a sequence that enumerates the set in rank order
  (`Commands.IsListing`).
- **Minute tick.** The tick (`check_reminders`) is a chain of store steps.
  Each step returns the new store, the messages it sent, and whether it ended
  normally or raised.

Modules, in dependency order:

- `Outcomes`: `Option`, `Result`, and the Python exceptions the code can raise.
- `Text`: the string built-ins the code relies on.
- `Calendar`: proleptic Gregorian day numbers.
- `DateTimes`: `utils/datetime_utils.py`.
- `Json`: decoded JSON values and Python's `in`, `[]`, `get`, `int()`.
- `Constants`: `constants.py`.
- `Canvas`: `canvas_api/endpoints.py` and `canvas_api/client.py`.
- `Store`: the tables and the writes of `database/db_manager.py`.
- `Queries`: the reads of `database/db_manager.py`.
- `DayTime`: the two day/time parsers.
- `Commands`: the `!complete` and `!reschedule` commands.
- `Weekly`: the planning dialogue of `utils/weekly.py`.
- `Ticks`: the reminder tick of `bot.py`.
- `Sync`: `utils/sync.py`.

The model follows the code where the code's behaviour is easy to mistake for something else:

- On conflict, `upsert_study_plan` keeps the reminder flags of the existing plan (database/db_manager.py:282-288).
- `check_week_completion` counts due assignments without joining `courses` (database/db_manager.py:662-668).
- The noon gate of the completion check reads the hour of the UTC tick time (bot.py:377-378).

## Model

| member | source | states |
|---|---|---|
| Text.Lower | bot.py:76 | `str.lower()` on ASCII: same length, letters lowered, everything else kept |
| Text.StripLeft | bot.py:227 | exactly the leading whitespace (the characters `str.isspace()` accepts) removed: the result is a suffix that starts with no space, and every removed character is a space |
| Text.StripRight | bot.py:227 | exactly the trailing whitespace (the characters `str.isspace()` accepts) removed: the result is a prefix that ends with no space, and every removed character is a space |
| Text.LStripChar | canvas_api/client.py:30 | `lstrip('/')`: a suffix of the input that does not start with the character, and every removed character is it |
| Text.RStripChar | canvas_api/client.py:22 | `rstrip('/')`: a prefix of the input that does not end with the character, and every removed character is it |
| Text.Find | canvas_api/client.py:57 | `find`: -1 iff the character is absent, otherwise the index of its first occurrence |
| Text.Split | canvas_api/client.py:55 | `split(sep)` gives at least one part, and no part contains the separator (the partner lemmas give the round trips) |
| Text.SplitJoin | canvas_api/client.py:55 | joining the parts of a split with the separator gives the text back |
| Text.JoinSplit | canvas_api/client.py:55 | splitting separator-free parts joined by the separator gives the parts back |
| Text.Pad2 | utils/datetime_utils.py:55 | two-digit zero-padded field: two digits whose value is the number |
| Text.Pad4 | utils/datetime_utils.py:55 | four-digit zero-padded year: four digits whose value is the number |
| Text.Pad2Monotone | utils/datetime_utils.py:55 | padded fields compare byte-wise as the numbers do |
| Text.Pad4Monotone | utils/datetime_utils.py:55 | padded years compare byte-wise as the numbers do |
| Text.DecimalText | bot.py:213 | the number shown next to a row: a digit string whose value is the number |
| Text.StripUnchanged | bot.py:227 | text with no whitespace at either end is its own `strip()` |
| Calendar.Ordinal | utils/datetime_utils.py:53 | the day number of a valid date lies inside the days of its year |
| Calendar.OrdinalMonotone | utils/datetime_utils.py:53 | day numbers follow the order of dates |
| Calendar.OrdinalInjective | utils/datetime_utils.py:53 | distinct dates have distinct day numbers |
| Calendar.FromOrdinal | utils/datetime_utils.py:53 | every day number in range names a valid date with that day number |
| Calendar.FromOrdinalOfOrdinal | utils/datetime_utils.py:53 | date to day number and back is the identity |
| Calendar.DayOfYear | database/db_manager.py:697 | the 0-based day of the year lies within the year's length |
| DateTimes.FieldsOf | utils/datetime_utils.py:53-55 | the calendar fields of an in-range instant are valid: month 1..12, day within the month, clock within the day |
| DateTimes.FieldsOfDenotes | utils/datetime_utils.py:53-55 | those fields denote the instant again, and their date is the instant's day |
| DateTimes.FieldsRoundTrip | utils/datetime_utils.py:53-55 | valid fields to instant and back give the same fields |
| DateTimes.FieldsOfMonotone | utils/datetime_utils.py:53-55 | a later instant has lexicographically later fields |
| DateTimes.Format | utils/datetime_utils.py:53-55 | `YYYY-MM-DDTHH:MM:SSZ`: 20 characters, ends in `Z`, no `+`, no fraction |
| DateTimes.FormatIsCanonical | utils/datetime_utils.py:53-55 | every in-range instant formats to a canonical text that denotes it |
| DateTimes.CanonicalIsFormat | utils/datetime_utils.py:53-55 | every canonical text is the format of the instant it denotes |
| DateTimes.FormatInjective | utils/datetime_utils.py:53-55 | distinct instants give distinct texts |
| DateTimes.FormatOrder | database/db_manager.py:232 | stored texts compare byte-wise exactly as their instants compare |
| DateTimes.FormatBetween | database/db_manager.py:232 | SQL `BETWEEN` on stored texts is the inclusive interval test on instants |
| DateTimes.FromIsoFormat | utils/datetime_utils.py:41 | `fromisoformat` on `YYYY-MM-DDTHH:MM:SS[.f{1,6}][±HH:MM]`: a success has an in-range wall clock and microseconds below one million |
| DateTimes.IsoParts | utils/datetime_utils.py:41 | a parsed value's wall clock is the 19-character base, its microseconds are the fraction's and its offset is what follows the fraction |
| DateTimes.ParseOffset | utils/datetime_utils.py:41 | no text gives no offset; an offset is exactly `+HH:MM` or `-HH:MM`, worth ±(HH·3600 + MM·60) seconds, strictly inside one day |
| DateTimes.OffsetOfText | utils/datetime_utils.py:41 | a sign, two-digit hours below 24, `:` and two-digit minutes below 60 read back as that signed number of seconds east of UTC |
| DateTimes.FractionValue | utils/datetime_utils.py:41 | after a `.`, the fraction is the whole digit run that follows, one to six digits, read as that many decimal places of a second in microseconds; a bare `.` or seven digits is a ValueError |
| DateTimes.FractionHalf | utils/datetime_utils.py:41 | `.5` is 500000 microseconds |
| DateTimes.FractionRejects | utils/datetime_utils.py:41 | `.1234567` and a `.` followed by an offset are ValueErrors |
| DateTimes.ParseCanvasDatetime | utils/datetime_utils.py:37-45 | the empty string is a ValueError; any success is aware |
| DateTimes.UtcSuffixesAgree | utils/datetime_utils.py:40-45 | after a 19-character base, `Z`, `+00:00`, `-00:00` and no suffix parse to the same value |
| DateTimes.ValidBaseSuffixes | utils/datetime_utils.py:40-45 | a valid base with any of those suffixes parses to the base's instant at UTC |
| DateTimes.InvalidBaseSuffixes | utils/datetime_utils.py:40-45 | an invalid base fails with ValueError under every suffix |
| DateTimes.ParseCanonical | utils/datetime_utils.py:32-45 | a canonical text parses to its instant at UTC |
| DateTimes.ToUtcIsoZ | utils/datetime_utils.py:48-55 | a naive value is read in the local zone; it succeeds iff the whole-second UTC instant lies in years 1..9999, and the result is canonical, ends in `Z`, and has no `+` and no fraction |
| DateTimes.ToUtcIsoZIsFormat | utils/datetime_utils.py:53-55 | a successful conversion is the format of the truncated UTC instant |
| DateTimes.StoredInstant | utils/datetime_utils.py:48-55 | the whole-second UTC instant, a naive value read in the local zone; OverflowError exactly when it leaves years 1..9999 |
| DateTimes.StoredInstantIsText | utils/datetime_utils.py:48-55 | the stored instant and the stored text succeed together and agree |
| DateTimes.ToUtcIsoZTruncates | utils/datetime_utils.py:53-55 | the stored text drops the sub-second part and keeps the instant |
| DateTimes.FormatThenParse | utils/datetime_utils.py:32-55 | formatting an instant and parsing it back gives that instant at UTC |
| DateTimes.ParseThenFormat | utils/datetime_utils.py:32-55 | parsing a canonical text and converting it back gives the same text |
| DateTimes.ToLocal | utils/datetime_utils.py:63-69 | a naive value is read as UTC; fails with OverflowError iff the UTC instant or the local wall time leaves years 1..9999; otherwise the same instant at the local offset |
| DateTimes.NaiveReadings | utils/datetime_utils.py:50-68 | `to_utc_iso_z` reads a naive value as local time (instant = wall − offset) and `to_local` reads it as UTC (shown wall = wall + offset); a stored text is the format of that instant |
| DateTimes.LocalTimeRoundTrip | utils/datetime_utils.py:48-69 | a naive local time stored and shown again keeps its wall clock, to the second |
| DateTimes.MondayInRange | utils/datetime_utils.py:86-88 | the Monday on or before an in-range day is in range, is `weekday()` days earlier, has weekday 0 and is at midnight |
| DateTimes.WeekStartEndLocal | utils/datetime_utils.py:77-91 | the window fails, with OverflowError, exactly when its Sunday 23:59:59 falls after year 9999 |
| DateTimes.WeekWindowShape | utils/datetime_utils.py:82-91 | the window is a Monday midnight and the last second six days later, and it contains the reference truncated to the second |
| DateTimes.WeekWindowExists | utils/datetime_utils.py:86-90 | only references in the last days of year 9999 overflow |
| DateTimes.MondayOfWeek | utils/datetime_utils.py:86-90 | an instant lies in a Monday's week iff its own Monday is that Monday |
| DateTimes.SundayNightThenMonday | utils/datetime_utils.py:86-88 | Sunday 23:59 and the next Monday 00:01 have Mondays exactly 7 days apart |
| DateTimes.MondayKeysDistinct | database/db_manager.py:697 | distinct Mondays give distinct `%Y-%U` week keys |
| DateTimes.MondaysApart | database/db_manager.py:697 | two Mondays of one year have different Sunday-based week numbers |
| Json.HasKey | canvas_api/endpoints.py:16 | `key in v`: for a dict, presence of the key; an error exactly for None, bools and ints, which are not iterable |
| Json.Subscript | canvas_api/endpoints.py:20 | `v[key]`: the value if present; KeyError if the key is missing; an error for non-dicts |
| Json.GetOr | canvas_api/endpoints.py:21-24 | `v.get(key, default)`: the value if present, otherwise the default |
| Json.ParseInt | database/db_manager.py:207 | `int(s)`: a digit string gives its value; every failure is ValueError |
| Json.IntTextRoundTrip | bot.py:423 | `int(str(i)) == i` |
| Json.ToInt | database/db_manager.py:207 | `int(v)`: an int is itself, a bool is 0 or 1, and any failure on a non-string is TypeError |
| Json.Bind | database/db_manager.py:200-208 | binding a query parameter: None is NULL, a bool is 0 or 1, a str is text, an int outside 64 signed bits is OverflowError, and a list or dict is ProgrammingError |
| Json.IntegerLiteralIsInt | database/db_manager.py:30 | a text that SQLite's INTEGER affinity reads as an integer reads as the same integer under `int()` |
| Json.IntegerLiteralOfIntText | database/db_manager.py:30 | `str(i)` of a 64-bit int is an integer literal for SQLite, spelling `i` |
| Json.ColumnText | database/db_manager.py:200-208 | binding to a TEXT column: None is NULL, a string is kept, an int is stored as text that reads back as it, and binding fails exactly as Json.Bind does |
| Constants.ParseWorkTag | database/db_manager.py:491-498 | the work-tag lookup accepts exactly the names `24h`, `1h` and `now` |
| Constants.ParseDueTag | database/db_manager.py:622-629 | the due-tag lookup accepts exactly the names `2d`, `1d` and `12h` |
| Constants.TagNamesRoundTrip | database/db_manager.py:491-496 | every tag the queries attach is accepted back as the same tag |
| Constants.LabelKeysAreTags | constants.py:4-20 | the label and message tables are keyed by exactly the tag names |
| Constants.DayNamesInWeek | constants.py:23-31 | every day name maps into 0..6 |
| Constants.EveryDayNamed | constants.py:23-31 | each weekday has its full name and a three-letter key, `tues` is Tuesday and `thurs` Thursday, and every key is one of these |
| Constants.DayNamesLowerCase | constants.py:23-31 | every key is lower case, so a lookup after `lower()` ignores case |
| Constants.DayIndex | utils/weekly.py:35 | a typed day is found iff its lower-cased form is a key; the full name or first three letters of weekday d, in any case, give d (0 is Monday), `tues` gives 1 and `thurs` 3, and nothing else names a day |
| Canvas.CourseOf | canvas_api/endpoints.py:19-25 | a kept course: fails iff the entry is not a dict with `id`, and a dict without `id` is KeyError |
| Canvas.CoursesOf | canvas_api/endpoints.py:13-27 | the loop over a list response; its result is never longer than the input |
| Canvas.CoursesOfObjects | canvas_api/endpoints.py:14-25 | on dicts: fails with KeyError iff a kept entry lacks `id`; otherwise exactly the named entries, in order, normalised |
| Canvas.AssignmentOf | canvas_api/endpoints.py:39-45 | a dict with `id` and `name` always gives a record; only dicts give records |
| Canvas.AssignmentsOf | canvas_api/endpoints.py:34-47 | the loop over a list response; its result is never longer than the input |
| Canvas.AssignmentsOfObjects | canvas_api/endpoints.py:35-45 | on dicts it never fails and keeps exactly the entries with both keys, in order |
| Canvas.NullFieldsKept | canvas_api/endpoints.py:16-36 | a key holding None still passes the filter: presence decides, not truthiness |
| Canvas.GetCourses | canvas_api/endpoints.py:9-27 | a list response goes through the loop; a dict iterates over its keys and fails iff some key contains `name`; a success on a non-list is empty |
| Canvas.GetAssignments | canvas_api/endpoints.py:30-47 | the same for assignments, with keys containing both `id` and `name` |
| Canvas.NewClient | canvas_api/client.py:17-22 | ValueError iff the base URL or the token is empty; otherwise the base with trailing `/` removed |
| Canvas.RequestUrl | canvas_api/client.py:22-30 | base + exactly one `/` + endpoint without its leading `/` |
| Canvas.FirstParams | canvas_api/client.py:32-36 | `per_page=100` is added when absent; caller parameters, including `per_page`, are kept |
| Canvas.NextIndex | canvas_api/client.py:55-58 | the first part naming `rel="next"`, or -1 when none does |
| Canvas.NextLink | canvas_api/client.py:53-58 | None iff no part names the next page; otherwise the text between that part's first `<` and `>` |
| Canvas.NextOfWellFormed | canvas_api/client.py:53-58 | `<url>; rel="next"` gives back `url` |
| Canvas.Collect | canvas_api/client.py:38-63 | the loop ends with the accumulated list as soon as there is no URL left |
| Canvas.CollectConcatenates | canvas_api/client.py:41-63 | over pages that are lists and whose next links chain, the result is the concatenation of every page, in fetch order |
| Canvas.RequestParams | canvas_api/client.py:41-61 | only the first request carries the parameters; every later request sends none |
| Canvas.GetRequests | canvas_api/client.py:30-42 | the first request goes to the joined URL with the defaulted parameters, and no later request carries any |
| Canvas.RequestsPerPage | canvas_api/client.py:41-61 | over chained list pages, one request per page: the first URL, then each page's next link |
| Canvas.NonListReturned | canvas_api/client.py:46-50 | a non-list first response is returned unchanged after one request |
| Store.ColumnId | database/db_manager.py:30-42 | an INTEGER column fails exactly when binding fails; an int, a bool as 0 or 1, and text spelling a 64-bit integer are stored as that integer; None stays NULL; other text stays text |
| Store.IdSpellingsAgree | database/db_manager.py:30 | an int, its decimal text and, for 0 and 1, a bool key the same row; None, empty text and `12a` key none |
| Store.CourseRowOf | database/db_manager.py:158-166 | succeeds iff every parameter binds, the id gives an integer key and the name is not None; a binding error is never an IntegrityError; a non-integer text id is an IntegrityError on `courses.id`, and then a None name one on `courses.name` |
| Store.DueColumn | database/db_manager.py:183-189 | a falsy `due_at` stores NULL; a string stores the instant of its canonical text; parse errors propagate |
| Store.AssignmentFieldsOf | database/db_manager.py:182-208 | succeeds iff `due_at` converts, every parameter binds, the name is not None and both ids give integer keys; the row is keyed by those keys, with its stored due instant and submission flag and no due flag set; a `due_at` error is the statement's error, and a None name is an IntegrityError |
| Store.CourseRows | database/db_manager.py:157-166 | succeeds iff every record gives a row, with the rows in record order; on failure, the first failing record's exception |
| Store.CourseRowsKeys | database/db_manager.py:157-166 | each written course row is keyed by its record's id |
| Store.UpsertCourses | database/db_manager.py:154-167 | succeeds iff every record gives a row; only the courses table changes |
| Store.PutCoursesLastWins | database/db_manager.py:157-166 | each key holds its last row; other keys keep their rows |
| Store.UpsertCoursesKeys | database/db_manager.py:154-167 | the course ids afterwards are the old ones plus every record's id |
| Store.UpsertCoursesLastWins | database/db_manager.py:158-166 | a record no later record overrides leaves exactly its row |
| Store.UpsertCoursesKeepsOthers | database/db_manager.py:154-167 | courses that no record names keep their rows |
| Store.AssignmentRows | database/db_manager.py:182-208 | succeeds iff every record gives a row, in record order; on failure, the first failing record's exception |
| Store.UpsertAssignments | database/db_manager.py:179-209 | succeeds iff every record gives a row; only the assignments table changes |
| Store.PutAssignmentsLastWins | database/db_manager.py:191-199 | each key holds its last row's data and the due flags it had before (clear for a new key) |
| Store.AssignmentRowsKeys | database/db_manager.py:182-208 | each written assignment row is keyed by the course id and its record's id |
| Store.UpsertAssignmentsKeys | database/db_manager.py:179-209 | the keys afterwards are the old ones plus every record's `(course_id, id)` |
| Store.UpsertAssignmentsLastWins | database/db_manager.py:191-199 | on conflict the data columns are overwritten and the three due flags kept |
| Store.UpsertAssignmentsKeepsOthers | database/db_manager.py:191-199 | assignments that no record names keep their rows, flags included |
| Store.AssignmentFieldsCourse | database/db_manager.py:200-203 | the course id only enters the row's key: any other course id that gives a key gives the same data |
| Store.SameIdTwoCourses | database/db_manager.py:51 | the same assignment id under two courses gives two rows |
| Store.UpsertStudyPlan | database/db_manager.py:278-290 | a new plan starts with all flags clear; an existing plan gets the new time and notes and keeps its flags |
| Store.UpdateStudyPlanTime | database/db_manager.py:512-526 | that plan gets the new time and all three work flags cleared; nothing changes if there is no such plan |
| Store.SetAssignmentCompleted | database/db_manager.py:359-372 | the status of exactly that user and assignment is inserted or overwritten |
| Store.MarkReminderSent | database/db_manager.py:489-509 | an unknown tag changes nothing; a known tag sets exactly that flag of that plan, if it exists |
| Store.MarkDueDateReminderSent | database/db_manager.py:620-640 | an unknown tag changes nothing; a known tag sets exactly that assignment's flag, which all users share |
| Store.MarkIdempotent | database/db_manager.py:489-640 | marking twice is the same as marking once |
| Store.MarkWeekCompletionNotified | database/db_manager.py:712-725 | afterwards that user's week reads as notified; marks only grow, and no other user's marks change |
| Store.MarkIsPerWeek | database/db_manager.py:714-722 | marking one Monday leaves other Mondays of the same user unmarked |
| Store.FlagsOnlyRise | database/db_manager.py:278-509 | planning, recording completion and marking never clear a flag or remove a row |
| Store.SyncKeepsFlags | database/db_manager.py:154-209 | course and assignment upserts never clear a flag |
| Store.RescheduleClearsOnlyItsPlan | database/db_manager.py:515-524 | rescheduling clears the flags of that plan and of no other |
| Queries.WeekMonday | bot.py:184-185 | a naive midnight on a Monday, at most six days before `today` |
| Queries.WeekRange | database/db_manager.py:217-224 | UTC bounds of the week: a naive start is local; the end is 6 d 23:59:59 later; OverflowError outside years 1..9999 |
| Queries.WeekRangeTexts | database/db_manager.py:221-224 | the bounds are the texts `to_utc_iso_z` makes of start and end |
| Queries.DueWithCourse | database/db_manager.py:229-232 | exactly the assignments that have a course and a due instant in the bounds |
| Queries.AssignmentsForWeek | database/db_manager.py:211-264 | fails iff the week bounds overflow; every selected assignment has a course and a due date |
| Queries.WeekSelectsLocalWeek | database/db_manager.py:217-232 | for the commands' naive Monday, an assignment is selected iff it is due in that local week |
| Queries.WeekStatus | database/db_manager.py:375-408 | the week's assignments with this user's completion; a missing status counts as incomplete |
| Queries.StatusIsPerUser | database/db_manager.py:401-402 | one user's completion never changes another user's view |
| Queries.CompletionShows | database/db_manager.py:359-408 | a recorded completion shows in that user's week view |
| Queries.PlansForWeek | database/db_manager.py:292-313 | this user's plans whose time lies in the week |
| Queries.DetailedPlansForWeek | database/db_manager.py:316-352 | the same plans, restricted to those whose assignment and course exist |
| Queries.WorkBlock | database/db_manager.py:430-446 | the plans owed reminder `t` now |
| Queries.GetPendingReminders | database/db_manager.py:415-486 | blocks in order 24h, 1h, now; a plan is in block `t` iff it is within ±60 s of now+Δt, flag clear, rows present |
| Queries.OneWorkTagAtATime | database/db_manager.py:430-469 | at one instant a plan is owed at most one work reminder |
| Queries.CurrentWeek | database/db_manager.py:540-546 | the UTC bounds of the local week containing `now` |
| Queries.DueBlock | database/db_manager.py:559-570 | the assignments owed due reminder `t` to this user now |
| Queries.GetPendingDueDateReminders | database/db_manager.py:533-617 | intended: blocks 2d, 1d, 12h; in block `t` iff within ±60 s of now+Δt, in this week, flag clear, and not completed by this user |
| Queries.GetPendingDueDateRemindersAsWritten | database/db_manager.py:540 | as shipped: always NameError `get_local_tz` |
| Queries.DueWindowsDisjoint | database/db_manager.py:555-609 | an assignment is owed at most one due tag at a time, and only when it falls due later this week |
| Queries.DueInWindow | database/db_manager.py:664-667 | the assignments due within the bounds, with or without a course |
| Queries.CheckWeekCompletion | database/db_manager.py:647-692 | `(True, 0, 0)` when nothing is due; otherwise completed ≤ total, and all-complete iff completed == total |
| DayTime.Match | bot.py:71 | the groups of a match: a letter run, one or two digits, two digits, AM/PM in any case |
| DayTime.MatchComplete | bot.py:71 | every spelling of the pattern is matched, with exactly its groups |
| DayTime.MatchSound | bot.py:71 | every match is a spelling of the pattern |
| DayTime.Hour | bot.py:80-82 | `(h mod 12) + 12·[PM]`: 12 AM is 0, 12 PM is 12, always 0..23 |
| DayTime.PlaceLocal | bot.py:85-87 | Monday + day index, at that hour and minute, local; ValueError when the minute is 60 or more |
| DayTime.PlaceGroups | bot.py:80-87 | the matched groups placed on day d of the week at `Hour(hh, ap)`:`mm`, local; Ok iff that day stays in years 1..9999 and the minute is below 60, OverflowError exactly for the former |
| DayTime.BotDayMapIsDayNameMap | bot.py:61-69 | bot.py's day table equals the shared day table |
| DayTime.WeeklyParse | utils/weekly.py:19-49 | no match gives the format message, an unknown day the unknown-day message; a known day d is placed at Monday + d days, `Hour(hh, ap)`:`mm`, local, and this fails iff that day leaves years 1..9999 (OverflowError) or the minute is 60 or more |
| DayTime.BotPlace | bot.py:71-87 | None iff the input does not match or names no day; a known day d is placed at Monday + d days, `Hour(hh, ap)`:`mm`, local, and this fails iff that day leaves years 1..9999 (OverflowError) or the minute is 60 or more |
| DayTime.PlanGroups | utils/weekly.py:34-49 | after a match: an unknown day gives the unknown-day message; day d is placed at Monday + d days, `Hour(hh, ap)`:`mm`, local, within the week, and this fails iff that day leaves years 1..9999 (OverflowError) or the minute is 60 or more |
| DayTime.BotPlaceGroups | bot.py:75-87 | after a match: None iff the lower-cased day is not in the table; day d is placed at Monday + d days, `Hour(hh, ap)`:`mm`, local, within the week, and this fails iff that day leaves years 1..9999 (OverflowError) or the minute is 60 or more |
| DayTime.BotParse | bot.py:56-89 | None iff the input does not match or names no day; otherwise the canonical UTC text of the placed local time, or OverflowError when that instant leaves years 1..9999 |
| DayTime.ParsersAgree | utils/weekly.py:30-47 | bot.py's result is `to_utc_iso_z` of the weekly result; both reject the same inputs and raise the same exceptions |
| DayTime.LargeMinuteRaises | bot.py:83-86 | a well-formed entry with minute ≥ 60 raises ValueError instead of returning None |
| DayTime.HourOfSpelled | bot.py:80-82 | each hour of the day written on a 12-hour clock reads back as itself |
| DayTime.SpellMatches | bot.py:71 | a spelled time matches with its own pieces as groups |
| DayTime.BotParseInstant | bot.py:71-89 | a matched entry naming day d with minute below 60 gives the canonical text of the instant at Monday + d days, `Hour(hh, ap)`:`mm` local |
| DayTime.ExampleWed | tests/unit/test_bot_helpers.py:56-57 | `Wed 7:30 PM` is Wednesday of the week at 19:30 local |
| DayTime.ExampleTue | tests/unit/test_bot_helpers.py:125 | `Tue 9:00 AM` is Tuesday at 09:00 |
| DayTime.ExampleThurs | tests/unit/test_bot_helpers.py:130 | `Thurs 9:00 AM` is Thursday at 09:00 |
| DayTime.ExampleFri | tests/unit/test_bot_helpers.py:79 | `Fri 12:00 PM` is Friday at noon |
| DayTime.ExampleSat | tests/unit/test_bot_helpers.py:90 | `Sat 12:00 AM` is Saturday at midnight |
| DayTime.SpellThenParse | bot.py:71-89 | writing a time and parsing it gives that day of the week at that hour and minute |
| Commands.ListingSize | database/db_manager.py:404 | a listing has exactly as many rows as the result set |
| Commands.Candidates | bot.py:191-196 | a row is a candidate iff it is listed, not completed by the user, and its lower-cased name contains the lower-cased query |
| Commands.SelectionParts | bot.py:227-229 | the comma-separated parts of the stripped reply |
| Commands.Picks | bot.py:228-234 | at most one pick per part, and every pick names a listed row |
| Commands.PicksExactly | bot.py:228-234 | index `p` is picked iff some all-digit part reads `p + 1` and `p` names a listed row |
| Commands.MarkAll | bot.py:243-247 | each named assignment is marked completed for the user |
| Commands.Chosen | bot.py:244-245 | the candidates the picks name, in pick order |
| Commands.Complete | bot.py:176-249 | which ending the command reaches; only a marking ending writes, and it needs a reply with at least one pick |
| Commands.CompleteMarked | bot.py:236-247 | a marking run is `MarkAll` of the chosen candidates at `now`, and the count is the number of picks |
| Commands.MarkAllCompletes | bot.py:244-246 | exactly the marked assignments become completed for that user; other users are unchanged |
| Commands.CompleteMarksChosen | bot.py:240-249 | a marking run completes exactly the chosen assignments and no other user's status changes |
| Commands.CompletePicksOpen | bot.py:191-246 | every pick names a listed assignment that was still open for the user and is now completed at `now`; only the status table changes |
| Commands.ChosenAreOpen | bot.py:191-234 | the chosen candidates are listed and still open |
| Commands.PicksOfNumbers | bot.py:213-234 | typing back the numbers shown, comma-separated, selects those rows in that order |
| Commands.SelectionOfJoined | bot.py:227-229 | digit strings joined by commas split back into themselves |
| Commands.Reschedule | bot.py:253-316 | a failing listing raises; anything but a reschedule writes nothing; nothing planned iff the listing is empty; a rescheduled plan is listed |
| Commands.SelectedIndex | bot.py:286-293 | only an all-digit reply naming row 1..n is accepted |
| Commands.SelectShownNumber | bot.py:268-293 | typing the number shown next to a row selects that row |
| Commands.RescheduleRow | bot.py:286-313 | anything but a reschedule writes nothing; an invalid selection is reported iff the reply names no row; a reschedule is of the row the reply names |
| Commands.RescheduleTo | bot.py:307-313 | anything but a reschedule writes nothing; a timeout is reported iff there is no reply; a reschedule is of this plan |
| Commands.RescheduleUpdated | bot.py:286-313 | a rescheduling run is the time step applied to a listed plan |
| Commands.RescheduleToRejects | bot.py:307-310 | "not understood" exactly when `parse_day_time_input` returns None |
| Commands.RescheduleToStores | bot.py:307-313 | the stored time is the one the parser placed; its text is the parser's result, and it lies in the week |
| Commands.RescheduleStoresParsedTime | bot.py:253-313 | the plan holds the parsed time with flags clear and stays in the user's detailed week listing |
| Commands.StillListed | database/db_manager.py:343-348 | moving a listed plan to another time in the week keeps it listed |
| Commands.PlacedInWeek | database/db_manager.py:323-329 | a time placed in the week of the naive Monday lies within that week's UTC bounds |
| Weekly.Interpret | utils/weekly.py:148-158 | a stripped reply cancels iff it is `stop` or `quit`, and otherwise re-prompts iff the parser rejects it |
| Weekly.AnswerNoise | utils/weekly.py:141-158 | a reply re-prompts iff it is a timeout or a non-stop text the parser rejects |
| Weekly.AnswerStop | utils/weekly.py:149-152 | a reply cancels iff, stripped and lower-cased, it is `stop` or `quit` |
| Weekly.AnswerInWeek | utils/weekly.py:45-47 | a saved time is on one of the seven local days from Monday |
| Weekly.AnswerSaves | utils/weekly.py:149-162 | a reply saves iff it is a non-stop text the parser accepts, and the saved instant is the parsed one |
| Weekly.Turns | utils/weekly.py:141-164 | one turn per reply, in order |
| Weekly.Converse | utils/weekly.py:136-164 | the loop: the rows saved never go back, it finishes iff every row was saved, and only plans change, their keys only growing |
| Weekly.WeeklyDialogue | utils/weekly.py:92-164 | a failing week query raises with nothing written; nothing is due iff the week has no rows; only plans change |
| Weekly.ConverseKeys | utils/weekly.py:136-164 | plans are written for exactly the rows the dialogue got through |
| Weekly.ConverseKeepsOthers | utils/weekly.py:149-152 | plans of rows the dialogue did not reach are untouched; cancelling keeps earlier saves |
| Weekly.TurnsInWeek | utils/weekly.py:155-161 | the replies to one week's prompts only save times in that week |
| Weekly.ConverseInWeek | utils/weekly.py:155-162 | every plan written holds a time one of the turns saved |
| Weekly.SavedPlansListed | utils/weekly.py:161-162 | every plan the dialogue saved shows in the user's plans for the week |
| Weekly.RepromptsIgnored | utils/weekly.py:141-158 | re-prompts leave the dialogue's result unchanged |
| Weekly.NoiseIgnored | utils/weekly.py:141-158 | dropping timeouts and rejected entries from the replies changes nothing |
| Weekly.LaterTurnsIgnored | utils/weekly.py:149-152 | once the dialogue has ended, later turns are not read |
| Weekly.LaterRepliesIgnored | utils/weekly.py:149-152 | messages sent after the dialogue has ended change nothing |
| Weekly.ScheduleAll | utils/weekly.py:136-164 | turns that each save get through every row and give each row a plan |
| Weekly.ScheduleTimes | utils/weekly.py:136-164 | with distinct rows, each row's plan holds the time its turn saved |
| Weekly.ScheduleWeek | utils/weekly.py:92-164 | answering each prompt with a valid time plans every row of the week at that time |
| Ticks.MarkWorkBatch | bot.py:410 | setting flag `t` on a block: a plan's flags afterwards are its old flags plus `t` iff it is in the block; nothing else changes |
| Ticks.MarkEachReminderIsBatch | bot.py:393-410 | marking one block row by row, in any order, equals setting the flag on the block's plans |
| Ticks.MarkDueBatch | bot.py:441 | setting due flag `t` on a block: an assignment's flags afterwards are its old flags plus `t` iff it is in the block; nothing else changes |
| Ticks.MarkEachDueReminderIsBatch | bot.py:426-441 | marking one due block row by row, in any order, equals setting the flag on the block's assignments |
| Ticks.ShowLocal | utils/datetime_utils.py:58-74 | `format_local` of a stored instant fails, with OverflowError, iff the instant or the instant plus the local offset leaves years 1..9999 |
| Ticks.ShowLocalOfStored | utils/datetime_utils.py:58-69 | `to_local` of the stored `…Z` text of an instant is ShowLocal of that instant |
| Ticks.WorkStep | bot.py:389-410 | a query error raises and changes nothing; otherwise the rows are formatted, sent and marked block by block, and the step raises OverflowError iff some owed row's planned or due time cannot be shown in local time; a flag is set, and a plan is in a message, iff that reminder was owed and the loop got through it (every earlier block shown in full, and its own block shown in full or the row shown and returned ahead of the failing one); after a normal end nothing is owed |
| Ticks.ShownBlocks | bot.py:393-399 | the number of leading blocks whose rows can all be shown, 3 iff every owed row can |
| Ticks.MarkWorkBlocks | bot.py:410 | marking the first blocks in turn: a plan gains tag `t` iff it is in `t`'s block among them; only flags change |
| Ticks.UnshownRowRaises | bot.py:398-399 | an owed row whose planned or due time cannot be shown ends the work step, and the tick, in OverflowError before the due step |
| Ticks.LastHourDueRaises | bot.py:399 | a plan owed a reminder whose assignment is due at 23:00 UTC on 9999-12-31 raises OverflowError at a local offset of an hour or more |
| Ticks.WorkReminderOnce | bot.py:389-410 | a reminder sent once, even by a step that raised later, is never sent again while the plan's flags are kept |
| Ticks.DueQuery | database/db_manager.py:533-617 | as shipped always NameError; repaired, three blocks, or OverflowError when a bound is out of range |
| Ticks.DueQueryBlocks | database/db_manager.py:555-617 | block `i` holds exactly the assignments owed tag `i` |
| Ticks.SendDue | bot.py:426-441 | one member's turn: a message per block to that member, each block marked after sending |
| Ticks.DueStep | bot.py:414-441 | only due flags rise; messages go to human members only; it raises iff there is a human member and the query fails |
| Ticks.DueStepFlags | bot.py:426-441 | a due flag is newly set iff that reminder was delivered |
| Ticks.PendingEarlier | database/db_manager.py:566-609 | raising due flags never makes a reminder pending |
| Ticks.DueStepSendsPending | bot.py:419-441 | every due reminder sent was owed to its member at the start |
| Ticks.DueStepOnce | bot.py:419-441 | within one tick an (assignment, tag) reminder goes to at most one member |
| Ticks.DueStepClears | bot.py:419-441 | after a normal end no human member is owed any due reminder |
| Ticks.DueStepDelivers | bot.py:419-441 | every reminder owed to a human member at the start is delivered |
| Ticks.CompletionStep | bot.py:445-475 | only notifications change, and only rise; messages go to human members; it raises only OverflowError, before any change |
| Ticks.CompletionReadsNoMarks | database/db_manager.py:647-692 | the completion count reads due dates and statuses only, not flags or notifications |
| Ticks.CompletionSendsEligible | bot.py:459-475 | each congratulation goes to a member not yet notified whose week is complete and non-empty, with that total, who is notified afterwards |
| Ticks.CompletionMarksOnlySent | bot.py:465-475 | a week is newly marked only for a congratulated member |
| Ticks.CompletionCovers | bot.py:450-475 | after a normal end each human member is notified or has an incomplete or empty week |
| Ticks.CompletionQuiet | bot.py:459-465 | with every human notified or not eligible the step sends and changes nothing |
| Ticks.CompletionTwice | bot.py:459-475 | a second run in the same week sends nothing |
| Ticks.LocalMonday | bot.py:455-456 | the completion check's Monday: a naive Monday midnight at most six days before local now |
| Ticks.Tick | bot.py:358-382 | a tick keeps every flag, changes plans and assignments in their flags only, and outside the UTC noon hour sends no congratulation |
| Ticks.TickAsWrittenRaises | bot.py:372-382 | as shipped, a tick with a human member ends after the work step, in NameError when every owed work reminder can be shown and in OverflowError otherwise; only work flags are written and no congratulation is ever sent |
| Ticks.DueAndCompletionClear | bot.py:374-379 | repaired, the due and completion steps end normally in the noon hour, add no owed work reminder and leave no due reminder pending for a human member |
| Ticks.TickCorrectedClears | bot.py:369-379 | repaired, a noon tick whose owed work reminders can all be shown ends normally and leaves no work or due reminder pending |
| Ticks.TickCorrectedCongratulates | bot.py:369-379 | repaired, a noon tick whose owed work reminders can all be shown leaves every eligible human notified, congratulating those not notified before |
| Sync.SyncAssignments | utils/sync.py:19-22 | only assignments change, and their keys only grow |
| Sync.SyncCanvasData | utils/sync.py:7-22 | plans, statuses and notifications are unchanged, flags are kept, and a normal end means the course fetch succeeded |
| Sync.CoursesFirst | utils/sync.py:15-16 | every course is written before any assignment; a course failure writes nothing |
| Sync.UpsertAssignmentsFlags | database/db_manager.py:191-199 | an assignment upsert keeps the due flags of updated rows and starts new rows clear |
| Sync.SyncAssignmentsKeepsDueFlags | utils/sync.py:19-22 | the assignment phase keeps every due flag, and new rows start clear |
| Sync.PartialSyncKept | utils/sync.py:15-22 | a failed assignment phase stops at some course: every earlier course's upsert is kept, and the failing course's exception is reported |
| Sync.SyncLastWins | utils/sync.py:19-22 | after a sync, a record that no later record overrides holds its data under `(course, id)` |
| Sync.SyncUntouched | utils/sync.py:19-22 | courses whose id differs leave an assignment row alone |

## Left out

- Discord I/O is left out: sending messages, `wait_for`, event handlers and `tasks.loop` scheduling. Message text and its formatting are left out too. Only the effect on the store and the control flow are modelled.
- The `CHANNEL_ID` check and the channel lookup at the start of `check_reminders` are left out. The tick is modelled from the point where a channel was found.
- A send that fails partway through a block is not modelled. A sent message is always followed by its mark.
- Async interleaving between the minute tick and running dialogues is left out. Each store operation is atomic.
- `datetime.now()` is a parameter, and so is the HTTP response of each Canvas request. The completion check's naive `datetime.now()` is taken to be the local time of the tick's `now_utc`.
- Microseconds are kept in `DateTime` but not in stored instants, which are whole seconds.
- The `init_db` migrations and aiosqlite connections are left out. The tables are maps from the start.
- IANA zones and daylight saving time are left out. The local zone is one fixed offset. `get_local_tz` and `datetime.now().astimezone().tzinfo` are the same offset.
- The `strftime` display text of `format_local` and `services/canvas_service.py` are presentation only and are left out. Whether `format_local` raises is modelled (Ticks.ShowLocal), because in the work-reminder loop an OverflowError there ends the tick.
- Ticks.WorkStep: the order in which SQLite returns the rows of a block is not modelled. The parameter `before` stands for the rows returned ahead of the first row that cannot be shown, and every such set is allowed.
- The ISO `week_number` column is stored but never read, so it is left out.
- `requests`, headers and timeouts are left out, and so is the module-level client. A failed request is modelled as `CanvasApiError` (Canvas.Collect), without its message text or the chained cause.
- `config.py`, `scripts/` and the test files are not part of this model.
- `str.isdigit` and the regex class `\d` are modelled on ASCII digits only. Other Unicode decimal digits are not modelled.
- Json.ParseInt: Python's `int()` also reads digits grouped by single underscores (`int("1_000") == 1000`) and non-ASCII decimal digits (`int("٣") == 3`). The model reads only ASCII digits after an optional sign and reports ValueError for both forms. Json.ToInt inherits this when `has_submitted_submissions` is a str.
- Text.Lower: `str.lower()` is modelled on ASCII letters only. Unicode case mappings are not modelled, and some of them change a string's length.
- Commands.Candidates: the name match lower-cases with Text.Lower, so a query or name with non-ASCII letters may match differently than under Python's full `lower()`. Day names and `stop`/`quit` are ASCII, so the other uses of `lower()` are exact.
- `DateTimes.FromIsoFormat` covers only the subset the store writes and Canvas sends: `YYYY-MM-DDTHH:MM:SS`, an optional 1–6 digit fraction, and an optional `±HH:MM`. Other ISO 8601 forms accepted by Python 3.11 are reported as ValueError.
- DateTimes.FieldsOf states only that the fields are valid. That they denote the instant is stated by DateTimes.FieldsOfDenotes and DateTimes.FieldsRoundTrip.
- Text.Split states shape only (at least one part, none holding the separator). Its content is stated by Text.SplitJoin and Text.JoinSplit.
- Canvas.CoursesOf and Canvas.AssignmentsOf bound only the length of their result. The filtering they do is stated, for lists of dicts, by Canvas.CoursesOfObjects and Canvas.AssignmentsOfObjects.
- Canvas.Collect states only how the loop ends. What it accumulates is stated by Canvas.CollectConcatenates and Canvas.NonListReturned.
- Ids from Canvas are modelled as JSON values without floats. A float id is not modelled.
- Store.ColumnId: text counts as an integer only when it is an optional sign and decimal digits. SQLite's INTEGER affinity also converts text with surrounding spaces, a fraction such as `1.0`, or an exponent; the model keeps such text as text.
- Store.CourseRowOf: a None id would get a fresh rowid from SQLite. The model does not pick one and stops with `UnkeyedRow`, a marker that is not a Python exception.
- Store.AssignmentFieldsOf: SQLite stores a NULL or non-integer text id or course id as it is. The model's tables are keyed by integers, so the model stops with `UnkeyedRow` there.
- DateTimes.ToLocal: `astimezone` returns its input unchanged when the value already carries the very same `tzinfo` object. The model has no object identity and always converts; the result denotes the same instant either way.
- Commands.SelectionParts reads `re.split(r"\s*,\s*", s)` on stripped text as splitting at commas and stripping each part. `\s` and `strip()` use the same whitespace set, so the two agree.
- Weekly.Turns: replies are given as one sequence up front, where the loop reads them lazily. Replies after the dialogue ends are proved to change nothing.
- Sync.SyncLastWins states the data columns only. The flags of the same row are stated by Sync.SyncAssignmentsKeepsDueFlags.
- Ticks.WorkReminderOnce is about the store the next tick sees. It does not model a `!reschedule` in between, which clears flags on purpose.

## Findings

| source | as written | input that shows it | evidently intended | confidence | as-written member | corrected member |
|---|---|---|---|---|---|---|
| database/db_manager.py:540 | `get_pending_due_date_reminders` calls `get_local_tz()`, but line 13 imports only `parse_canvas_datetime` and `to_utc_iso_z`, so the call raises NameError. `check_reminders` catches it, which ends the tick before the noon completion check. | any tick whose guild has one non-bot member | the due query computes the local week and returns the 2d/1d/12h blocks, and the noon completion check then runs | not executed | Ticks.TickAsWrittenRaises | Ticks.TickCorrectedCongratulates |

=== FILE: calendar.dfy ===
/** The proleptic Gregorian calendar of Python's `datetime`: civil dates and
    their day numbers, with both directions of the conversion proved to be
    inverse to each other. Day number 0 is 0001-01-01. */
module Calendar {

  datatype Date = Date(year: int, month: int, day: int)

  predicate IsLeap(y: int) {
    y % 4 == 0 && (y % 100 != 0 || y % 400 == 0)
  }

  function DaysInYear(y: int): int {
    if IsLeap(y) then 366 else 365
  }

  function DaysInMonth(y: int, m: int): int
    requires 1 <= m <= 12
  {
    if m == 2 then (if IsLeap(y) then 29 else 28)
    else if m == 4 || m == 6 || m == 9 || m == 11 then 30
    else 31
  }

  /** Days of year `y` before the first of month `m`. */
  function DaysBeforeMonth(y: int, m: int): int
    requires 1 <= m <= 12
  {
    var common :=
      if m == 1 then 0 else if m == 2 then 31 else if m == 3 then 59
      else if m == 4 then 90 else if m == 5 then 120 else if m == 6 then 151
      else if m == 7 then 181 else if m == 8 then 212 else if m == 9 then 243
      else if m == 10 then 273 else if m == 11 then 304 else 334;
    if m > 2 && IsLeap(y) then common + 1 else common
  }

  predicate Valid(d: Date) {
    1 <= d.year && 1 <= d.month <= 12 && 1 <= d.day <= DaysInMonth(d.year, d.month)
  }

  /** Days from 0001-01-01 to the first of January of year `y`. */
  function DaysBeforeYear(y: int): int
    requires y >= 1
  {
    var x := y - 1;
    365 * x + x / 4 - x / 100 + x / 400
  }

  /** Each month starts where the previous one ends, and December ends the year. */
  lemma MonthStep(y: int, m: int)
    requires 1 <= m <= 12
    ensures m < 12 ==> DaysBeforeMonth(y, m + 1) == DaysBeforeMonth(y, m) + DaysInMonth(y, m)
    ensures DaysBeforeMonth(y, m) + DaysInMonth(y, m) <= DaysInYear(y)
    ensures m == 12 ==> DaysBeforeMonth(y, m) + DaysInMonth(y, m) == DaysInYear(y)
  {
  }

  lemma MonthsOrdered(y: int, m1: int, m2: int)
    requires 1 <= m1 < m2 <= 12
    ensures DaysBeforeMonth(y, m1) + DaysInMonth(y, m1) <= DaysBeforeMonth(y, m2)
  {
  }

  lemma DaysBeforeYearStep(y: int)
    requires y >= 1
    ensures DaysBeforeYear(y + 1) == DaysBeforeYear(y) + DaysInYear(y)
  {
    var x := y - 1;
    assert y / 4 == x / 4 + (if y % 4 == 0 then 1 else 0);
    assert y / 100 == x / 100 + (if y % 100 == 0 then 1 else 0);
    assert y / 400 == x / 400 + (if y % 400 == 0 then 1 else 0);
  }

  /** Later years start strictly after earlier years end. */
  lemma {:induction false} DaysBeforeYearMonotone(a: int, b: int)
    requires 1 <= a < b
    ensures DaysBeforeYear(a) + DaysInYear(a) <= DaysBeforeYear(b)
    decreases b - a
  {
    DaysBeforeYearStep(a);
    if a + 1 < b {
      DaysBeforeYearMonotone(a + 1, b);
    }
  }

  /** The day number of a valid date; it lies inside its year. */
  function Ordinal(d: Date): (n: int)
    requires Valid(d)
    ensures DaysBeforeYear(d.year) <= n < DaysBeforeYear(d.year) + DaysInYear(d.year)
  {
    MonthStep(d.year, d.month);
    DaysBeforeYear(d.year) + DaysBeforeMonth(d.year, d.month) + d.day - 1
  }

  /** Strict lexicographic order on (year, month, day). */
  predicate DateLt(a: Date, b: Date) {
    a.year < b.year
    || (a.year == b.year && a.month < b.month)
    || (a.year == b.year && a.month == b.month && a.day < b.day)
  }

  lemma OrdinalMonotone(a: Date, b: Date)
    requires Valid(a) && Valid(b) && DateLt(a, b)
    ensures Ordinal(a) < Ordinal(b)
  {
    if a.year < b.year {
      DaysBeforeYearMonotone(a.year, b.year);
    } else if a.month < b.month {
      MonthsOrdered(a.year, a.month, b.month);
    }
  }

  lemma OrdinalInjective(a: Date, b: Date)
    requires Valid(a) && Valid(b) && Ordinal(a) == Ordinal(b)
    ensures a == b
  {
    if DateLt(a, b) {
      OrdinalMonotone(a, b);
    } else if DateLt(b, a) {
      OrdinalMonotone(b, a);
    }
  }

  /** Splits `k` days counted from the start of year `y` into a year and a
      day of that year. */
  function YearSplit(y: int, k: int): (r: (int, int))
    requires y >= 1 && k >= 0
    ensures r.0 >= y && 0 <= r.1 < DaysInYear(r.0)
    ensures DaysBeforeYear(r.0) + r.1 == DaysBeforeYear(y) + k
    decreases k
  {
    if k < DaysInYear(y) then (y, k)
    else
      DaysBeforeYearStep(y);
      YearSplit(y + 1, k - DaysInYear(y))
  }

  /** The month of year `y` that holds day-of-year `k`, searching down from `m`. */
  function MonthFrom(y: int, k: int, m: int): (r: int)
    requires 1 <= m <= 12 && 0 <= k
    requires m < 12 ==> k < DaysBeforeMonth(y, m + 1)
    requires m == 12 ==> k < DaysInYear(y)
    ensures 1 <= r <= m
    ensures DaysBeforeMonth(y, r) <= k < DaysBeforeMonth(y, r) + DaysInMonth(y, r)
    decreases m
  {
    MonthStep(y, m);
    if DaysBeforeMonth(y, m) <= k then m
    else MonthFrom(y, k, m - 1)
  }

  /** The date with day number `n`. */
  function FromOrdinal(n: int): (d: Date)
    requires n >= 0
    ensures Valid(d) && Ordinal(d) == n
  {
    var yk := YearSplit(1, n);
    var m := MonthFrom(yk.0, yk.1, 12);
    Date(yk.0, m, yk.1 - DaysBeforeMonth(yk.0, m) + 1)
  }

  lemma FromOrdinalOfOrdinal(d: Date)
    requires Valid(d)
    ensures FromOrdinal(Ordinal(d)) == d
  {
    OrdinalInjective(FromOrdinal(Ordinal(d)), d);
  }

  /** 0-based day of the year (`%j` minus one). */
  function DayOfYear(d: Date): (k: int)
    requires Valid(d)
    ensures 0 <= k < DaysInYear(d.year)
  {
    Ordinal(d) - DaysBeforeYear(d.year)
  }
}

=== FILE: canvas.dfy ===
/** The Canvas API gateway: the client's URL join, `per_page` defaulting,
    Link-header pagination over an abstract sequence of pages, and the
    endpoint functions that keep the well-formed course and assignment
    entries and normalise them into records. */
module Canvas {
  import opened Outcomes
  import opened Text
  import opened Json
  import Constants

  // ---------------------------------------------------------------------
  // Normalised records (`get_courses` / `get_assignments` dicts)
  // ---------------------------------------------------------------------

  datatype CourseRecord = CourseRecord(id: Value, name: Value, courseCode: Value, startAt: Value, endAt: Value)

  datatype AssignmentRecord = AssignmentRecord(id: Value, name: Value, dueAt: Value, htmlUrl: Value, hasSubmitted: Value)

  /** The record built for one kept course entry: `course["id"]` is read
      with a subscript, every other field with `get`. */
  function CourseOf(entry: Value): (r: Result<CourseRecord>)
    ensures r.Ok? <==> entry.Obj? && "id" in entry.fields
    ensures entry.Obj? && "id" !in entry.fields ==> r == Err(KeyError("id"))
  {
    match entry
    case Obj(m) =>
      if "id" in m then Ok(CourseFields(m)) else Err(KeyError("id"))
    case _ => Err(TypeError)
  }

  /** A field of a dict entry, or None when the key is missing. */
  function Field(m: map<string, Value>, key: string): Value {
    if key in m then m[key] else Null
  }

  /** The loop of `get_courses` over a list response: entries without the
      key "name" are skipped; kept entries are normalised in order. */
  function CoursesOf(entries: seq<Value>): (r: Result<seq<CourseRecord>>)
    ensures r.Ok? ==> |r.value| <= |entries|
    decreases |entries|
  {
    if |entries| == 0 then Ok([])
    else
      var keep :- HasKey(entries[0], "name");
      if !keep then CoursesOf(entries[1..])
      else
        var c :- CourseOf(entries[0]);
        var rest :- CoursesOf(entries[1..]);
        Ok([c] + rest)
  }

  /** The dict entries that have a "name" key, in order. */
  function Named(entries: seq<map<string, Value>>): (r: seq<map<string, Value>>)
    ensures forall m :: m in r ==> "name" in m
    ensures |r| <= |entries|
  {
    if |entries| == 0 then []
    else (if "name" in entries[0] then [entries[0]] else []) + Named(entries[1..])
  }

  function Objects(ms: seq<map<string, Value>>): (r: seq<Value>)
    ensures |r| == |ms| && forall i :: 0 <= i < |ms| ==> r[i] == Obj(ms[i])
  {
    seq(|ms|, i requires 0 <= i < |ms| => Obj(ms[i]))
  }

  /** The normalised record of a dict entry that has an "id". */
  function CourseFields(m: map<string, Value>): CourseRecord
    requires "id" in m
  {
    CourseRecord(m["id"], Field(m, "name"), Field(m, "course_code"), Field(m, "start_at"), Field(m, "end_at"))
  }

  /** On a list of dicts, `get_courses` keeps exactly the entries with a
      "name" key, in their original order, with missing optional fields
      as None; it fails with KeyError iff a kept entry lacks "id". */
  lemma {:induction false} CoursesOfObjects(ms: seq<map<string, Value>>)
    ensures var r := CoursesOf(Objects(ms));
            && (r.Ok? <==> forall m :: m in Named(ms) ==> "id" in m)
            && (r.Err? ==> r.error == KeyError("id"))
            && (r.Ok? ==> (|r.value| == |Named(ms)|
                  && forall j :: 0 <= j < |r.value| ==> r.value[j] == CourseFields(Named(ms)[j])))
    decreases |ms|
  {
    if |ms| > 0 {
      assert Objects(ms)[1..] == Objects(ms[1..]);
      CoursesOfObjects(ms[1..]);
      if "name" in ms[0] {
        assert Named(ms) == [ms[0]] + Named(ms[1..]);
      } else {
        assert Named(ms) == Named(ms[1..]);
      }
    }
  }

  /** The record built for one kept assignment entry. */
  function AssignmentOf(entry: Value): (r: Result<AssignmentRecord>)
    ensures entry.Obj? && "id" in entry.fields && "name" in entry.fields ==> r.Ok?
    ensures r.Ok? ==> entry.Obj?
  {
    match entry
    case Obj(m) =>
      if "id" !in m then Err(KeyError("id"))
      else if "name" !in m then Err(KeyError("name"))
      else Ok(AssignmentFields(m))
    case _ => Err(TypeError)
  }

  /** The loop of `get_assignments`: entries lacking "id" or "name" are
      skipped (the second test runs only when the first passes). */
  function AssignmentsOf(entries: seq<Value>): (r: Result<seq<AssignmentRecord>>)
    ensures r.Ok? ==> |r.value| <= |entries|
    decreases |entries|
  {
    if |entries| == 0 then Ok([])
    else
      var hasId :- HasKey(entries[0], "id");
      if !(hasId && HasKey(entries[0], "name") == Ok(true)) then AssignmentsOf(entries[1..])
      else
        var a :- AssignmentOf(entries[0]);
        var rest :- AssignmentsOf(entries[1..]);
        Ok([a] + rest)
  }

  /** The dict entries that have both "id" and "name", in order. */
  function Complete(entries: seq<map<string, Value>>): (r: seq<map<string, Value>>)
    ensures forall m :: m in r ==> "id" in m && "name" in m
    ensures |r| <= |entries|
  {
    if |entries| == 0 then []
    else (if "id" in entries[0] && "name" in entries[0] then [entries[0]] else []) + Complete(entries[1..])
  }

  function AssignmentFields(m: map<string, Value>): AssignmentRecord
    requires "id" in m && "name" in m
  {
    AssignmentRecord(m["id"], m["name"], Field(m, "due_at"), Field(m, "html_url"),
                     if "has_submitted_submissions" in m then m["has_submitted_submissions"] else Bool(false))
  }

  /** On a list of dicts, `get_assignments` never fails and keeps exactly
      the entries with both keys, in order; a missing `due_at` or
      `html_url` becomes None and a missing submission flag False. */
  lemma {:induction false} AssignmentsOfObjects(ms: seq<map<string, Value>>)
    ensures AssignmentsOf(Objects(ms)).Ok?
    ensures var r := AssignmentsOf(Objects(ms)).value;
            |r| == |Complete(ms)| && forall j :: 0 <= j < |r| ==> r[j] == AssignmentFields(Complete(ms)[j])
    decreases |ms|
  {
    if |ms| > 0 {
      assert Objects(ms)[1..] == Objects(ms[1..]);
      AssignmentsOfObjects(ms[1..]);
      if "id" in ms[0] && "name" in ms[0] {
        assert Complete(ms) == [ms[0]] + Complete(ms[1..]);
      } else {
        assert Complete(ms) == Complete(ms[1..]);
      }
    }
  }

  /** A kept key may hold None: presence, not truthiness, decides. */
  lemma NullFieldsKept(m: map<string, Value>)
    requires "name" in m && m["name"] == Null && "id" in m
    ensures CoursesOf([Obj(m)]) == Ok([CourseFields(m)])
    ensures CourseFields(m).name == Null
  {
    assert [Obj(m)][1..] == [];
    assert CoursesOf([Obj(m)][1..]) == Ok([]);
    assert HasKey(Obj(m), "name") == Ok(true);
    assert CourseOf(Obj(m)) == Ok(CourseFields(m));
    assert [CourseFields(m)] + [] == [CourseFields(m)];
  }

  /** `get_courses` over whatever `client.get` returned: a list is walked
      entry by entry; a dict (a non-list response) is walked over its
      keys, and a key that contains "name" is then subscripted with a str
      and raises TypeError; a str is walked over its characters, none of
      which contains "name"; other values are not iterable. */
  function GetCourses(data: Value): (r: Result<seq<CourseRecord>>)
    ensures data.Arr? ==> r == CoursesOf(data.items)
    ensures data.Obj? ==> (r.Ok? <==> forall k :: k in data.fields ==> !Contains(k, "name"))
    ensures r.Ok? && !data.Arr? ==> r.value == []
  {
    match data
    case Arr(xs) => CoursesOf(xs)
    case Obj(m) => if exists k :: k in m && Contains(k, "name") then Err(TypeError) else Ok([])
    case Str(_) => Ok([])
    case _ => Err(TypeError)
  }

  /** `get_assignments` over whatever `client.get` returned. */
  function GetAssignments(data: Value): (r: Result<seq<AssignmentRecord>>)
    ensures data.Arr? ==> r == AssignmentsOf(data.items)
    ensures data.Obj? ==> (r.Ok? <==> forall k :: k in data.fields ==> !(Contains(k, "id") && Contains(k, "name")))
    ensures r.Ok? && !data.Arr? ==> r.value == []
  {
    match data
    case Arr(xs) => AssignmentsOf(xs)
    case Obj(m) => if exists k :: k in m && Contains(k, "id") && Contains(k, "name") then Err(TypeError) else Ok([])
    case Str(_) => Ok([])
    case _ => Err(TypeError)
  }

  // ---------------------------------------------------------------------
  // The HTTP client
  // ---------------------------------------------------------------------

  datatype Client = Client(baseUrl: string, token: string)

  /** `CanvasClient(base_url, token)`. */
  function NewClient(baseUrl: string, token: string): (r: Result<Client>)
    ensures r.Err? <==> |baseUrl| == 0 || |token| == 0
    ensures r.Err? ==> r.error.ValueError?
    ensures r.Ok? ==> (r.value.token == token && |r.value.baseUrl| <= |baseUrl|
                   && (|r.value.baseUrl| == 0 || r.value.baseUrl[|r.value.baseUrl| - 1] != '/')
                   && baseUrl[..|r.value.baseUrl|] == r.value.baseUrl
                   && forall i :: |r.value.baseUrl| <= i < |baseUrl| ==> baseUrl[i] == '/')
  {
    if |baseUrl| == 0 || |token| == 0 then Err(ValueError("Canvas API base URL and token are required"))
    else
      Ok(Client(RStripChar(baseUrl, '/'), token))
  }

  /** The first request URL: exactly one '/' joins base and endpoint. */
  function RequestUrl(c: Client, endpoint: string): (r: string)
    ensures var e := LStripChar(endpoint, '/');
            |r| == |c.baseUrl| + 1 + |e| &&
            r[..|c.baseUrl|] == c.baseUrl && r[|c.baseUrl|] == '/' && r[|c.baseUrl| + 1..] == e
            && (|e| > 0 ==> e[0] != '/')
  {
    c.baseUrl + "/" + LStripChar(endpoint, '/')
  }

  /** The parameters of the first request: `per_page` is added when the
      caller gave none; every caller parameter is kept as given. */
  function FirstParams(params: Option<map<string, Value>>): (r: map<string, Value>)
    ensures "per_page" in r
    ensures params.None? ==> r == map["per_page" := Int(Constants.DefaultPerPage)]
    ensures params.Some? ==> r.Keys == params.value.Keys + {"per_page"}
    ensures params.Some? ==> forall k :: k in params.value ==> r[k] == params.value[k]
    ensures params.Some? && "per_page" !in params.value ==> r["per_page"] == Int(Constants.DefaultPerPage)
  {
    match params
    case None => map["per_page" := Int(Constants.DefaultPerPage)]
    case Some(p) => if "per_page" in p then p else p["per_page" := Int(Constants.DefaultPerPage)]
  }

  /** Whether a Link header part names the next page. */
  predicate IsNextPart(part: string) {
    Contains(part, "rel=\"next\"")
  }

  /** Index of the first part that names the next page, or -1. */
  function NextIndex(parts: seq<string>): (i: int)
    ensures -1 <= i < |parts|
    ensures i == -1 <==> forall j :: 0 <= j < |parts| ==> !IsNextPart(parts[j])
    ensures i >= 0 ==> IsNextPart(parts[i]) && forall j :: 0 <= j < i ==> !IsNextPart(parts[j])
  {
    if |parts| == 0 then -1
    else if IsNextPart(parts[0]) then 0
    else
      var k := NextIndex(parts[1..]);
      assert forall j :: 1 <= j < |parts| ==> parts[j] == parts[1..][j - 1];
      if k < 0 then -1 else k + 1
  }

  /** The text between the first '<' and the first '>' of a part, under
      Python's slice rules when a bracket is missing. */
  function Target(part: string): string {
    PySlice(part, Find(part, '<') + 1, Find(part, '>'))
  }

  /** The `rel="next"` target of a Link header value (section 3 of
      RFC 8288): the target of the first comma-separated part that names
      the next page, or None when no part does. */
  function NextLink(link: string): (r: Option<string>)
    ensures r.None? <==> forall j :: 0 <= j < |Split(link, ',')| ==> !IsNextPart(Split(link, ',')[j])
    ensures r.Some? ==> NextIndex(Split(link, ',')) >= 0
                        && r.value == Target(Split(link, ',')[NextIndex(Split(link, ','))])
  {
    var parts := Split(link, ',');
    var i := NextIndex(parts);
    if i < 0 then None else Some(Target(parts[i]))
  }

  /** A well-formed Link header with a next part yields its target. */
  lemma NextOfWellFormed(url: string)
    requires '<' !in url && '>' !in url && ',' !in url
    ensures NextLink("<" + url + ">; rel=\"next\"") == Some(url)
  {
    var part := "<" + url + ">; rel=\"next\"";
    assert IsNextPart(part) by {
      ContainsSuffix(part, "rel=\"next\"", |part| - 10);
    }
    assert ',' !in part;
    NextOfSinglePart(part);
    TargetOfBracketed(url);
  }

  /** A header without commas is one part; when it names the next page its
      target is the result. */
  lemma NextOfSinglePart(part: string)
    requires ',' !in part && IsNextPart(part)
    ensures NextLink(part) == Some(Target(part))
  {
    SplitNoSep(part, ',');
    assert NextIndex([part]) == 0;
  }

  /** The target of `<url>; rel="next"` is `url`. */
  lemma TargetOfBracketed(url: string)
    requires '<' !in url && '>' !in url
    ensures Target("<" + url + ">; rel=\"next\"") == url
  {
    var part := "<" + url + ">; rel=\"next\"";
    assert Find(part, '<') == 0;
    assert part[1 + |url|] == '>' && '>' !in part[..1 + |url|];
    FindFirst(part, '>', 1 + |url|);
    assert part[1..1 + |url|] == url;
  }

  lemma FindFirst(s: string, c: char, k: int)
    requires 0 <= k < |s| && s[k] == c && c !in s[..k]
    ensures Find(s, c) == k
  {
  }

  lemma {:induction false} SplitNoSep(s: string, sep: char)
    requires sep !in s
    ensures Split(s, sep) == [s]
    decreases |s|
  {
    if |s| > 0 {
      SplitNoSep(s[1..], sep);
    }
  }

  lemma {:induction false} ContainsSuffix(s: string, sub: string, k: nat)
    requires k + |sub| == |s| && s[k..] == sub
    ensures Contains(s, sub)
    decreases k
  {
    if k > 0 {
      ContainsSuffix(s[1..], sub, k - 1);
      assert s[1..][k - 1..] == s[k..];
    }
  }

  /** One response of the server, as seen after `raise_for_status`. */
  datatype Page = Page(body: Value, link: string) | Failed

  /** What the paginating `get` has produced once the given pages are used
      up: a value, an exception, or a further request it would make. */
  datatype Fetch = Done(result: Result<Value>) | Wants(url: string)

  /** `CanvasClient.get`'s loop, fed the server's pages in order. List
      pages are concatenated; a non-list page is returned as it is; a
      failed request becomes CanvasAPIError; the walk ends when no part
      of the Link header names a next page. */
  function Collect(url: string, pages: seq<Page>, acc: seq<Value>): (r: Fetch)
    ensures url == "" ==> r == Done(Ok(Arr(acc)))
    decreases |pages|
  {
    if url == "" then Done(Ok(Arr(acc)))
    else if |pages| == 0 then Wants(url)
    else match pages[0]
      case Failed => Done(Err(CanvasApiError))
      case Page(body, link) =>
        if !body.Arr? then Done(Ok(body))
        else Collect(NextLink(link).GetOr(""), pages[1..], acc + body.items)
  }

  /** One `requests.get` call: its URL and the query parameters it sends. */
  datatype Request = Request(url: string, params: Option<map<string, Value>>)

  /** The requests made: the first to the starting URL with the given
      parameters, then one to each page's next link with none. */
  function Requests(url: string, params: Option<map<string, Value>>, pages: seq<Page>): (r: seq<Request>)
    decreases |pages|
  {
    if url == "" then []
    else if |pages| == 0 then [Request(url, params)]
    else match pages[0]
      case Failed => [Request(url, params)]
      case Page(body, link) =>
        if !body.Arr? then [Request(url, params)]
        else [Request(url, params)] + Requests(NextLink(link).GetOr(""), None, pages[1..])
  }

  /** Only the first request carries the parameters: `params = None` after
      every page. */
  lemma {:induction false} RequestParams(url: string, params: Option<map<string, Value>>, pages: seq<Page>)
    ensures url != "" ==> |Requests(url, params, pages)| > 0 && Requests(url, params, pages)[0] == Request(url, params)
    ensures forall i :: 0 < i < |Requests(url, params, pages)| ==> Requests(url, params, pages)[i].params.None?
    decreases |pages|
  {
    if url != "" && |pages| > 0 && pages[0].Page? && pages[0].body.Arr? {
      var next := NextLink(pages[0].link).GetOr("");
      var rest := Requests(next, None, pages[1..]);
      assert Requests(url, params, pages) == [Request(url, params)] + rest;
      RequestParams(next, None, pages[1..]);
      assert forall i :: 0 <= i < |rest| ==> rest[i].params.None?;
    }
  }

  /** What `CanvasClient.get` sends for an endpoint: the first request
      carries the defaulted parameters. */
  function GetRequests(c: Client, endpoint: string, params: Option<map<string, Value>>, pages: seq<Page>)
    : (r: seq<Request>)
    ensures |r| > 0 && r[0] == Request(RequestUrl(c, endpoint), Some(FirstParams(params)))
    ensures forall i :: 0 < i < |r| ==> r[i].params.None?
  {
    RequestParams(RequestUrl(c, endpoint), Some(FirstParams(params)), pages);
    Requests(RequestUrl(c, endpoint), Some(FirstParams(params)), pages)
  }

  function Get(c: Client, endpoint: string, pages: seq<Page>): Fetch {
    Collect(RequestUrl(c, endpoint), pages, [])
  }

  /** Whether a page is a list page whose Link header names no next page. */
  predicate LastListPage(p: Page) {
    p.Page? && p.body.Arr? && NextLink(p.link).GetOr("") == ""
  }

  predicate ChainedListPage(p: Page) {
    p.Page? && p.body.Arr? && NextLink(p.link).GetOr("") != ""
  }

  /** Every page is a list page. */
  predicate AllLists(pages: seq<Page>) {
    forall i :: 0 <= i < |pages| ==> pages[i].Page? && pages[i].body.Arr?
  }

  /** A walk the server ends normally: list pages, each but the last naming
      a next page. */
  predicate ListChain(pages: seq<Page>) {
    && |pages| > 0
    && (forall i :: 0 <= i < |pages| - 1 ==> ChainedListPage(pages[i]))
    && LastListPage(pages[|pages| - 1])
  }

  function Flatten(pages: seq<Page>): seq<Value>
    requires AllLists(pages)
  {
    if |pages| == 0 then [] else pages[0].body.items + Flatten(pages[1..])
  }

  /** A chain is list pages, and past its first page it is a chain again. */
  lemma ListChainTail(pages: seq<Page>)
    requires ListChain(pages)
    ensures AllLists(pages)
    ensures |pages| > 1 ==> ChainedListPage(pages[0]) && ListChain(pages[1..])
    ensures |pages| == 1 ==> LastListPage(pages[0])
  {
    if |pages| > 1 {
      assert forall i :: 0 <= i < |pages[1..]| - 1 ==> ChainedListPage(pages[1..][i]);
      assert pages[1..][|pages[1..]| - 1] == pages[|pages| - 1];
    }
  }

  /** The items of list pages are the first page's followed by the rest's. */
  lemma FlattenCons(pages: seq<Page>)
    requires AllLists(pages) && |pages| > 0
    ensures AllLists(pages[1..])
    ensures Flatten(pages) == pages[0].body.items + Flatten(pages[1..])
  {
    assert forall i :: 0 <= i < |pages[1..]| ==> pages[1..][i] == pages[i + 1];
  }

  /** When every page is a list and only the last one has no next link,
      the result is all the pages' items concatenated in fetch order. */
  lemma {:induction false} CollectConcatenates(url: string, pages: seq<Page>, acc: seq<Value>)
    requires url != "" && ListChain(pages)
    ensures AllLists(pages)
    ensures Collect(url, pages, acc) == Done(Ok(Arr(acc + Flatten(pages))))
    decreases |pages|
  {
    ListChainTail(pages);
    FlattenCons(pages);
    var p := pages[0];
    var next := NextLink(p.link).GetOr("");
    assert Collect(url, pages, acc) == Collect(next, pages[1..], acc + p.body.items);
    if |pages| == 1 {
      assert next == "";
      assert Flatten(pages) == p.body.items + [] == p.body.items;
    } else {
      CollectConcatenates(next, pages[1..], acc + p.body.items);
      AppendAssoc(acc, p.body.items, Flatten(pages[1..]));
    }
  }

  /** Under the same conditions one request is made per page, the first
      to the starting URL and each later one to the previous page's next
      link. */
  lemma {:induction false} RequestsPerPage(url: string, params: Option<map<string, Value>>, pages: seq<Page>)
    requires url != "" && ListChain(pages)
    ensures var r := Requests(url, params, pages);
            |r| == |pages| && r[0].url == url
            && forall i :: 0 < i < |pages| ==> pages[i - 1].Page? && r[i].url == NextLink(pages[i - 1].link).GetOr("")
    decreases |pages|
  {
    ListChainTail(pages);
    var p := pages[0];
    var next := NextLink(p.link).GetOr("");
    assert Requests(url, params, pages) == [Request(url, params)] + Requests(next, None, pages[1..]);
    if |pages| > 1 {
      RequestsPerPage(next, None, pages[1..]);
    }
  }

  lemma AppendAssoc(a: seq<Value>, b: seq<Value>, c: seq<Value>)
    ensures a + b + c == a + (b + c)
  {
  }

  /** A non-list first response is returned unchanged after one request. */
  lemma NonListReturned(url: string, params: Option<map<string, Value>>, body: Value, link: string, rest: seq<Page>)
    requires url != "" && !body.Arr?
    ensures Collect(url, [Page(body, link)] + rest, []) == Done(Ok(body))
    ensures Requests(url, params, [Page(body, link)] + rest) == [Request(url, params)]
  {
  }
}

=== FILE: commands.dfy ===
/** The interactive commands of bot.py and utils/weekly.py: `!complete`,
    `!reschedule` and the scheduling dialogue of `!thisweek`. Each user
    reply is an input (None when `wait_for` timed out); the rows a query
    returns are an input too, tied to the query's result set by
    `IsListing`. */
module Commands {
  import opened Outcomes
  import opened Text
  import opened DateTimes
  import opened Store
  import opened Queries
  import opened DayTime

  // ---------------------------------------------------------------------
  // Listings
  // ---------------------------------------------------------------------

  /** The rows of a query in its ORDER BY: every key of the result set
      exactly once, in non-decreasing rank. */
  predicate IsListing<K(==)>(rows: seq<K>, keys: set<K>, rank: K -> int) {
    && (forall i, j :: 0 <= i < j < |rows| ==> rows[i] != rows[j])
    && (forall i :: 0 <= i < |rows| ==> rows[i] in keys)
    && (forall k :: k in keys ==> k in rows)
    && (forall i, j :: 0 <= i < j < |rows| ==> rank(rows[i]) <= rank(rows[j]))
  }

  /** `ORDER BY a.due_at`. */
  function DueRank(db: Db): AssignmentKey -> int {
    k => if k in db.assignments then db.assignments[k].due.GetOr(0) else 0
  }

  /** `ORDER BY sp.planned_at_utc`. */
  function PlanRank(db: Db): UserKey -> int {
    k => if k in db.plans then db.plans[k].plannedAt else 0
  }

  /** A listing has exactly as many rows as the result set has keys. */
  lemma ListingSize<K>(rows: seq<K>, keys: set<K>, rank: K -> int)
    requires IsListing(rows, keys, rank)
    ensures |rows| == |keys|
  {
    DistinctSize(rows);
    assert (set i | 0 <= i < |rows| :: rows[i]) == keys;
  }

  lemma {:induction false} DistinctSize<K>(rows: seq<K>)
    requires forall i, j :: 0 <= i < j < |rows| ==> rows[i] != rows[j]
    ensures |set i | 0 <= i < |rows| :: rows[i]| == |rows|
  {
    if |rows| > 0 {
      var init := rows[..|rows| - 1];
      DistinctSize(init);
      var a := set i | 0 <= i < |init| :: init[i];
      assert (set i | 0 <= i < |rows| :: rows[i]) == a + {rows[|rows| - 1]};
      assert rows[|rows| - 1] !in a;
    }
  }

  /** The elements of `s` that satisfy `p`, in their order. */
  function Filter<T(!new)>(s: seq<T>, p: T -> bool): (r: seq<T>)
    ensures |r| <= |s|
    ensures forall x :: x in r <==> x in s && p(x)
  {
    if |s| == 0 then []
    else if p(s[0]) then [s[0]] + Filter(s[1..], p)
    else Filter(s[1..], p)
  }

  /** The per-user key of an assignment. */
  function ForUser(userId: string, k: AssignmentKey): (u: UserKey)
    ensures u.userId == userId && Assignment(u) == k
  {
    UserKey(userId, k.courseId, k.id)
  }

  // ---------------------------------------------------------------------
  // !complete
  // ---------------------------------------------------------------------

  /** `rows` is what `get_user_assignments_status_for_week` returned for
      the week of the naive `today`, when that query succeeds. */
  predicate StatusListed(db: Db, userId: string, today: DateTime, localOffset: int, rows: seq<AssignmentKey>) {
    && today.tz.None? && InRange(today.wall)
    && (WeekStatus(db, userId, WeekMonday(today), localOffset).Ok? ==>
          IsListing(rows, WeekStatus(db, userId, WeekMonday(today), localOffset).value.Keys, DueRank(db)))
  }

  /** How `!complete` ends; only `Marked` writes. */
  datatype CompleteEnd = NoMatch | NothingIncomplete | NoReply | NoValidSelection | Marked(count: nat)

  /** `r[2] or ''`: the assignment name. */
  function NameOf(db: Db, k: AssignmentKey): string {
    if k in db.assignments then db.assignments[k].name else ""
  }

  /** `if query:` — a missing or empty query does not filter. */
  predicate HasQuery(query: Option<string>) {
    query.Some? && |query.value| > 0
  }

  /** The listed rows still open for the user, narrowed by the query
      (`q in name.lower()` with `q = query.lower()`). */
  function Candidates(db: Db, userId: string, rows: seq<AssignmentKey>, query: Option<string>)
    : (items: seq<AssignmentKey>)
    ensures |items| <= |rows|
    ensures forall k :: k in items <==>
              && k in rows && !Completed(db, userId, k)
              && (HasQuery(query) ==> Contains(Lower(NameOf(db, k)), Lower(query.value)))
  {
    var open := Filter(rows, k => !Completed(db, userId, k));
    if HasQuery(query) then Filter(open, k => Contains(Lower(NameOf(db, k)), Lower(query.value)))
    else open
  }

  /** `re.split(r"\s*,\s*", content.strip())`: the comma-separated parts,
      each without the whitespace around its commas. */
  function SelectionParts(content: string): (parts: seq<string>)
    ensures |parts| == |Split(Strip(content), ',')|
    ensures forall i :: 0 <= i < |parts| ==> parts[i] == Strip(Split(Strip(content), ',')[i])
  {
    var raw := Split(Strip(content), ',');
    seq(|raw|, i requires 0 <= i < |raw| => Strip(raw[i]))
  }

  /** The 0-based indices the parts select, in order, duplicates kept:
      a part counts when it is all digits and names a listed row. */
  function Picks(parts: seq<string>, n: int): (picks: seq<nat>)
    ensures |picks| <= |parts|
    ensures forall j :: 0 <= j < |picks| ==> picks[j] < n
  {
    if |parts| == 0 then []
    else
      var part := parts[0];
      if IsDigitString(part) && 1 <= DigitsValue(part) <= n then [DigitsValue(part) - 1] + Picks(parts[1..], n)
      else Picks(parts[1..], n)
  }

  /** An index is picked exactly when some all-digit part reads it plus
      one and it names a listed row. */
  lemma {:induction false} PicksExactly(parts: seq<string>, n: int)
    ensures forall p: nat :: p in Picks(parts, n) <==>
              exists part :: part in parts && IsDigitString(part) && DigitsValue(part) == p + 1 && p < n
  {
    if |parts| > 0 {
      PicksExactly(parts[1..], n);
      assert forall x :: x in parts <==> x == parts[0] || x in parts[1..];
    }
  }

  /** `set_assignment_completed(user, course, assignment, True, at)` for
      each key in turn. */
  function MarkAll(db: Db, userId: string, keys: seq<AssignmentKey>, at: int): (r: Db)
    decreases |keys|
    ensures r == db.(status := r.status)
    ensures forall k :: k in keys ==> ForUser(userId, k) in r.status && r.status[ForUser(userId, k)] == StatusRow(true, Some(at))
    ensures forall u :: u in r.status <==> u in db.status || (u.userId == userId && Assignment(u) in keys)
    ensures forall u :: u in db.status && !(u.userId == userId && Assignment(u) in keys) ==> r.status[u] == db.status[u]
  {
    if |keys| == 0 then db
    else
      assert forall x :: x in keys <==> x == keys[0] || x in keys[1..];
      MarkAll(SetAssignmentCompleted(db, ForUser(userId, keys[0]), true, Some(at)), userId, keys[1..], at)
  }

  /** The listed candidates the picks name. */
  function Chosen(items: seq<AssignmentKey>, picks: seq<nat>): (keys: seq<AssignmentKey>)
    requires forall j :: 0 <= j < |picks| ==> picks[j] < |items|
    ensures |keys| == |picks|
    ensures forall j :: 0 <= j < |picks| ==> keys[j] == items[picks[j]]
    ensures forall k :: k in keys <==> exists j :: 0 <= j < |picks| && items[picks[j]] == k
  {
    var keys := seq(|picks|, j requires 0 <= j < |picks| => items[picks[j]]);
    assert forall j :: 0 <= j < |picks| ==> keys[j] == items[picks[j]];
    keys
  }

  /** The `!complete` command. `today` is the naive `datetime.now()` the
      week is computed from, `rows` the rows of
      `get_week_assignments_with_status` in their order, `reply` the
      selection message (None on timeout), `now` the aware
      `datetime.now().astimezone(tz)` stamped as the completion time. */
  function Complete(db: Db, userId: string, today: DateTime, localOffset: int, rows: seq<AssignmentKey>,
                    query: Option<string>, reply: Option<string>, now: DateTime): (r: Result<(Db, CompleteEnd)>)
    requires StatusListed(db, userId, today, localOffset, rows)
    ensures WeekStatus(db, userId, WeekMonday(today), localOffset).Err? ==> r.Err?
    ensures r.Ok? && !r.value.1.Marked? ==> r.value.0 == db
    ensures r.Ok? && r.value.1 == NoMatch <==>
              WeekStatus(db, userId, WeekMonday(today), localOffset).Ok?
              && HasQuery(query) && |Candidates(db, userId, rows, query)| == 0
    ensures r.Ok? && r.value.1 == NothingIncomplete <==>
              WeekStatus(db, userId, WeekMonday(today), localOffset).Ok?
              && !HasQuery(query) && |Candidates(db, userId, rows, query)| == 0
    ensures r.Ok? && r.value.1.Marked? ==> reply.Some? && r.value.1.count > 0
    ensures r.Err? && WeekStatus(db, userId, WeekMonday(today), localOffset).Ok? ==>
              reply.Some? && !InRange(UtcSeconds(now, localOffset)) && r.error == OverflowError
  {
    var status :- WeekStatus(db, userId, WeekMonday(today), localOffset);
    var items := Candidates(db, userId, rows, query);
    if HasQuery(query) && |items| == 0 then Ok((db, NoMatch))
    else if |items| == 0 then Ok((db, NothingIncomplete))
    else if reply.None? then Ok((db, NoReply))
    else
      var picks := Picks(SelectionParts(reply.value), |items|);
      if |picks| == 0 then Ok((db, NoValidSelection))
      else
        var at :- StoredInstant(now, localOffset);
        Ok((MarkAll(db, userId, Chosen(items, picks), at), Marked(|picks|)))
  }

  /** A marking `!complete` is `MarkAll` of the chosen candidates at the
      instant `now`, after a selection with at least one pick. */
  lemma CompleteMarked(db: Db, userId: string, today: DateTime, localOffset: int, rows: seq<AssignmentKey>,
                       query: Option<string>, reply: Option<string>, now: DateTime)
    requires StatusListed(db, userId, today, localOffset, rows)
    requires var r := Complete(db, userId, today, localOffset, rows, query, reply, now); r.Ok? && r.value.1.Marked?
    ensures reply.Some?
    ensures var items := Candidates(db, userId, rows, query);
            var picks := Picks(SelectionParts(reply.value), |items|);
            && |picks| > 0 && InRange(UtcSeconds(now, localOffset))
            && Complete(db, userId, today, localOffset, rows, query, reply, now)
               == Ok((MarkAll(db, userId, Chosen(items, picks), UtcSeconds(now, localOffset)), Marked(|picks|)))
  {
  }

  /** Marking makes exactly the marked assignments completed for the
      user, in addition to those already completed, and leaves every other
      user's completion as it was. */
  lemma MarkAllCompletes(db: Db, userId: string, keys: seq<AssignmentKey>, at: int)
    ensures forall k :: Completed(MarkAll(db, userId, keys, at), userId, k) <==> Completed(db, userId, k) || k in keys
    ensures forall v, k :: v != userId ==> (Completed(MarkAll(db, userId, keys, at), v, k) <==> Completed(db, v, k))
  {
    var db' := MarkAll(db, userId, keys, at);
    forall k
      ensures Completed(db', userId, k) <==> Completed(db, userId, k) || k in keys
    {
      var u := ForUser(userId, k);
      assert Assignment(u) == k;
    }
    forall v, k | v != userId
      ensures Completed(db', v, k) <==> Completed(db, v, k)
    {
      var u := UserKey(v, k.courseId, k.id);
      assert !(u.userId == userId && Assignment(u) in keys);
    }
  }

  /** What a marking `!complete` did: exactly the chosen assignments
      became completed for this user, in addition to those already
      completed, and no other user's completion changed. */
  lemma CompleteMarksChosen(db: Db, userId: string, today: DateTime, localOffset: int, rows: seq<AssignmentKey>,
                            query: Option<string>, reply: Option<string>, now: DateTime)
    requires StatusListed(db, userId, today, localOffset, rows)
    requires var r := Complete(db, userId, today, localOffset, rows, query, reply, now); r.Ok? && r.value.1.Marked?
    ensures reply.Some?
    ensures var items := Candidates(db, userId, rows, query);
            var picks := Picks(SelectionParts(reply.value), |items|);
            var db' := Complete(db, userId, today, localOffset, rows, query, reply, now).value.0;
            && (forall k :: Completed(db', userId, k) <==>
                  Completed(db, userId, k) || exists j :: 0 <= j < |picks| && items[picks[j]] == k)
            && (forall v, k :: v != userId ==> (Completed(db', v, k) <==> Completed(db, v, k)))
  {
    CompleteMarked(db, userId, today, localOffset, rows, query, reply, now);
    var items := Candidates(db, userId, rows, query);
    var picks := Picks(SelectionParts(reply.value), |items|);
    MarkAllCompletes(db, userId, Chosen(items, picks), UtcSeconds(now, localOffset));
  }

  /** Each pick names a listed assignment that was still open for the
      user; it is now completed at `now`, and only the status table
      changed. */
  lemma CompletePicksOpen(db: Db, userId: string, today: DateTime, localOffset: int, rows: seq<AssignmentKey>,
                          query: Option<string>, reply: Option<string>, now: DateTime)
    requires StatusListed(db, userId, today, localOffset, rows)
    requires var r := Complete(db, userId, today, localOffset, rows, query, reply, now); r.Ok? && r.value.1.Marked?
    ensures reply.Some?
    ensures var r := Complete(db, userId, today, localOffset, rows, query, reply, now);
            var items := Candidates(db, userId, rows, query);
            var picks := Picks(SelectionParts(reply.value), |items|);
            && r.value.0 == db.(status := r.value.0.status)
            && (forall j :: 0 <= j < |picks| ==>
                  && items[picks[j]] in rows && !Completed(db, userId, items[picks[j]])
                  && ForUser(userId, items[picks[j]]) in r.value.0.status
                  && r.value.0.status[ForUser(userId, items[picks[j]])] == StatusRow(true, Some(UtcSeconds(now, localOffset))))
  {
    CompleteMarked(db, userId, today, localOffset, rows, query, reply, now);
    var items := Candidates(db, userId, rows, query);
    var picks := Picks(SelectionParts(reply.value), |items|);
    var at := UtcSeconds(now, localOffset);
    var db' := MarkAll(db, userId, Chosen(items, picks), at);
    assert Complete(db, userId, today, localOffset, rows, query, reply, now) == Ok((db', Marked(|picks|)));
    ChosenAreOpen(db, userId, rows, query, picks);
    MarkAllPicks(db, userId, items, picks, at);
  }

  /** Every picked candidate is completed at `at` after `MarkAll` of the
      chosen keys. */
  lemma MarkAllPicks(db: Db, userId: string, items: seq<AssignmentKey>, picks: seq<nat>, at: int)
    requires forall j :: 0 <= j < |picks| ==> picks[j] < |items|
    ensures var db' := MarkAll(db, userId, Chosen(items, picks), at);
            forall j :: 0 <= j < |picks| ==>
              && ForUser(userId, items[picks[j]]) in db'.status
              && db'.status[ForUser(userId, items[picks[j]])] == StatusRow(true, Some(at))
  {
    var keys := Chosen(items, picks);
    forall j | 0 <= j < |picks|
      ensures items[picks[j]] in keys
    {
      assert keys[j] == items[picks[j]];
    }
  }

  /** The candidates a selection names are listed and still open, and
      each is one of the keys `Chosen` gives `MarkAll`. */
  lemma ChosenAreOpen(db: Db, userId: string, rows: seq<AssignmentKey>, query: Option<string>, picks: seq<nat>)
    requires forall j :: 0 <= j < |picks| ==> picks[j] < |Candidates(db, userId, rows, query)|
    ensures var items := Candidates(db, userId, rows, query);
            forall j :: 0 <= j < |picks| ==>
              && items[picks[j]] in rows && !Completed(db, userId, items[picks[j]])
              && items[picks[j]] in Chosen(items, picks)
  {
    var items := Candidates(db, userId, rows, query);
    var chosen := Chosen(items, picks);
    forall j | 0 <= j < |picks|
      ensures items[picks[j]] in rows && !Completed(db, userId, items[picks[j]])
      ensures items[picks[j]] in chosen
    {
      assert items[picks[j]] in items;
      assert chosen[j] == items[picks[j]];
    }
  }

  /** Typing back the numbers shown, comma-separated, selects exactly
      those rows, in that order. */
  lemma PicksOfNumbers(numbers: seq<nat>, n: int)
    requires |numbers| >= 1
    requires forall i :: 0 <= i < |numbers| ==> 1 <= numbers[i] <= n
    ensures var reply := Join(seq(|numbers|, i requires 0 <= i < |numbers| => DecimalText(numbers[i])), ',');
            Picks(SelectionParts(reply), n) == seq(|numbers|, i requires 0 <= i < |numbers| => numbers[i] - 1)
  {
    var texts := seq(|numbers|, i requires 0 <= i < |numbers| => DecimalText(numbers[i]));
    assert forall i :: 0 <= i < |texts| ==> IsDigitString(texts[i]) && DigitsValue(texts[i]) == numbers[i];
    SelectionOfJoined(texts);
    PicksOfDigits(texts, numbers, n);
  }

  /** Digit strings joined by commas split back into themselves. */
  lemma SelectionOfJoined(texts: seq<string>)
    requires |texts| >= 1
    requires forall i :: 0 <= i < |texts| ==> IsDigitString(texts[i])
    ensures SelectionParts(Join(texts, ',')) == texts
  {
    var reply := Join(texts, ',');
    JoinedDigits(texts);
    var parts := SelectionParts(reply);
    assert |parts| == |texts|;
    forall i | 0 <= i < |parts|
      ensures parts[i] == texts[i]
    {
      DigitsAreBare(texts[i]);
    }
  }

  /** Digit strings joined by commas: nothing to strip, and splitting at
      the commas gives the strings back. */
  lemma JoinedDigits(texts: seq<string>)
    requires |texts| >= 1
    requires forall i :: 0 <= i < |texts| ==> IsDigitString(texts[i])
    ensures Strip(Join(texts, ',')) == Join(texts, ',')
    ensures Split(Join(texts, ','), ',') == texts
  {
    JoinedDigitsStrip(texts);
    JoinedDigitsSplit(texts);
  }

  lemma JoinedDigitsStrip(texts: seq<string>)
    requires |texts| >= 1
    requires forall i :: 0 <= i < |texts| ==> IsDigitString(texts[i])
    ensures Strip(Join(texts, ',')) == Join(texts, ',')
  {
    JoinEnds(texts, ',');
    DigitEnds(Join(texts, ','), texts[0], texts[|texts| - 1]);
  }

  lemma JoinedDigitsSplit(texts: seq<string>)
    requires |texts| >= 1
    requires forall i :: 0 <= i < |texts| ==> IsDigitString(texts[i])
    ensures Split(Join(texts, ','), ',') == texts
  {
    forall i | 0 <= i < |texts|
      ensures ',' !in texts[i]
    {
      DigitsAreBare(texts[i]);
    }
    JoinSplit(texts, ',');
  }

  /** A digit string has no comma and no whitespace to strip. */
  lemma DigitsAreBare(t: string)
    requires IsDigitString(t)
    ensures ',' !in t && |t| > 0 && Strip(t) == t
  {
    assert IsDigit(t[0]) && IsDigit(t[|t| - 1]);
    StripUnchanged(t);
  }

  /** Text that starts like one digit string and ends like another is its
      own `strip()`. */
  lemma DigitEnds(s: string, first: string, last: string)
    requires IsDigitString(first) && IsDigitString(last)
    requires |s| > 0 && s[0] == first[0] && s[|s| - 1] == last[|last| - 1]
    ensures Strip(s) == s
  {
    assert IsDigit(first[0]) && IsDigit(last[|last| - 1]);
    StripUnchanged(s);
  }

  /** Picks of parts that are all valid numbers are those numbers less one. */
  lemma {:induction false} PicksOfDigits(texts: seq<string>, numbers: seq<nat>, n: int)
    requires |texts| == |numbers|
    requires forall i :: 0 <= i < |numbers| ==> 1 <= numbers[i] <= n
    requires forall i :: 0 <= i < |texts| ==> IsDigitString(texts[i]) && DigitsValue(texts[i]) == numbers[i]
    ensures Picks(texts, n) == seq(|numbers|, i requires 0 <= i < |numbers| => numbers[i] - 1)
  {
    if |texts| > 0 {
      PicksOfDigits(texts[1..], numbers[1..], n);
      assert seq(|numbers|, i requires 0 <= i < |numbers| => numbers[i] - 1)
             == [numbers[0] - 1] + seq(|numbers[1..]|, i requires 0 <= i < |numbers[1..]| => numbers[1..][i] - 1);
    }
  }

  /** Joined text starts with the first part's first character and ends
      with the last part's last character. */
  lemma {:induction false} JoinEnds(parts: seq<string>, sep: char)
    requires |parts| >= 1 && forall i :: 0 <= i < |parts| ==> |parts[i]| > 0
    ensures var s := Join(parts, sep); |s| > 0 && s[0] == parts[0][0] && s[|s| - 1] == parts[|parts| - 1][|parts[|parts| - 1]| - 1]
  {
    if |parts| > 1 {
      JoinEnds(parts[1..], sep);
    }
  }

  // ---------------------------------------------------------------------
  // !reschedule
  // ---------------------------------------------------------------------

  /** How `!reschedule` ends; only `Rescheduled` writes. */
  datatype RescheduleEnd = NothingPlanned | TimedOut | InvalidSelection | NotUnderstood | Rescheduled(plan: UserKey)

  /** The `!reschedule` command: `rows` are the rows of
      `get_user_plans_for_week_detailed` in their order, `selection` the
      number typed and `newTime` the day and time typed; None means
      `wait_for` timed out. */
  function Reschedule(db: Db, userId: string, today: DateTime, localOffset: int, rows: seq<UserKey>,
                      selection: Option<string>, newTime: Option<string>): (r: Result<(Db, RescheduleEnd)>)
    requires today.tz.None? && InRange(today.wall)
    requires DetailedPlansForWeek(db, userId, WeekMonday(today), localOffset).Ok? ==>
               IsListing(rows, DetailedPlansForWeek(db, userId, WeekMonday(today), localOffset).value, PlanRank(db))
    ensures DetailedPlansForWeek(db, userId, WeekMonday(today), localOffset).Err? ==> r.Err?
    ensures r.Ok? && !r.value.1.Rescheduled? ==> r.value.0 == db
    ensures r.Ok? && r.value.1 == NothingPlanned <==>
              DetailedPlansForWeek(db, userId, WeekMonday(today), localOffset).Ok? && |rows| == 0
    ensures r.Ok? && r.value.1.Rescheduled? ==> r.value.1.plan in rows
  {
    var listed :- DetailedPlansForWeek(db, userId, WeekMonday(today), localOffset);
    if |rows| == 0 then Ok((db, NothingPlanned))
    else RescheduleRow(db, rows, selection, newTime, WeekMonday(today), localOffset)
  }

  /** The row a typed number names: taken unstripped, as `isdigit()`
      sees it, 1-based, and it must name one of `count` rows. */
  function SelectedIndex(selection: string, count: int): (idx: Option<nat>)
    ensures idx.Some? <==> IsDigitString(selection) && 1 <= DigitsValue(selection) <= count
    ensures idx.Some? ==> idx.value < count && idx.value + 1 == DigitsValue(selection)
  {
    if IsDigitString(selection) && 1 <= DigitsValue(selection) <= count then Some(DigitsValue(selection) - 1)
    else None
  }

  /** Typing the number shown next to a row selects that row. */
  lemma SelectShownNumber(i: nat, count: int)
    requires i < count
    ensures SelectedIndex(DecimalText(i + 1), count) == Some(i)
  {
  }

  /** Picking the row, then reading the new time for it. */
  function RescheduleRow(db: Db, rows: seq<UserKey>, selection: Option<string>, newTime: Option<string>,
                         monday: DateTime, localOffset: int): (r: Result<(Db, RescheduleEnd)>)
    ensures r.Ok? && !r.value.1.Rescheduled? ==> r.value.0 == db
    ensures r.Ok? ==> r.value.1 != NothingPlanned
    ensures r.Ok? && r.value.1 == InvalidSelection <==> selection.Some? && SelectedIndex(selection.value, |rows|).None?
    ensures r.Ok? && r.value.1.Rescheduled? ==>
              && selection.Some? && SelectedIndex(selection.value, |rows|).Some?
              && r.value.1.plan == rows[SelectedIndex(selection.value, |rows|).value]
  {
    if selection.None? then Ok((db, TimedOut))
    else
      match SelectedIndex(selection.value, |rows|)
      case None => Ok((db, InvalidSelection))
      case Some(idx) => RescheduleTo(db, rows[idx], newTime, monday, localOffset)
  }

  /** Reading the new time with `parse_day_time_input`: None is "not
      understood"; otherwise `update_study_plan_time` stores it. */
  function RescheduleTo(db: Db, k: UserKey, newTime: Option<string>, monday: DateTime, localOffset: int)
    : (r: Result<(Db, RescheduleEnd)>)
    ensures r.Ok? && !r.value.1.Rescheduled? ==> r.value.0 == db
    ensures r.Ok? ==> r.value.1 == TimedOut || r.value.1 == NotUnderstood || r.value.1 == Rescheduled(k)
    ensures r.Ok? && r.value.1.Rescheduled? ==> r.value.1.plan == k
    ensures r.Ok? && r.value.1 == TimedOut <==> newTime.None?
  {
    if newTime.None? then Ok((db, TimedOut))
    else
      match BotPlace(newTime.value, monday, localOffset)
      case Err(e) => Err(e)
      case Ok(None) => Ok((db, NotUnderstood))
      case Ok(Some(at)) =>
        var t :- StoredInstant(at, localOffset);
        Ok((UpdateStudyPlanTime(db, k, t), Rescheduled(k)))
  }

  /** A rescheduling `!reschedule` is the time step on a listed plan. */
  lemma RescheduleUpdated(db: Db, userId: string, today: DateTime, localOffset: int, rows: seq<UserKey>,
                          selection: Option<string>, newTime: Option<string>)
    requires today.tz.None? && InRange(today.wall)
    requires DetailedPlansForWeek(db, userId, WeekMonday(today), localOffset).Ok? ==>
               IsListing(rows, DetailedPlansForWeek(db, userId, WeekMonday(today), localOffset).value, PlanRank(db))
    requires var r := Reschedule(db, userId, today, localOffset, rows, selection, newTime); r.Ok? && r.value.1.Rescheduled?
    ensures DetailedPlansForWeek(db, userId, WeekMonday(today), localOffset).Ok?
    ensures var r := Reschedule(db, userId, today, localOffset, rows, selection, newTime);
            && r.value.1.plan in DetailedPlansForWeek(db, userId, WeekMonday(today), localOffset).value
            && r == RescheduleTo(db, r.value.1.plan, newTime, WeekMonday(today), localOffset)
  {
  }

  /** The time step says "not understood" exactly when
      `parse_day_time_input` returns None, and raises exactly when it
      raises. */
  lemma RescheduleToRejects(db: Db, k: UserKey, newTime: Option<string>, monday: DateTime, localOffset: int)
    requires newTime.Some?
    ensures var r := RescheduleTo(db, k, newTime, monday, localOffset);
            && (r.Ok? && r.value.1 == NotUnderstood <==> BotParse(newTime.value, monday, localOffset) == Ok(None))
            && (r.Err? <==> BotParse(newTime.value, monday, localOffset).Err?)
            && (r.Err? ==> BotParse(newTime.value, monday, localOffset) == Err(r.error))
  {
    match BotPlace(newTime.value, monday, localOffset)
    case Err(e) =>
    case Ok(None) =>
    case Ok(Some(at)) => StoredInstantIsText(at, localOffset);
  }

  /** The time step stores the instant `parse_day_time_input` placed:
      its text is what that function returns, and it falls in the week. */
  lemma RescheduleToStores(db: Db, k: UserKey, newTime: Option<string>, monday: DateTime, localOffset: int)
    requires var r := RescheduleTo(db, k, newTime, monday, localOffset); r.Ok? && r.value.1.Rescheduled?
    ensures newTime.Some?
    ensures var p := BotPlace(newTime.value, monday, localOffset);
            && p.Ok? && p.value.Some?
            && var t := UtcSeconds(p.value.value, localOffset);
            && RescheduleTo(db, k, newTime, monday, localOffset).value.0 == UpdateStudyPlanTime(db, k, t)
            && BotParse(newTime.value, monday, localOffset) == Ok(Some(Format(t)))
            && p.value.value.tz == Some(localOffset)
            && DayOf(monday.wall) <= DayOf(p.value.value.wall) <= DayOf(monday.wall) + 6
  {
    var at := BotPlace(newTime.value, monday, localOffset).value.value;
    StoredInstantIsText(at, localOffset);
  }

  /** A reschedule stores the time `parse_day_time_input` produced, clears
      that plan's reminder flags and touches nothing else; the plan stays
      in the user's detailed listing for the week. */
  lemma RescheduleStoresParsedTime(db: Db, userId: string, today: DateTime, localOffset: int, rows: seq<UserKey>,
                                   selection: Option<string>, newTime: Option<string>)
    requires today.tz.None? && InRange(today.wall)
    requires DetailedPlansForWeek(db, userId, WeekMonday(today), localOffset).Ok? ==>
               IsListing(rows, DetailedPlansForWeek(db, userId, WeekMonday(today), localOffset).value, PlanRank(db))
    requires var r := Reschedule(db, userId, today, localOffset, rows, selection, newTime); r.Ok? && r.value.1.Rescheduled?
    ensures newTime.Some?
    ensures var r := Reschedule(db, userId, today, localOffset, rows, selection, newTime);
            var k := r.value.1.plan;
            var db' := r.value.0;
            && k in db.plans && k in db'.plans
            && db' == db.(plans := db'.plans) && db'.plans.Keys == db.plans.Keys
            && BotParse(newTime.value, WeekMonday(today), localOffset) == Ok(Some(Format(db'.plans[k].plannedAt)))
            && db'.plans[k] == PlanRow(db'.plans[k].plannedAt, db.plans[k].notes, {})
            && (forall j :: j in db.plans && j != k ==> db'.plans[j] == db.plans[j])
            && k in DetailedPlansForWeek(db', userId, WeekMonday(today), localOffset).value
  {
    RescheduleUpdated(db, userId, today, localOffset, rows, selection, newTime);
    var monday := WeekMonday(today);
    var r := Reschedule(db, userId, today, localOffset, rows, selection, newTime);
    var k := r.value.1.plan;
    RescheduleToStores(db, k, newTime, monday, localOffset);
    var at := BotPlace(newTime.value, monday, localOffset).value.value;
    var db' := UpdateStudyPlanTime(db, k, UtcSeconds(at, localOffset));
    assert r.value.0 == db';
    PlacedInWeek(monday, at, localOffset);
    StillListed(db, userId, monday, localOffset, k, UtcSeconds(at, localOffset));
  }

  /** Moving a listed plan to another time inside the week keeps it listed. */
  lemma StillListed(db: Db, userId: string, monday: DateTime, localOffset: int, k: UserKey, t: int)
    requires DetailedPlansForWeek(db, userId, monday, localOffset).Ok?
    requires k in DetailedPlansForWeek(db, userId, monday, localOffset).value
    requires var w := WeekRange(monday, localOffset).value; w.0 <= t <= w.1
    ensures k in DetailedPlansForWeek(UpdateStudyPlanTime(db, k, t), userId, monday, localOffset).value
  {
    var db' := UpdateStudyPlanTime(db, k, t);
    assert db'.assignments == db.assignments && db'.courses == db.courses;
    assert k in PlansForWeek(db', userId, monday, localOffset).value;
  }

  /** A time placed in the week of a naive local Monday lies inside the
      UTC bounds of that week's queries. */
  lemma PlacedInWeek(monday: DateTime, at: DateTime, localOffset: int)
    requires monday.tz.None? && SecondOfDay(monday.wall) == 0
    requires at.tz == Some(localOffset)
    requires DayOf(monday.wall) <= DayOf(at.wall) <= DayOf(monday.wall) + 6
    requires WeekRange(monday, localOffset).Ok?
    ensures var w := WeekRange(monday, localOffset).value;
            w.0 <= UtcSeconds(at, localOffset) <= w.1
  {
  }
}

=== FILE: constants.dfy ===
/** The application constants of constants.py: the day-name table used by
    both day/time parsers, and the reminder label and message tables keyed
    by reminder tag. */
module Constants {
  import opened Outcomes
  import opened Text

  /** Day names (lower case, full and abbreviated) to `weekday()` indices. */
  const DayNameMap: map<string, int> := map[
    "mon" := 0, "monday" := 0,
    "tue" := 1, "tues" := 1, "tuesday" := 1,
    "wed" := 2, "wednesday" := 2,
    "thu" := 3, "thurs" := 3, "thursday" := 3,
    "fri" := 4, "friday" := 4,
    "sat" := 5, "saturday" := 5,
    "sun" := 6, "sunday" := 6
  ]

  /** The full day names, Monday first. */
  const FullDayNames: seq<string> :=
    ["monday", "tuesday", "wednesday", "thursday", "friday", "saturday", "sunday"]

  /** Labels that head a work-session reminder, by tag. */
  const WorkSessionReminderLabels: map<string, string> := map[
    "24h" := "\U{23F0} **24-hour reminder**",
    "1h" := "\U{23F0} **1-hour reminder**",
    "now" := "\U{1F514} **It's time!**"
  ]

  /** Labels that head a due-date reminder, by tag. */
  const DueDateReminderLabels: map<string, string> := map[
    "2d" := "\U{1F4C5} **2-day reminder**",
    "1d" := "\U{1F4C5} **1-day reminder**",
    "12h" := "\U{26A0}\U{FE0F} **12-hour reminder**"
  ]

  /** The closing line of a due-date reminder, by tag. */
  const DueDateReminderMessages: map<string, string> := map[
    "2d" := "\U{1F4A1} You have 2 days to complete this assignment!",
    "1d" := "\U{26A1} Only 1 day left to complete this assignment!",
    "12h" := "\U{1F6A8} Only 12 hours left! Time to finish up!"
  ]

  /** Work-session reminder tags: a day before, an hour before, at the time. */
  datatype WorkTag = Before24h | Before1h | AtTime

  /** Due-date reminder tags: two days, one day and twelve hours before. */
  datatype DueTag = Before2d | Before1d | Before12h

  function WorkTagName(t: WorkTag): string {
    match t
    case Before24h => "24h"
    case Before1h => "1h"
    case AtTime => "now"
  }

  function DueTagName(t: DueTag): string {
    match t
    case Before2d => "2d"
    case Before1d => "1d"
    case Before12h => "12h"
  }

  /** The `column_map.get(reminder_type)` lookup of `mark_reminder_sent`. */
  function ParseWorkTag(s: string): (r: Option<WorkTag>)
    ensures r.Some? ==> WorkTagName(r.value) == s
  {
    if s == "24h" then Some(Before24h)
    else if s == "1h" then Some(Before1h)
    else if s == "now" then Some(AtTime)
    else None
  }

  /** The `column_map.get(reminder_type)` lookup of `mark_due_date_reminder_sent`. */
  function ParseDueTag(s: string): (r: Option<DueTag>)
    ensures r.Some? ==> DueTagName(r.value) == s
  {
    if s == "2d" then Some(Before2d)
    else if s == "1d" then Some(Before1d)
    else if s == "12h" then Some(Before12h)
    else None
  }

  /** Every tag the queries attach is accepted back by the mark functions. */
  lemma TagNamesRoundTrip(w: WorkTag, d: DueTag)
    ensures ParseWorkTag(WorkTagName(w)) == Some(w)
    ensures ParseDueTag(DueTagName(d)) == Some(d)
  {
  }

  /** The label tables are keyed by exactly the tag names. */
  lemma LabelKeysAreTags()
    ensures WorkSessionReminderLabels.Keys == set t: WorkTag | true :: WorkTagName(t)
    ensures DueDateReminderLabels.Keys == set t: DueTag | true :: DueTagName(t)
    ensures DueDateReminderMessages.Keys == set t: DueTag | true :: DueTagName(t)
  {
    assert WorkTagName(Before24h) == "24h" && WorkTagName(Before1h) == "1h" && WorkTagName(AtTime) == "now";
    assert DueTagName(Before2d) == "2d" && DueTagName(Before1d) == "1d" && DueTagName(Before12h) == "12h";
    assert forall k :: k in WorkSessionReminderLabels.Keys ==> exists t: WorkTag :: WorkTagName(t) == k;
    assert forall k :: k in DueDateReminderLabels.Keys ==> exists t: DueTag :: DueTagName(t) == k;
  }

  /** Page size the API client asks for when the caller names none. */
  const DefaultPerPage: int := 100

  /** Every name maps to a weekday index 0..6. */
  lemma DayNamesInWeek()
    ensures forall k :: k in DayNameMap ==> 0 <= DayNameMap[k] <= 6
  {
  }

  /** Every weekday is reachable by its full name and by its first three letters. */
  lemma EveryDayNamed()
    ensures |FullDayNames| == 7
    ensures forall d :: 0 <= d < 7 ==>
              FullDayNames[d] in DayNameMap && DayNameMap[FullDayNames[d]] == d
              && FullDayNames[d][..3] in DayNameMap && DayNameMap[FullDayNames[d][..3]] == d
    ensures "tues" in DayNameMap && DayNameMap["tues"] == 1
    ensures "thurs" in DayNameMap && DayNameMap["thurs"] == 3
    ensures forall k :: k in DayNameMap ==>
              exists d :: 0 <= d < 7 && DayNameMap[k] == d
                          && (k == FullDayNames[d] || k == FullDayNames[d][..3] || (d == 1 && k == "tues") || (d == 3 && k == "thurs"))
  {
    assert FullDayNames[0][..3] == "mon";
    assert FullDayNames[1][..3] == "tue";
    assert FullDayNames[2][..3] == "wed";
    assert FullDayNames[3][..3] == "thu";
    assert FullDayNames[4][..3] == "fri";
    assert FullDayNames[5][..3] == "sat";
    assert FullDayNames[6][..3] == "sun";
  }

  /** Keys are already lower case, so looking up `day.lower()` ignores case. */
  lemma DayNamesLowerCase()
    ensures forall k :: k in DayNameMap ==> Lower(k) == k
  {
    forall k | k in DayNameMap
      ensures Lower(k) == k
    {
      assert forall i :: 0 <= i < |k| ==> 'a' <= k[i] <= 'z';
    }
  }

  /** Looking a typed day name up after lower-casing it: the full name,
      its first three letters, `tues` or `thurs`, in any case, names that
      weekday (0 is Monday), and nothing else names a day. */
  function DayIndex(day: string): (r: Option<int>)
    ensures r.Some? <==> Lower(day) in DayNameMap
    ensures r.Some? ==> 0 <= r.value <= 6
    ensures forall d :: 0 <= d < 7 && (Lower(day) == FullDayNames[d] || Lower(day) == FullDayNames[d][..3]) ==> r == Some(d)
    ensures Lower(day) == "tues" ==> r == Some(1)
    ensures Lower(day) == "thurs" ==> r == Some(3)
    ensures r.Some? ==> var d := r.value;
              Lower(day) == FullDayNames[d] || Lower(day) == FullDayNames[d][..3]
              || (d == 1 && Lower(day) == "tues") || (d == 3 && Lower(day) == "thurs")
  {
    DayNamesInWeek();
    EveryDayNamed();
    if Lower(day) in DayNameMap then Some(DayNameMap[Lower(day)]) else None
  }
}

=== FILE: datetimes.dfy ===
/** The time model of utils/datetime_utils.py. An instant is a whole number
    of seconds since 1970-01-01T00:00:00Z. A `DateTime` is Python's
    `datetime`: its wall-clock fields (stored as the seconds they would denote
    at UTC), its microseconds, and its UTC offset in seconds when it is aware.
    The local zone is a fixed offset `localOffset`. */
module DateTimes {
  import opened Outcomes
  import opened Text
  import opened Calendar


  /** Day number of 1970-01-01. */
  const EpochOrdinal: int := 719162
  /** Day number of 9999-12-31, the last day Python's `datetime` can hold. */
  const MaxOrdinal: int := 3652058

  lemma EpochOrdinalIs1970()
    ensures Ordinal(Date(1970, 1, 1)) == EpochOrdinal
    ensures Ordinal(Date(9999, 12, 31)) == MaxOrdinal
  {
  }

  /** Day numbers up to MaxOrdinal fall in years up to 9999. */
  lemma LastYear(n: int)
    requires 0 <= n <= MaxOrdinal
    ensures FromOrdinal(n).year <= 9999
  {
    var d := FromOrdinal(n);
    if d.year > 9999 {
      EpochOrdinalIs1970();
      OrdinalMonotone(Date(9999, 12, 31), d);
    }
  }

  function DayOf(t: int): int { t / 86400 }

  function SecondOfDay(t: int): int { t % 86400 }

  /** Seconds whose calendar day lies in years 1..9999. */
  predicate InRange(t: int) {
    0 <= DayOf(t) + EpochOrdinal <= MaxOrdinal
  }

  // ---------------------------------------------------------------------
  // Calendar fields of an instant
  // ---------------------------------------------------------------------

  datatype Fields = Fields(date: Date, hour: int, minute: int, second: int)

  predicate ValidFields(f: Fields) {
    Valid(f.date) && f.date.year <= 9999
    && 0 <= f.hour < 24 && 0 <= f.minute < 60 && 0 <= f.second < 60
  }

  function FieldsToSeconds(f: Fields): int
    requires ValidFields(f)
  {
    (Ordinal(f.date) - EpochOrdinal) * 86400 + f.hour * 3600 + f.minute * 60 + f.second
  }

  /** The calendar fields of `t`; they are valid (FieldsOfDenotes: and
      denote `t` again). */
  function FieldsOf(t: int): (f: Fields)
    requires InRange(t)
    ensures ValidFields(f)
  {
    var d := FromOrdinal(DayOf(t) + EpochOrdinal);
    LastYear(DayOf(t) + EpochOrdinal);
    var s := SecondOfDay(t);
    Fields(d, s / 3600, s % 3600 / 60, s % 60)
  }

  /** The fields of `t` denote `t`, and their date is the day of `t`. */
  lemma FieldsOfDenotes(t: int)
    requires InRange(t)
    ensures FieldsToSeconds(FieldsOf(t)) == t
    ensures Ordinal(FieldsOf(t).date) == DayOf(t) + EpochOrdinal
  {
    FieldsOfDay(t);
    var f := FieldsOf(t);
    var s := SecondOfDay(t);
    assert f.date == FromOrdinal(DayOf(t) + EpochOrdinal);
    assert f.hour == s / 3600 && f.minute == s % 3600 / 60 && f.second == s % 60;
    ClockJoin(s);
    DayJoin(t);
  }

  /** The date of `t` is the day of `t`. */
  lemma FieldsOfDay(t: int)
    requires InRange(t)
    ensures Ordinal(FieldsOf(t).date) == DayOf(t) + EpochOrdinal
  {
    assert FieldsOf(t).date == FromOrdinal(DayOf(t) + EpochOrdinal);
  }

  /** A second of the day is its hours, minutes and seconds. */
  lemma ClockJoin(s: int)
    requires 0 <= s < 86400
    ensures (s / 3600) * 3600 + (s % 3600 / 60) * 60 + s % 60 == s
  {
  }

  /** An instant is its day and its second of the day. */
  lemma DayJoin(t: int)
    ensures DayOf(t) * 86400 + SecondOfDay(t) == t
  {
  }

  lemma FieldsRoundTrip(f: Fields)
    requires ValidFields(f)
    ensures InRange(FieldsToSeconds(f))
    ensures FieldsOf(FieldsToSeconds(f)) == f
  {
    FieldsSplit(f);
    OrdinalInRange(f.date);
    FieldsOfParts(FieldsToSeconds(f), f);
  }

  /** An instant whose day is the date of `f` and whose second of the day
      is the clock of `f` has the fields `f`. */
  lemma FieldsOfParts(t: int, f: Fields)
    requires ValidFields(f) && InRange(t)
    requires DayOf(t) + EpochOrdinal == Ordinal(f.date)
    requires SecondOfDay(t) == f.hour * 3600 + f.minute * 60 + f.second
    ensures FieldsOf(t) == f
  {
    var secs := SecondOfDay(t);
    FieldsOfAt(t, Ordinal(f.date), secs);
    assert FromOrdinal(Ordinal(f.date)) == f.date by { FromOrdinalOfOrdinal(f.date); }
    assert secs / 3600 == f.hour && secs % 3600 / 60 == f.minute && secs % 60 == f.second by {
      ClockSplit(f.hour, f.minute, f.second);
    }
  }

  /** The instant of some fields splits into their day and their second of
      the day. */
  lemma FieldsSplit(f: Fields)
    requires ValidFields(f)
    ensures DayOf(FieldsToSeconds(f)) == Ordinal(f.date) - EpochOrdinal
    ensures SecondOfDay(FieldsToSeconds(f)) == f.hour * 3600 + f.minute * 60 + f.second
  {
    ClockSplit(f.hour, f.minute, f.second);
    DaySplit(Ordinal(f.date) - EpochOrdinal, f.hour * 3600 + f.minute * 60 + f.second);
  }

  /** A date of years 1..9999 has an ordinal in range. */
  lemma OrdinalInRange(d: Date)
    requires Valid(d) && d.year <= 9999
    ensures 0 <= Ordinal(d) <= MaxOrdinal
  {
    EpochOrdinalIs1970();
    if d != Date(9999, 12, 31) {
      OrdinalMonotone(d, Date(9999, 12, 31));
    }
  }

  /** The fields of `t`, given its day number and second of the day. */
  lemma FieldsOfAt(t: int, n: int, secs: int)
    requires InRange(t) && DayOf(t) + EpochOrdinal == n && SecondOfDay(t) == secs
    ensures FieldsOf(t) == Fields(FromOrdinal(n), secs / 3600, secs % 3600 / 60, secs % 60)
  {
  }

  lemma ClockSplit(h: int, m: int, s: int)
    requires 0 <= h < 24 && 0 <= m < 60 && 0 <= s < 60
    ensures var secs := h * 3600 + m * 60 + s;
            0 <= secs < 86400 && secs / 3600 == h && secs % 3600 / 60 == m && secs % 60 == s
  {
  }

  lemma DaySplit(q: int, r: int)
    requires 0 <= r < 86400
    ensures DayOf(q * 86400 + r) == q && SecondOfDay(q * 86400 + r) == r
  {
  }

  /** Fields order lexicographically exactly as the instants they denote. */
  predicate FieldsLt(a: Fields, b: Fields) {
    DateLt(a.date, b.date)
    || (a.date == b.date && a.hour < b.hour)
    || (a.date == b.date && a.hour == b.hour && a.minute < b.minute)
    || (a.date == b.date && a.hour == b.hour && a.minute == b.minute && a.second < b.second)
  }

  lemma FieldsOfMonotone(a: int, b: int)
    requires InRange(a) && InRange(b) && a < b
    ensures FieldsLt(FieldsOf(a), FieldsOf(b))
  {
    var fa, fb := FieldsOf(a), FieldsOf(b);
    FieldsOfDenotes(a);
    FieldsOfDenotes(b);
    if fa.date != fb.date {
      if DateLt(fb.date, fa.date) {
        OrdinalMonotone(fb.date, fa.date);
        assert false;
      }
    }
  }

  // ---------------------------------------------------------------------
  // Canonical text: YYYY-MM-DDTHH:MM:SSZ (RFC 3339 section 5.6 date-time)
  // ---------------------------------------------------------------------

  /** The characters a canonical timestamp is made of. */
  predicate StampChar(c: char) {
    IsDigit(c) || c == '-' || c == 'T' || c == ':' || c == 'Z'
  }

  predicate StampChars(s: string) {
    forall i :: 0 <= i < |s| ==> StampChar(s[i])
  }

  // The canonical text is built right to left, so that every field is a
  // fixed-width prefix of the text that follows it.

  function SecondText(f: Fields): (r: string)
    requires ValidFields(f)
    ensures |r| == 3 && StampChars(r)
  {
    Pad2(f.second) + "Z"
  }

  function MinuteText(f: Fields): (r: string)
    requires ValidFields(f)
    ensures |r| == 6 && StampChars(r)
  {
    Pad2(f.minute) + (":" + SecondText(f))
  }

  function HourText(f: Fields): (r: string)
    requires ValidFields(f)
    ensures |r| == 9 && StampChars(r)
  {
    Pad2(f.hour) + (":" + MinuteText(f))
  }

  function DayText(f: Fields): (r: string)
    requires ValidFields(f)
    ensures |r| == 12 && StampChars(r)
  {
    Pad2(f.date.day) + ("T" + HourText(f))
  }

  function MonthText(f: Fields): (r: string)
    requires ValidFields(f)
    ensures |r| == 15 && StampChars(r)
  {
    Pad2(f.date.month) + ("-" + DayText(f))
  }

  /** The canonical text of valid fields. */
  function FieldsText(f: Fields): (r: string)
    requires ValidFields(f)
    ensures |r| == 20 && StampChars(r) && r[19] == 'Z'
  {
    Pad4(f.date.year) + ("-" + MonthText(f))
  }

  /** `to_utc_iso_z` of a UTC instant: fixed width, ends in `Z`, no `+` and
      no fraction. */
  function Format(t: int): (r: string)
    requires InRange(t)
    ensures |r| == 20 && r[19] == 'Z'
    ensures '+' !in r && '.' !in r
  {
    FieldsText(FieldsOf(t))
  }

  /** The layout of the first 19 characters: digits and separators. */
  predicate BaseShape(s: string)
    requires |s| >= 19
  {
    AllDigits(s[0..4]) && s[4] == '-' && AllDigits(s[5..7]) && s[7] == '-'
    && AllDigits(s[8..10]) && s[10] == 'T' && AllDigits(s[11..13]) && s[13] == ':'
    && AllDigits(s[14..16]) && s[16] == ':' && AllDigits(s[17..19])
  }

  /** The fields written in the first 19 characters. */
  function BaseFields(s: string): Fields
    requires |s| >= 19 && BaseShape(s)
  {
    Fields(Date(DigitsValue(s[0..4]), DigitsValue(s[5..7]), DigitsValue(s[8..10])),
           DigitsValue(s[11..13]), DigitsValue(s[14..16]), DigitsValue(s[17..19]))
  }

  /** A canonical timestamp string, as the store keeps them. */
  predicate IsCanonical(s: string) {
    |s| == 20 && BaseShape(s) && ValidFields(BaseFields(s)) && s[19] == 'Z'
  }

  /** A field, a one-character separator and the rest, taken apart again. */
  lemma Parts(p: string, sep: string, rest: string)
    requires |sep| == 1
    ensures var r := p + (sep + rest);
            r[..|p|] == p && r[|p|] == sep[0] && r[|p| + 1..] == rest
  {
    var r := p + (sep + rest);
    assert r[|p|..] == sep + rest;
  }

  lemma SliceOfTail(r: string, k: int, j: int)
    requires 0 <= k && 0 <= j && k + j <= |r|
    ensures r[k..][..j] == r[k..k + j]
  {
  }

  lemma FieldsTextCanonical(f: Fields)
    requires ValidFields(f)
    ensures IsCanonical(FieldsText(f)) && BaseFields(FieldsText(f)) == f
  {
    var r, mo, d, h, mi, se := FieldsText(f), MonthText(f), DayText(f), HourText(f), MinuteText(f), SecondText(f);
    Parts(Pad4(f.date.year), "-", mo);
    Parts(Pad2(f.date.month), "-", d);
    Parts(Pad2(f.date.day), "T", h);
    Parts(Pad2(f.hour), ":", mi);
    Parts(Pad2(f.minute), ":", se);
    assert se[..2] == Pad2(f.second);
    assert r[5..] == mo && r[8..] == d && r[11..] == h && r[14..] == mi && r[17..] == se;
    SliceOfTail(r, 5, 2);
    SliceOfTail(r, 8, 2);
    SliceOfTail(r, 11, 2);
    SliceOfTail(r, 14, 2);
    SliceOfTail(r, 17, 2);
  }

  lemma CanonicalText(s: string)
    requires IsCanonical(s)
    ensures FieldsText(BaseFields(s)) == s
  {
    Pad4OfDigits(s[0..4]);
    CanonicalDate(s);
    assert s == s[0..4] + ("-" + s[5..]);
  }

  /** The clock part of a canonical text is written back as it was. */
  lemma CanonicalClock(s: string)
    requires IsCanonical(s)
    ensures HourText(BaseFields(s)) == s[11..]
  {
    var f := BaseFields(s);
    Pad2OfDigits(s[11..13]);
    Pad2OfDigits(s[14..16]);
    Pad2OfDigits(s[17..19]);
    assert SecondText(f) == s[17..];
    assert MinuteText(f) == s[14..];
  }

  /** The month, day and clock of a canonical text are written back as they
      were. */
  lemma CanonicalDate(s: string)
    requires IsCanonical(s)
    ensures MonthText(BaseFields(s)) == s[5..]
  {
    var f := BaseFields(s);
    CanonicalClock(s);
    Pad2OfDigits(s[5..7]);
    Pad2OfDigits(s[8..10]);
    assert DayText(f) == s[8..];
  }

  /** Every in-range instant has a canonical text that denotes it. */
  lemma FormatIsCanonical(t: int)
    requires InRange(t)
    ensures IsCanonical(Format(t))
    ensures FieldsToSeconds(BaseFields(Format(t))) == t
  {
    FieldsTextCanonical(FieldsOf(t));
    FieldsOfDenotes(t);
  }

  /** Every canonical text is the format of the instant it denotes. */
  lemma CanonicalIsFormat(s: string)
    requires IsCanonical(s)
    ensures InRange(FieldsToSeconds(BaseFields(s)))
    ensures Format(FieldsToSeconds(BaseFields(s))) == s
  {
    FieldsRoundTrip(BaseFields(s));
    CanonicalText(s);
  }

  lemma FormatInjective(a: int, b: int)
    requires InRange(a) && InRange(b) && Format(a) == Format(b)
    ensures a == b
  {
    FormatIsCanonical(a);
    FormatIsCanonical(b);
  }

  /** One fixed-width two-digit field followed by a separator and the rest. */
  lemma FieldStep(x1: int, x2: int, sep: string, y1: string, y2: string)
    requires 0 <= x1 < 100 && 0 <= x2 < 100
    requires x1 < x2 || (x1 == x2 && StrLt(y1, y2))
    ensures StrLt(Pad2(x1) + (sep + y1), Pad2(x2) + (sep + y2))
  {
    if x1 < x2 {
      Pad2Monotone(x1, x2);
    } else {
      StrLtSamePrefix(sep, y1, y2);
    }
    StrLtConcat(Pad2(x1), sep + y1, Pad2(x2), sep + y2);
  }

  lemma FieldsTextMonotone(a: Fields, b: Fields)
    requires ValidFields(a) && ValidFields(b) && FieldsLt(a, b)
    ensures StrLt(FieldsText(a), FieldsText(b))
  {
    if a.date.year < b.date.year {
      Pad4Monotone(a.date.year, b.date.year);
    } else {
      if a.date.month == b.date.month {
        if a.date.day == b.date.day {
          if a.hour == b.hour {
            if a.minute == b.minute {
              Pad2Monotone(a.second, b.second);
              StrLtConcat(Pad2(a.second), "Z", Pad2(b.second), "Z");
            }
            FieldStep(a.minute, b.minute, ":", SecondText(a), SecondText(b));
          }
          FieldStep(a.hour, b.hour, ":", MinuteText(a), MinuteText(b));
        }
        FieldStep(a.date.day, b.date.day, "T", HourText(a), HourText(b));
      }
      FieldStep(a.date.month, b.date.month, "-", DayText(a), DayText(b));
      StrLtSamePrefix("-", MonthText(a), MonthText(b));
    }
    StrLtConcat(Pad4(a.date.year), "-" + MonthText(a), Pad4(b.date.year), "-" + MonthText(b));
  }

  /** Fixed-width canonical strings compare byte-wise as their instants do,
      so SQL comparison on them is comparison of instants. */
  lemma FormatOrder(a: int, b: int)
    requires InRange(a) && InRange(b)
    ensures StrLt(Format(a), Format(b)) <==> a < b
  {
    if a < b {
      FieldsOfMonotone(a, b);
      FieldsTextMonotone(FieldsOf(a), FieldsOf(b));
    } else if b < a {
      FieldsOfMonotone(b, a);
      FieldsTextMonotone(FieldsOf(b), FieldsOf(a));
      StrLtAsymmetric(Format(b), Format(a));
    } else {
      StrLtIrreflexive(Format(a));
    }
  }

  /** `x BETWEEN lo AND hi` on canonical texts. */
  lemma FormatBetween(lo: int, x: int, hi: int)
    requires InRange(lo) && InRange(x) && InRange(hi)
    ensures (StrLe(Format(lo), Format(x)) && StrLe(Format(x), Format(hi))) <==> lo <= x <= hi
  {
    FormatOrder(lo, x);
    FormatOrder(x, hi);
    if Format(lo) == Format(x) {
      FormatInjective(lo, x);
    }
    if Format(x) == Format(hi) {
      FormatInjective(x, hi);
    }
  }

  // ---------------------------------------------------------------------
  // Python datetime values and datetime.fromisoformat (subset)
  // ---------------------------------------------------------------------

  /** `wall` holds the wall-clock fields as the seconds they would denote at
      UTC; `tz` is the UTC offset in seconds of an aware value, None if naive. */
  datatype DateTime = DateTime(wall: int, micro: int, tz: Option<int>)

  const InvalidIso: string := "Invalid isoformat string"

  /** Each `Z` becomes `+00:00` (`str.replace("Z", "+00:00")`). */
  function ReplaceZ(s: string): string
    decreases |s|
  {
    if |s| == 0 then ""
    else (if s[0] == 'Z' then "+00:00" else [s[0]]) + ReplaceZ(s[1..])
  }

  lemma {:induction false} ReplaceZAppend(a: string, b: string)
    ensures ReplaceZ(a + b) == ReplaceZ(a) + ReplaceZ(b)
    decreases |a|
  {
    if |a| == 0 {
      assert a + b == b;
    } else {
      assert (a + b)[0] == a[0] && (a + b)[1..] == a[1..] + b;
      ReplaceZAppend(a[1..], b);
    }
  }

  lemma {:induction false} ReplaceZIdentity(a: string)
    requires 'Z' !in a
    ensures ReplaceZ(a) == a
    decreases |a|
  {
    if |a| > 0 {
      assert a[0] != 'Z';
      assert 'Z' !in a[1..] by {
        forall i | 0 <= i < |a[1..]| ensures a[1..][i] != 'Z' {
          assert a[1..][i] == a[i + 1];
        }
      }
      ReplaceZIdentity(a[1..]);
      assert a == [a[0]] + a[1..];
    }
  }

  function ParseBase(s: string): (r: Result<Fields>)
    requires |s| >= 19
    ensures r.Ok? ==> BaseShape(s) && ValidFields(r.value) && r.value == BaseFields(s)
  {
    if !BaseShape(s) then Err(ValueError(InvalidIso))
    else if !ValidFields(BaseFields(s)) then Err(ValueError(InvalidIso))
    else Ok(BaseFields(s))
  }

  /** Length of the run of digits that starts `s`. */
  function DigitRun(s: string): (k: nat)
    ensures k <= |s| && AllDigits(s[..k])
    ensures k < |s| ==> !IsDigit(s[k])
    decreases |s|
  {
    if |s| > 0 && IsDigit(s[0]) then
      var k := DigitRun(s[1..]);
      assert s[..k + 1] == [s[0]] + s[1..][..k];
      k + 1
    else 0
  }

  /** An optional `.f` .. `.ffffff` fraction: microseconds and what follows. */
  function ParseFraction(rest: string): (r: Result<(int, string)>)
    ensures r.Ok? ==> 0 <= r.value.0 < 1000000 && |r.value.1| <= |rest|
    ensures |rest| == 0 || rest[0] != '.' ==> r == Ok((0, rest))
  {
    if |rest| > 0 && rest[0] == '.' then
      var k := DigitRun(rest[1..]);
      assert rest[1..][..k] == rest[1..1 + k];
      if 1 <= k <= 6 then Ok((Microseconds(rest[1..1 + k]), rest[1 + k..]))
      else Err(ValueError(InvalidIso))
    else Ok((0, rest))
  }

  /** After a `.`, the fraction is the whole run of digits that follows, it
      must hold one to six digits, and it is read as that many decimal
      places of a second. */
  lemma FractionValue(rest: string)
    requires |rest| > 0 && rest[0] == '.'
    ensures var r := ParseFraction(rest);
            r.Ok? ==>
              var k := |rest| - 1 - |r.value.1|;
              1 <= k <= 6 && AllDigits(rest[1..1 + k]) && r.value.1 == rest[1 + k..]
              && (|r.value.1| == 0 || !IsDigit(r.value.1[0]))
              && r.value.0 == DigitsValue(rest[1..1 + k]) * Pow10(6 - k)
    ensures |rest| == 1 || !IsDigit(rest[1]) ==> ParseFraction(rest) == Err(ValueError(InvalidIso))
    ensures |rest| >= 8 && AllDigits(rest[1..8]) ==> ParseFraction(rest) == Err(ValueError(InvalidIso))
  {
    var k := DigitRun(rest[1..]);
    assert rest[1..][..k] == rest[1..1 + k];
    if |rest| >= 8 {
      assert rest[1..][..7] == rest[1..8];
    }
  }

  /** One to six fraction digits scaled to microseconds. */
  function Microseconds(ds: string): (r: int)
    requires 1 <= |ds| <= 6 && AllDigits(ds)
    ensures 0 <= r < 1000000
  {
    FractionBound(ds);
    DigitsValue(ds) * Pow10(6 - |ds|)
  }

  lemma FractionBound(ds: string)
    requires AllDigits(ds) && 1 <= |ds| <= 6
    ensures DigitsValue(ds) * Pow10(6 - |ds|) < 1000000
  {
    DigitsBound(ds);
    assert Pow10(|ds|) * Pow10(6 - |ds|) == 1000000 by {
      Pow10Add(|ds|, 6 - |ds|);
    }
    assert DigitsValue(ds) * Pow10(6 - |ds|) < Pow10(|ds|) * Pow10(6 - |ds|) by {
      var p := Pow10(6 - |ds|);
      assert p >= 1 by { Pow10Positive(6 - |ds|); }
      LessTimesPositive(DigitsValue(ds), Pow10(|ds|), p);
    }
  }

  lemma LessTimesPositive(a: int, b: int, p: int)
    requires a < b && p >= 1
    ensures a * p < b * p
  {
  }

  lemma {:induction false} Pow10Positive(n: nat)
    ensures Pow10(n) >= 1
  {
    if n > 0 {
      Pow10Positive(n - 1);
    }
  }

  lemma {:induction false} Pow10Add(a: nat, b: nat)
    ensures Pow10(a) * Pow10(b) == Pow10(a + b)
    decreases a
  {
    if a > 0 {
      Pow10Add(a - 1, b);
      assert Pow10(a) * Pow10(b) == 10 * (Pow10(a - 1) * Pow10(b));
    }
  }

  lemma {:induction false} DigitsBound(ds: string)
    requires AllDigits(ds)
    ensures DigitsValue(ds) < Pow10(|ds|)
    decreases |ds|
  {
    if |ds| > 0 {
      DigitsBound(ds[..|ds| - 1]);
    }
  }

  /** An optional `+HH:MM` / `-HH:MM` offset; nothing may follow it. */
  function ParseOffset(rest: string): (r: Result<Option<int>>)
    ensures r.Ok? && r.value.Some? ==> -86400 < r.value.value < 86400
    ensures r == Ok(None) <==> |rest| == 0
    ensures r.Ok? && r.value.Some? ==>
              |rest| == 6 && (rest[0] == '+' || rest[0] == '-') && rest[3] == ':'
              && AllDigits(rest[1..3]) && AllDigits(rest[4..6])
              && r.value.value == (if rest[0] == '-' then -1 else 1)
                                  * (DigitsValue(rest[1..3]) * 3600 + DigitsValue(rest[4..6]) * 60)
  {
    if |rest| == 0 then Ok(None)
    else if |rest| == 6 && (rest[0] == '+' || rest[0] == '-') && AllDigits(rest[1..3])
            && rest[3] == ':' && AllDigits(rest[4..6]) then
      var h, m := DigitsValue(rest[1..3]), DigitsValue(rest[4..6]);
      if h < 24 && m < 60 then
        var magnitude := h * 3600 + m * 60;
        Ok(Some(if rest[0] == '-' then -magnitude else magnitude))
      else Err(ValueError(InvalidIso))
    else Err(ValueError(InvalidIso))
  }

  /** `datetime.fromisoformat` on `YYYY-MM-DDTHH:MM:SS[.f{1,6}][(+|-)HH:MM]`. */
  function FromIsoFormat(s: string): (r: Result<DateTime>)
    ensures r.Ok? ==> InRange(r.value.wall) && 0 <= r.value.micro < 1000000
  {
    if |s| < 19 then Err(ValueError(InvalidIso))
    else
      var f :- ParseBase(s);
      var fr :- ParseFraction(s[19..]);
      var tz :- ParseOffset(fr.1);
      FieldsRoundTrip(f);
      Ok(DateTime(FieldsToSeconds(f), fr.0, tz))
  }

  /** A parsed value takes its wall clock from the first 19 characters, its
      microseconds from the fraction and its offset from what follows. */
  lemma IsoParts(s: string)
    ensures var r := FromIsoFormat(s);
            r.Ok? ==>
              |s| >= 19 && BaseShape(s) && ValidFields(BaseFields(s))
              && r.value.wall == FieldsToSeconds(BaseFields(s))
              && ParseFraction(s[19..]).Ok? && r.value.micro == ParseFraction(s[19..]).value.0
              && ParseOffset(ParseFraction(s[19..]).value.1) == Ok(r.value.tz)
  {
  }

  /** `parse_canvas_datetime`: empty input is a ValueError, `Z` is read as
      `+00:00`, and a naive result is taken as UTC. */
  function ParseCanvasDatetime(value: string): (r: Result<DateTime>)
    ensures |value| == 0 ==> r.Err? && r.error.ValueError?
    ensures r.Ok? ==> r.value.tz.Some?
  {
    if |value| == 0 then Err(ValueError("Empty datetime string"))
    else
      var dt :- FromIsoFormat(ReplaceZ(value));
      if dt.tz.None? then Ok(dt.(tz := Some(0))) else Ok(dt)
  }

  // ---------------------------------------------------------------------
  // Conversions
  // ---------------------------------------------------------------------

  /** The UTC instant in whole seconds (fraction dropped) of `dt`, reading a
      naive value with offset `naiveOffset`. */
  function UtcSeconds(dt: DateTime, naiveOffset: int): int {
    dt.wall - dt.tz.GetOr(naiveOffset)
  }

  /** `to_utc_iso_z`: a naive value is local time; the result is the
      canonical string of the instant truncated down to the second, or
      OverflowError when that instant is outside years 1..9999. */
  function ToUtcIsoZ(dt: DateTime, localOffset: int): (r: Result<string>)
    ensures r.Ok? <==> InRange(UtcSeconds(dt, localOffset))
    ensures r.Ok? ==> IsCanonical(r.value)
    ensures r.Ok? ==> r.value[|r.value| - 1] == 'Z' && '+' !in r.value && '.' !in r.value
  {
    var t := UtcSeconds(dt, localOffset);
    if InRange(t) then
      FormatIsCanonical(t);
      Ok(Format(t))
    else Err(OverflowError)
  }

  /** The stored text is the canonical text of the instant. */
  lemma ToUtcIsoZIsFormat(dt: DateTime, localOffset: int)
    requires InRange(UtcSeconds(dt, localOffset))
    ensures ToUtcIsoZ(dt, localOffset) == Ok(Format(UtcSeconds(dt, localOffset)))
  {
  }

  /** `to_utc_iso_z` as the store keeps its result: the instant the text
      denotes, or the OverflowError the conversion raises. */
  function StoredInstant(dt: DateTime, localOffset: int): (r: Result<int>)
    ensures r.Ok? <==> InRange(UtcSeconds(dt, localOffset))
    ensures r.Ok? ==> r.value == UtcSeconds(dt, localOffset)
    ensures r.Err? ==> r.error == OverflowError
  {
    var t := UtcSeconds(dt, localOffset);
    if InRange(t) then Ok(t) else Err(OverflowError)
  }

  /** The stored instant and the text agree: the text is the instant's
      canonical form, and both fail together with the same exception. */
  lemma StoredInstantIsText(dt: DateTime, localOffset: int)
    ensures StoredInstant(dt, localOffset).Ok? ==>
              ToUtcIsoZ(dt, localOffset) == Ok(Format(StoredInstant(dt, localOffset).value))
    ensures StoredInstant(dt, localOffset).Err? ==>
              ToUtcIsoZ(dt, localOffset) == Err(StoredInstant(dt, localOffset).error)
  {
  }

  /** `to_local` on a datetime: a naive value is taken as UTC and the result
      is aware in the local zone. `astimezone` first forms the UTC value
      (`self - utcoffset`), then adds the local offset, and either step
      raises OverflowError when it leaves years 1..9999. */
  function ToLocal(dt: DateTime, localOffset: int): (r: Result<DateTime>)
    ensures r.Ok? <==> InRange(UtcSeconds(dt, 0)) && InRange(UtcSeconds(dt, 0) + localOffset)
    ensures r.Err? ==> r.error == OverflowError
    ensures r.Ok? ==> r.value.tz == Some(localOffset) && r.value.micro == dt.micro
    ensures r.Ok? ==> UtcSeconds(r.value, 0) == UtcSeconds(dt, 0)
  {
    var utc := UtcSeconds(dt, 0);
    var wall := utc + localOffset;
    if InRange(utc) && InRange(wall) then Ok(DateTime(wall, dt.micro, Some(localOffset))) else Err(OverflowError)
  }

  /** `to_local` on a string: parse first, then convert. */
  function ToLocalText(s: string, localOffset: int): Result<DateTime> {
    var dt :- ParseCanvasDatetime(s);
    ToLocal(dt, localOffset)
  }

  // ---------------------------------------------------------------------
  // Round trips between the stored text and datetime values
  // ---------------------------------------------------------------------

  lemma BaseNoZ(s: string)
    requires |s| >= 19 && BaseShape(s)
    ensures 'Z' !in s[..19]
  {
    forall i | 0 <= i < 19
      ensures s[i] != 'Z'
    {
      if i < 4 {
        assert s[0..4][i] == s[i];
      } else if 5 <= i < 7 {
        assert s[5..7][i - 5] == s[i];
      } else if 8 <= i < 10 {
        assert s[8..10][i - 8] == s[i];
      } else if 11 <= i < 13 {
        assert s[11..13][i - 11] == s[i];
      } else if 14 <= i < 16 {
        assert s[14..16][i - 14] == s[i];
      } else if 17 <= i < 19 {
        assert s[17..19][i - 17] == s[i];
      }
    }
  }

  /** The base fields depend on the first 19 characters only. */
  lemma BaseOfPrefix(b: string, s: string)
    requires |b| == 19 && |s| >= 19 && s[..19] == b
    ensures BaseShape(s) == BaseShape(b)
    ensures BaseShape(b) ==> BaseFields(s) == BaseFields(b)
  {
    assert s[0..4] == b[0..4] && s[5..7] == b[5..7] && s[8..10] == b[8..10];
    assert s[11..13] == b[11..13] && s[14..16] == b[14..16] && s[17..19] == b[17..19];
    assert s[4] == b[4] && s[7] == b[7] && s[10] == b[10] && s[13] == b[13] && s[16] == b[16];
  }

  /** A 19-character base followed by an offset (or nothing) parses to the
      base's instant with that offset. */
  lemma BaseThenOffset(b: string, off: string)
    requires |b| == 19 && BaseShape(b) && ValidFields(BaseFields(b))
    requires |off| == 0 || off[0] != '.'
    ensures ParseOffset(off).Ok? ==>
              FromIsoFormat(b + off) == Ok(DateTime(FieldsToSeconds(BaseFields(b)), 0, ParseOffset(off).value))
    ensures ParseOffset(off).Err? ==> FromIsoFormat(b + off) == Err(ParseOffset(off).error)
  {
    var s := b + off;
    assert s[..19] == b && s[19..] == off;
    BaseOfPrefix(b, s);
  }

  /** An offset written as sign, two-digit hours, `:` and two-digit minutes
      reads back as that many seconds east of UTC. */
  lemma OffsetOfText(sign: char, h: int, m: int)
    requires sign == '+' || sign == '-'
    requires 0 <= h < 24 && 0 <= m < 60
    ensures ParseOffset([sign] + Pad2(h) + ":" + Pad2(m))
            == Ok(Some((if sign == '-' then -1 else 1) * (h * 3600 + m * 60)))
  {
    var s := [sign] + Pad2(h) + ":" + Pad2(m);
    assert s[1..3] == Pad2(h) && s[4..6] == Pad2(m);
  }

  /** `.5` is half a second. */
  lemma FractionHalf()
    ensures ParseFraction(".5") == Ok((500000, ""))
  {
    assert ".5"[1..] == "5" && "5"[1..] == "";
    assert DigitRun("5") == 1;
    assert ".5"[1..][..1] == "5" && DigitsValue("5") == 5;
  }

  /** Seven fraction digits, or a `.` with no digit after it, are rejected. */
  lemma FractionRejects()
    ensures ParseFraction(".1234567") == Err(ValueError(InvalidIso))
    ensures ParseFraction(".+00:00") == Err(ValueError(InvalidIso))
  {
    FractionValue(".1234567");
    FractionValue(".+00:00");
  }

  lemma UtcOffsetsAreZero()
    ensures ParseOffset("+00:00") == Ok(Some(0))
    ensures ParseOffset("-00:00") == Ok(Some(0))
  {
    assert "+00:00"[1..3] == "00" && "+00:00"[4..6] == "00";
    assert "-00:00"[1..3] == "00" && "-00:00"[4..6] == "00";
    assert DigitsValue("00") == 0;
  }

  lemma ReplaceZSuffixes(b: string)
    requires 'Z' !in b
    ensures ReplaceZ(b + "Z") == b + "+00:00"
    ensures ReplaceZ(b + "+00:00") == b + "+00:00"
    ensures ReplaceZ(b + "-00:00") == b + "-00:00"
    ensures ReplaceZ(b) == b
  {
    ReplaceZIdentity(b);
    ReplaceZOfZ(b);
    ReplaceZKeeps(b, "+00:00");
    ReplaceZKeeps(b, "-00:00");
  }

  lemma ReplaceZOfZ(b: string)
    requires 'Z' !in b
    ensures ReplaceZ(b + "Z") == b + "+00:00"
  {
    ReplaceZAppend(b, "Z");
    ReplaceZIdentity(b);
    assert ReplaceZ("Z") == "+00:00";
  }

  lemma ReplaceZKeeps(b: string, suffix: string)
    requires 'Z' !in b && 'Z' !in suffix
    ensures ReplaceZ(b + suffix) == b + suffix
  {
    ReplaceZAppend(b, suffix);
    ReplaceZIdentity(b);
    ReplaceZIdentity(suffix);
  }

  /** `Z`, `+00:00`, `-00:00` and no suffix at all give the same value after
      a 19-character base. */
  lemma UtcSuffixesAgree(b: string)
    requires |b| == 19 && 'Z' !in b
    ensures ParseCanvasDatetime(b + "Z") == ParseCanvasDatetime(b + "+00:00")
    ensures ParseCanvasDatetime(b + "-00:00") == ParseCanvasDatetime(b + "+00:00")
    ensures ParseCanvasDatetime(b) == ParseCanvasDatetime(b + "+00:00")
    ensures BaseShape(b) && ValidFields(BaseFields(b)) ==>
              ParseCanvasDatetime(b + "+00:00") == Ok(DateTime(FieldsToSeconds(BaseFields(b)), 0, Some(0)))
  {
    ReplaceZSuffixes(b);
    assert ParseCanvasDatetime(b + "Z") == ParseCanvasDatetime(b + "+00:00");
    if BaseShape(b) && ValidFields(BaseFields(b)) {
      ValidBaseSuffixes(b);
    } else {
      InvalidBaseSuffixes(b);
    }
  }

  lemma ValidBaseSuffixes(b: string)
    requires |b| == 19 && 'Z' !in b && BaseShape(b) && ValidFields(BaseFields(b))
    ensures var v := Ok(DateTime(FieldsToSeconds(BaseFields(b)), 0, Some(0)));
            FromIsoFormat(b + "+00:00") == v && FromIsoFormat(b + "-00:00") == v
            && FromIsoFormat(b) == Ok(DateTime(FieldsToSeconds(BaseFields(b)), 0, None))
  {
    UtcOffsetsAreZero();
    BaseThenOffset(b, "+00:00");
    BaseThenOffset(b, "-00:00");
    BaseThenOffset(b, "");
    assert b + "" == b;
  }

  lemma InvalidBaseSuffixes(b: string)
    requires |b| == 19 && !(BaseShape(b) && ValidFields(BaseFields(b)))
    ensures FromIsoFormat(b + "+00:00") == Err(ValueError(InvalidIso))
    ensures FromIsoFormat(b + "-00:00") == Err(ValueError(InvalidIso))
    ensures FromIsoFormat(b) == Err(ValueError(InvalidIso))
  {
    assert (b + "+00:00")[..19] == b && (b + "-00:00")[..19] == b && b[..19] == b;
    BaseOfPrefix(b, b + "+00:00");
    BaseOfPrefix(b, b + "-00:00");
  }

  /** A canonical text parses to its instant at UTC. */
  lemma ParseCanonical(s: string)
    requires IsCanonical(s)
    ensures ParseCanvasDatetime(s) == Ok(DateTime(FieldsToSeconds(BaseFields(s)), 0, Some(0)))
  {
    var b := s[..19];
    assert s == b + "Z";
    BaseOfPrefix(b, s);
    BaseNoZ(s);
    UtcSuffixesAgree(b);
  }

  /** Reading back a stored instant gives that instant, at UTC. */
  lemma FormatThenParse(t: int)
    requires InRange(t)
    ensures ParseCanvasDatetime(Format(t)) == Ok(DateTime(t, 0, Some(0)))
  {
    FormatIsCanonical(t);
    ParseCanonical(Format(t));
  }

  /** Re-storing a parsed canonical text gives the same text back. */
  lemma ParseThenFormat(s: string, localOffset: int)
    requires IsCanonical(s)
    ensures ParseCanvasDatetime(s).Ok?
    ensures ToUtcIsoZ(ParseCanvasDatetime(s).value, localOffset) == Ok(s)
  {
    ParseCanonical(s);
    var t := FieldsToSeconds(BaseFields(s));
    CanonicalIsFormat(s);
    assert ParseCanvasDatetime(s).value == DateTime(t, 0, Some(0));
    assert UtcSeconds(DateTime(t, 0, Some(0)), localOffset) == t;
  }

  /** `to_utc_iso_z` keeps the instant and drops the sub-second part. */
  lemma ToUtcIsoZTruncates(dt: DateTime, localOffset: int)
    requires ToUtcIsoZ(dt, localOffset).Ok?
    ensures ParseCanvasDatetime(ToUtcIsoZ(dt, localOffset).value)
            == Ok(DateTime(UtcSeconds(dt, localOffset), 0, Some(0)))
  {
    FormatThenParse(UtcSeconds(dt, localOffset));
  }

  /** A naive value is local time to `to_utc_iso_z` but UTC to `to_local`:
      the instant stored is `wall - localOffset`, the wall clock shown is
      `wall + localOffset`. */
  lemma NaiveReadings(dt: DateTime, localOffset: int)
    requires dt.tz.None?
    ensures UtcSeconds(dt, localOffset) == dt.wall - localOffset
    ensures ToUtcIsoZ(dt, localOffset).Ok? ==>
              ToUtcIsoZ(dt, localOffset) == Ok(Format(UtcSeconds(dt, localOffset)))
    ensures ToLocal(dt, localOffset).Ok? ==>
              ToLocal(dt, localOffset).value.wall == dt.wall + localOffset
  {
    if ToUtcIsoZ(dt, localOffset).Ok? {
      ToUtcIsoZIsFormat(dt, localOffset);
    }
    assert UtcSeconds(dt, 0) == dt.wall;
  }

  /** A naive local time stored with `to_utc_iso_z` and shown with
      `to_local` keeps its wall-clock fields, to the second. */
  lemma LocalTimeRoundTrip(dt: DateTime, localOffset: int)
    requires dt.tz.None? && InRange(dt.wall)
    requires ToUtcIsoZ(dt, localOffset).Ok?
    ensures ToLocalText(ToUtcIsoZ(dt, localOffset).value, localOffset)
            == Ok(DateTime(dt.wall, 0, Some(localOffset)))
  {
    ToUtcIsoZTruncates(dt, localOffset);
    var t := dt.wall - localOffset;
    assert UtcSeconds(dt, localOffset) == t;
    var parsed := DateTime(t, 0, Some(0));
    assert ToLocalText(ToUtcIsoZ(dt, localOffset).value, localOffset) == ToLocal(parsed, localOffset);
    ShownAt(parsed, localOffset, dt.wall);
  }

  /** `to_local` of a value whose in-range instant plus the offset is `wall`. */
  lemma ShownAt(dt: DateTime, localOffset: int, wall: int)
    requires InRange(UtcSeconds(dt, 0)) && UtcSeconds(dt, 0) + localOffset == wall && InRange(wall)
    ensures ToLocal(dt, localOffset) == Ok(DateTime(wall, dt.micro, Some(localOffset)))
  {
  }

  // ---------------------------------------------------------------------
  // Weeks
  // ---------------------------------------------------------------------

  /** `weekday()`: Monday is 0. 1970-01-01 was a Thursday. */
  function Weekday(wall: int): (w: int)
    ensures 0 <= w < 7
  {
    (DayOf(wall) + 3) % 7
  }

  /** Midnight of the Monday on or before the day of `wall`. */
  function MondayMidnight(wall: int): int {
    (DayOf(wall) - Weekday(wall)) * 86400
  }

  /** Monday 00:00:00 to Sunday 23:59:59: six days, 23:59:59. */
  const WeekSpan: int := 6 * 86400 + 23 * 3600 + 59 * 60 + 59

  /** The Monday on or before an in-range day is in range too:
      0001-01-01, the first day, was a Monday. */
  lemma MondayInRange(wall: int)
    requires InRange(wall)
    ensures InRange(MondayMidnight(wall))
    ensures DayOf(MondayMidnight(wall)) == DayOf(wall) - Weekday(wall)
    ensures Weekday(MondayMidnight(wall)) == 0 && SecondOfDay(MondayMidnight(wall)) == 0
  {
    var d := DayOf(wall);
    assert DayOf(MondayMidnight(wall)) == d - Weekday(wall);
    assert (3 - EpochOrdinal) % 7 == 0;
  }

  /** `week_start_end_local`: the reference defaults to `now` (a naive local
      `datetime.now()`); a naive reference is given the local zone and an
      aware one keeps its own offset. Moving to Sunday 23:59:59 raises
      OverflowError in the last week of year 9999. */
  function WeekStartEndLocal(reference: Option<DateTime>, now: DateTime, localOffset: int)
    : (w: Result<(DateTime, DateTime)>)
    requires now.tz.None?
    requires InRange(reference.GetOr(now).wall)
    ensures w.Err? <==> !InRange(MondayMidnight(reference.GetOr(now).wall) + WeekSpan)
    ensures w.Err? ==> w.error == OverflowError
  {
    var r := reference.GetOr(now);
    var tz := if r.tz.None? then Some(localOffset) else r.tz;
    var monday := MondayMidnight(r.wall);
    if InRange(monday + WeekSpan) then Ok((DateTime(monday, 0, tz), DateTime(monday + WeekSpan, 0, tz)))
    else Err(OverflowError)
  }

  /** The window runs from Monday 00:00:00 to Sunday 23:59:59 of the
      reference's week, in the reference's zone (the local one if naive). */
  lemma WeekWindowShape(reference: Option<DateTime>, now: DateTime, localOffset: int)
    requires now.tz.None?
    requires InRange(reference.GetOr(now).wall)
    requires WeekStartEndLocal(reference, now, localOffset).Ok?
    ensures var (mon, sun) := WeekStartEndLocal(reference, now, localOffset).value;
            var r := reference.GetOr(now);
            && Weekday(mon.wall) == 0 && SecondOfDay(mon.wall) == 0
            && Weekday(sun.wall) == 6 && SecondOfDay(sun.wall) == WeekSpan - 6 * 86400
            && sun.wall - mon.wall == WeekSpan
            && mon.micro == 0 && sun.micro == 0
            // the reference lies in the window, up to its dropped fraction
            && mon.wall <= r.wall <= sun.wall
            && (r.tz.Some? ==> mon.tz == r.tz && sun.tz == r.tz)
            && (r.tz.None? ==> mon.tz == Some(localOffset) && sun.tz == Some(localOffset))
  {
    var r := reference.GetOr(now);
    var d := DayOf(r.wall);
    var monday := MondayMidnight(r.wall);
    assert DayOf(monday) == d - Weekday(r.wall);
    assert DayOf(monday + WeekSpan) == d - Weekday(r.wall) + 6;
  }

  /** Only the last week of the calendar overflows: every reference day
      before 9999-12-27 has a window. */
  lemma WeekWindowExists(reference: Option<DateTime>, now: DateTime, localOffset: int)
    requires now.tz.None?
    requires InRange(reference.GetOr(now).wall)
    requires DayOf(reference.GetOr(now).wall) + EpochOrdinal <= MaxOrdinal - 6
    ensures WeekStartEndLocal(reference, now, localOffset).Ok?
  {
    MondayInRange(reference.GetOr(now).wall);
    var m := MondayMidnight(reference.GetOr(now).wall);
    assert DayOf(m + WeekSpan) == DayOf(m) + 6;
  }

  /** Seen from a Monday midnight, an instant lies in that Monday's week
      exactly when its own Monday is that Monday. */
  lemma MondayOfWeek(m: int, x: int)
    requires Weekday(m) == 0 && SecondOfDay(m) == 0
    ensures (m <= x <= m + WeekSpan) <==> MondayMidnight(x) == m
  {
    var d := DayOf(m);
    assert m == d * 86400;
    var e := DayOf(x);
    assert e * 86400 <= x < e * 86400 + 86400;
    if m <= x <= m + WeekSpan {
      assert d <= e <= d + 6;
      assert Weekday(x) == e - d;
    }
    if MondayMidnight(x) == m {
      assert e - Weekday(x) == d;
    }
  }

  /** Sunday 23:59 and the following Monday 00:01 fall in consecutive weeks. */
  lemma SundayNightThenMonday(sunday: int)
    requires Weekday(sunday) == 6 && SecondOfDay(sunday) == 23 * 3600 + 59 * 60
    ensures MondayMidnight(sunday) <= sunday
    ensures Weekday(sunday + 120) == 0
    ensures MondayMidnight(sunday + 120) == MondayMidnight(sunday) + 7 * 86400
  {
    assert DayOf(sunday + 120) == DayOf(sunday) + 1;
  }

  /** The `strftime("%Y-%U")` key of a week: the year, and the week number
      counting weeks that start on Sunday. */
  datatype WeekKey = WeekKey(year: int, week: int)

  /** `%U`: days before the first Sunday of the year are week 0. */
  function WeekNumber(yday: int, weekday: int): int {
    (yday + 7 - (weekday + 1) % 7) / 7
  }

  function WeekKeyOf(wall: int): WeekKey
    requires InRange(wall)
  {
    var d := FieldsOf(wall).date;
    WeekKey(d.year, WeekNumber(DayOfYear(d), Weekday(wall)))
  }

  /** Distinct Mondays get distinct keys, so a per-week flag is fresh each week. */
  lemma MondayKeysDistinct(m1: int, m2: int)
    requires InRange(m1) && InRange(m2)
    requires Weekday(m1) == 0 && Weekday(m2) == 0 && DayOf(m1) != DayOf(m2)
    ensures WeekKeyOf(m1) != WeekKeyOf(m2)
  {
    if FieldsOf(m1).date.year == FieldsOf(m2).date.year {
      SameYearMondays(m1, m2);
    }
  }

  lemma SameYearMondays(m1: int, m2: int)
    requires InRange(m1) && InRange(m2)
    requires Weekday(m1) == 0 && Weekday(m2) == 0 && DayOf(m1) != DayOf(m2)
    requires FieldsOf(m1).date.year == FieldsOf(m2).date.year
    ensures WeekKeyOf(m1).week != WeekKeyOf(m2).week
  {
    var k1, k2 := MondayYdays(m1, m2);
    WeeksApart(WeekKeyOf(m1).week, WeekKeyOf(m2).week, k1, k2, DayOf(m1), DayOf(m2));
  }

  /** The days of the year of two Mondays of one year, with their week
      numbers. */
  lemma MondayYdays(m1: int, m2: int) returns (k1: int, k2: int)
    requires InRange(m1) && InRange(m2)
    requires Weekday(m1) == 0 && Weekday(m2) == 0
    requires FieldsOf(m1).date.year == FieldsOf(m2).date.year
    ensures WeekKeyOf(m1).week == WeekNumber(k1, 0) && (DayOf(m1) + 3) % 7 == 0
    ensures WeekKeyOf(m2).week == WeekNumber(k2, 0) && (DayOf(m2) + 3) % 7 == 0
    ensures k1 - k2 == DayOf(m1) - DayOf(m2)
  {
    MondayWeek(m1);
    MondayWeek(m2);
    SameYearDays(m1, m2);
    k1 := DayOfYear(FieldsOf(m1).date);
    k2 := DayOfYear(FieldsOf(m2).date);
  }

  /** MondaysApart, with the week numbers named. */
  lemma WeeksApart(w1: int, w2: int, k1: int, k2: int, n1: int, n2: int)
    requires w1 == WeekNumber(k1, 0) && w2 == WeekNumber(k2, 0)
    requires k1 - k2 == n1 - n2 && n1 != n2
    requires (n1 + 3) % 7 == 0 && (n2 + 3) % 7 == 0
    ensures w1 != w2
  {
    MondaysApart(k1, k2, n1, n2);
  }

  /** Within one year, days of the year are as far apart as the days. */
  lemma SameYearDays(m1: int, m2: int)
    requires InRange(m1) && InRange(m2)
    requires FieldsOf(m1).date.year == FieldsOf(m2).date.year
    ensures DayOfYear(FieldsOf(m1).date) - DayOfYear(FieldsOf(m2).date) == DayOf(m1) - DayOf(m2)
  {
    FieldsOfDay(m1);
    FieldsOfDay(m2);
  }

  /** The week number of a Monday counts the Mondays of its year so far. */
  lemma MondayWeek(m: int)
    requires InRange(m) && Weekday(m) == 0
    ensures WeekKeyOf(m).week == WeekNumber(DayOfYear(FieldsOf(m).date), 0)
    ensures (DayOf(m) + 3) % 7 == 0
  {
    MondayDay(m);
  }

  /** A Monday is three days before a multiple of seven days from the epoch. */
  lemma MondayDay(m: int)
    requires Weekday(m) == 0
    ensures (DayOf(m) + 3) % 7 == 0
  {
  }

  /** Two Mondays of one year are a nonzero multiple of seven days apart,
      so their Sunday-based week numbers differ. */
  lemma MondaysApart(k1: int, k2: int, n1: int, n2: int)
    requires k1 - k2 == n1 - n2 && n1 != n2
    requires (n1 + 3) % 7 == 0 && (n2 + 3) % 7 == 0
    ensures WeekNumber(k1, 0) != WeekNumber(k2, 0)
  {
  }
}

=== FILE: daytime.dfy ===
/** The two day/time parsers of the planning commands: `parse_day_time_input`
    in bot.py, which returns the canonical UTC text or None, and
    `_parse_day_time_input` in utils/weekly.py, which returns the local
    datetime or a message. Both read input such as "Wed 7:30 PM" with the
    pattern `^\s*([A-Za-z]+)\s+(\d{1,2}):(\d{2})\s*([AaPp][Mm])\s*$` and
    place it in the week of a given Monday. */
module DayTime {
  import opened Outcomes
  import opened Text
  import opened DateTimes
  import opened Constants

  // ---------------------------------------------------------------------
  // The input pattern
  // ---------------------------------------------------------------------

  /** Length of the longest prefix of `s` whose characters are in class `p`. */
  function Run(s: string, p: char -> bool): (n: nat)
    ensures n <= |s|
    ensures forall i :: 0 <= i < n ==> p(s[i])
    ensures n < |s| ==> !p(s[n])
    decreases |s|
  {
    if |s| > 0 && p(s[0]) then 1 + Run(s[1..], p) else 0
  }

  predicate AllIn(s: string, p: char -> bool) {
    forall i :: 0 <= i < |s| ==> p(s[i])
  }

  predicate IsMeridiem(ap: string) {
    |ap| == 2 && ap[0] in "AaPp" && ap[1] in "Mm"
  }

  /** The four groups of a match. */
  datatype Groups = Groups(day: string, hh: string, mm: string, ap: string)

  /** `^\s*([A-Za-z]+)\s+`: the day group and what follows the spaces. */
  function DayPart(s: string): (r: Option<(string, string)>)
    ensures r.Some? ==> |r.value.0| > 0 && AllIn(r.value.0, IsAsciiLetter)
  {
    var r1 := s[Run(s, IsSpace)..];
    var b := Run(r1, IsAsciiLetter);
    var r2 := r1[b..];
    var c := Run(r2, IsSpace);
    if b == 0 || c == 0 then None else Some((r1[..b], r2[c..]))
  }

  /** `(\d{1,2}):(\d{2})`: the hour and minute groups and the rest. */
  function ClockPart(s: string): (r: Option<(string, string, string)>)
    ensures r.Some? ==> 1 <= |r.value.0| <= 2 && AllDigits(r.value.0)
    ensures r.Some? ==> |r.value.1| == 2 && AllDigits(r.value.1)
  {
    var d := Run(s, IsDigit);
    if !(1 <= d <= 2) then None
    else if !(|s| >= d + 3 && s[d] == ':' && IsDigit(s[d + 1]) && IsDigit(s[d + 2])) then None
    else Some((s[..d], s[d + 1..d + 3], s[d + 3..]))
  }

  /** `\s*([AaPp][Mm])\s*$`: the meridiem group, with only spaces after it. */
  function MeridiemPart(s: string): (r: Option<string>)
    ensures r.Some? ==> IsMeridiem(r.value)
  {
    var r1 := s[Run(s, IsSpace)..];
    if |r1| >= 2 && IsMeridiem(r1[..2]) && AllIn(r1[2..], IsSpace) then Some(r1[..2]) else None
  }

  /** `re.match` of the pattern. Each part of the pattern is followed by a
      character its class excludes, so greedy runs never need to back off:
      the match is unique when it exists. */
  function Match(s: string): (r: Option<Groups>)
    ensures r.Some? ==> |r.value.day| > 0 && AllIn(r.value.day, IsAsciiLetter)
    ensures r.Some? ==> 1 <= |r.value.hh| <= 2 && AllDigits(r.value.hh)
    ensures r.Some? ==> |r.value.mm| == 2 && AllDigits(r.value.mm)
    ensures r.Some? ==> IsMeridiem(r.value.ap)
  {
    match DayPart(s)
    case None => None
    case Some((day, rest)) =>
      match ClockPart(rest)
      case None => None
      case Some((hh, mm, tail)) =>
        match MeridiemPart(tail)
        case None => None
        case Some(ap) => Some(Groups(day, hh, mm, ap))
  }

  /** `s` is spelled as the pattern describes, with groups `g` and the
      whitespace runs `ws1` (optional), `ws2` (required), `ws3` and `ws4`
      (optional). */
  predicate Spelled(s: string, g: Groups, ws1: string, ws2: string, ws3: string, ws4: string) {
    && AllIn(ws1, IsSpace) && |ws2| > 0 && AllIn(ws2, IsSpace) && AllIn(ws3, IsSpace) && AllIn(ws4, IsSpace)
    && |g.day| > 0 && AllIn(g.day, IsAsciiLetter)
    && 1 <= |g.hh| <= 2 && AllDigits(g.hh)
    && |g.mm| == 2 && AllDigits(g.mm)
    && IsMeridiem(g.ap)
    && s == ws1 + (g.day + (ws2 + (g.hh + ([':'] + (g.mm + (ws3 + (g.ap + ws4)))))))
  }

  /** A run of class `p` followed by something outside it. */
  lemma {:induction false} RunStops(x: string, y: string, p: char -> bool)
    requires AllIn(x, p)
    requires |y| > 0 ==> !p(y[0])
    ensures Run(x + y, p) == |x|
    ensures (x + y)[..|x|] == x && (x + y)[|x|..] == y
    decreases |x|
  {
    if |x| > 0 {
      assert (x + y)[1..] == x[1..] + y;
      RunStops(x[1..], y, p);
    }
  }

  lemma DayPartOf(ws1: string, day: string, ws2: string, rest: string)
    requires AllIn(ws1, IsSpace) && |day| > 0 && AllIn(day, IsAsciiLetter) && |ws2| > 0 && AllIn(ws2, IsSpace)
    requires |rest| > 0 ==> !IsSpace(rest[0])
    ensures DayPart(ws1 + (day + (ws2 + rest))) == Some((day, rest))
  {
    RunStops(ws1, day + (ws2 + rest), IsSpace);
    RunStops(day, ws2 + rest, IsAsciiLetter);
    RunStops(ws2, rest, IsSpace);
  }

  lemma ClockPartOf(hh: string, mm: string, tail: string)
    requires 1 <= |hh| <= 2 && AllDigits(hh) && |mm| == 2 && AllDigits(mm)
    ensures ClockPart(hh + ([':'] + (mm + tail))) == Some((hh, mm, tail))
  {
    var s := hh + ([':'] + (mm + tail));
    RunStops(hh, [':'] + (mm + tail), IsDigit);
    assert s[|hh|..] == [':'] + (mm + tail);
    assert s[|hh| + 1..] == mm + tail;
    assert s[|hh| + 1..|hh| + 3] == mm && s[|hh| + 3..] == tail;
  }

  lemma MeridiemPartOf(ws3: string, ap: string, ws4: string)
    requires AllIn(ws3, IsSpace) && IsMeridiem(ap) && AllIn(ws4, IsSpace)
    ensures MeridiemPart(ws3 + (ap + ws4)) == Some(ap)
  {
    RunStops(ws3, ap + ws4, IsSpace);
    var r1 := ap + ws4;
    assert r1[..2] == ap && r1[2..] == ws4;
  }

  /** Every spelling of the pattern is matched, with exactly its groups. */
  lemma MatchComplete(s: string, g: Groups, ws1: string, ws2: string, ws3: string, ws4: string)
    requires Spelled(s, g, ws1, ws2, ws3, ws4)
    ensures Match(s) == Some(g)
  {
    var tail := ws3 + (g.ap + ws4);
    var rest := g.hh + ([':'] + (g.mm + tail));
    DayPartOf(ws1, g.day, ws2, rest);
    ClockPartOf(g.hh, g.mm, tail);
    MeridiemPartOf(ws3, g.ap, ws4);
  }

  /** Every match is a spelling of the pattern. */
  lemma MatchSound(s: string)
    requires Match(s).Some?
    ensures exists ws1, ws2, ws3, ws4 :: Spelled(s, Match(s).value, ws1, ws2, ws3, ws4)
  {
    var g := Match(s).value;
    var ws1, ws2, rest := DayPartSound(s);
    var tail := ClockPartSound(rest);
    var ws3, ws4 := MeridiemPartSound(tail);
    assert Spelled(s, g, ws1, ws2, ws3, ws4);
  }

  lemma DayPartSound(s: string) returns (ws1: string, ws2: string, rest: string)
    requires DayPart(s).Some?
    ensures rest == DayPart(s).value.1
    ensures AllIn(ws1, IsSpace) && |ws2| > 0 && AllIn(ws2, IsSpace)
    ensures s == ws1 + (DayPart(s).value.0 + (ws2 + rest))
  {
    var a := Run(s, IsSpace);
    var r1 := s[a..];
    var b := Run(r1, IsAsciiLetter);
    var r2 := r1[b..];
    var c := Run(r2, IsSpace);
    ws1, ws2, rest := s[..a], r2[..c], r2[c..];
    Cut(r2, c);
    Cut(r1, b);
    Cut(s, a);
  }

  lemma ClockPartSound(s: string) returns (tail: string)
    requires ClockPart(s).Some?
    ensures tail == ClockPart(s).value.2
    ensures s == ClockPart(s).value.0 + ([':'] + (ClockPart(s).value.1 + tail))
  {
    var d := Run(s, IsDigit);
    tail := s[d + 3..];
    var mm := s[d + 1..d + 3];
    assert s[d + 1..] == mm + tail;
    assert s[d..] == [s[d]] + s[d + 1..];
    assert s == s[..d] + s[d..];
  }

  lemma MeridiemPartSound(s: string) returns (ws3: string, ws4: string)
    requires MeridiemPart(s).Some?
    ensures AllIn(ws3, IsSpace) && AllIn(ws4, IsSpace)
    ensures s == ws3 + (MeridiemPart(s).value + ws4)
  {
    var a := Run(s, IsSpace);
    var r1 := s[a..];
    ws3, ws4 := s[..a], r1[2..];
    assert r1 == r1[..2] + ws4;
    assert s == ws3 + r1;
  }

  // ---------------------------------------------------------------------
  // From groups to a time of the week
  // ---------------------------------------------------------------------

  /** `int(hh) % 12`, plus 12 when `ap.lower() == 'pm'`. */
  function Hour(hh: string, ap: string): (h: int)
    requires AllDigits(hh) && IsMeridiem(ap)
    ensures 0 <= h <= 23
    ensures DigitsValue(hh) == 12 ==> h == (if LowerChar(ap[0]) == 'p' then 12 else 0)
    ensures 1 <= DigitsValue(hh) <= 11 ==> h == DigitsValue(hh) + (if LowerChar(ap[0]) == 'p' then 12 else 0)
  {
    DigitsValue(hh) % 12 + (if LowerChar(ap[0]) == 'p' then 12 else 0)
  }

  /** `week_monday + timedelta(days=day_idx)`, then `.replace(hour=hour,
      minute=minute, second=0, microsecond=0)`, then `.replace(tzinfo=local)`.
      The day step raises OverflowError past 9999-12-31; `replace`
      rejects a minute of 60 or more with ValueError. */
  function PlaceLocal(monday: DateTime, dayIdx: int, hour: int, minute: int, localOffset: int): (r: Result<DateTime>)
    requires 0 <= hour <= 23 && 0 <= minute
    ensures r.Err? ==> (r.error == OverflowError <==> !InRange(monday.wall + dayIdx * 86400))
    ensures r.Err? <==> !InRange(monday.wall + dayIdx * 86400) || minute >= 60
    ensures r.Ok? ==> && r.value.tz == Some(localOffset) && r.value.micro == 0
                      && DayOf(r.value.wall) == DayOf(monday.wall) + dayIdx
                      && SecondOfDay(r.value.wall) == hour * 3600 + minute * 60
                      && InRange(r.value.wall)
  {
    var shifted := monday.wall + dayIdx * 86400;
    if !InRange(shifted) then Err(OverflowError)
    else if minute >= 60 then Err(ValueError("minute must be in 0..59"))
    else
      var wall := DayOf(shifted) * 86400 + hour * 3600 + minute * 60;
      assert DayOf(shifted) == DayOf(monday.wall) + dayIdx;
      assert DayOf(wall) == DayOf(shifted);
      Ok(DateTime(wall, 0, Some(localOffset)))
  }

  /** The matched groups placed on day `d` of the week of `monday`, at
      `Hour(hh, ap)` and minute `mm`, local time. */
  function PlaceGroups(g: Groups, d: int, monday: DateTime, localOffset: int): (r: Result<DateTime>)
    requires AllDigits(g.hh) && AllDigits(g.mm) && IsMeridiem(g.ap)
    ensures r.Ok? <==> InRange(monday.wall + d * 86400) && DigitsValue(g.mm) < 60
    ensures r.Err? ==> (r.error == OverflowError <==> !InRange(monday.wall + d * 86400))
    ensures r.Ok? ==> && r.value.tz == Some(localOffset)
                      && DayOf(r.value.wall) == DayOf(monday.wall) + d
                      && SecondOfDay(r.value.wall) == Hour(g.hh, g.ap) * 3600 + DigitsValue(g.mm) * 60
  {
    PlaceLocal(monday, d, Hour(g.hh, g.ap), DigitsValue(g.mm), localOffset)
  }

  // ---------------------------------------------------------------------
  // The two parsers
  // ---------------------------------------------------------------------

  /** The day table written out inside `parse_day_time_input`. */
  const BotDayMap: map<string, int> := map[
    "mon" := 0, "monday" := 0,
    "tue" := 1, "tues" := 1, "tuesday" := 1,
    "wed" := 2, "wednesday" := 2,
    "thu" := 3, "thurs" := 3, "thursday" := 3,
    "fri" := 4, "friday" := 4,
    "sat" := 5, "saturday" := 5,
    "sun" := 6, "sunday" := 6
  ]

  /** bot.py's own day table is the shared one. */
  lemma BotDayMapIsDayNameMap()
    ensures BotDayMap == DayNameMap
  {
  }

  const FormatMessage: string := "Sorry, I didn't understand. Please use format like 'Wed 7:30 PM'."
  const UnknownDayMessage: string := "Unknown day. Try Mon/Tue/Wed/Thu/Fri/Sat/Sun."

  /** What `_parse_day_time_input` returns without raising. */
  datatype Parsed = Planned(at: DateTime) | Rejected(message: string)

  /** `_parse_day_time_input(input, week_monday)`: the local datetime, or
      the message to send back; a minute of 60 or more, or a day past year
      9999, raises. */
  function WeeklyParse(input: string, monday: DateTime, localOffset: int): (r: Result<Parsed>)
    ensures Match(input).None? ==> r == Ok(Rejected(FormatMessage))
    ensures Match(input).Some? && DayIndex(Match(input).value.day).None? ==> r == Ok(Rejected(UnknownDayMessage))
    ensures r.Ok? && r.value.Rejected? ==> r.value.message in {FormatMessage, UnknownDayMessage}
    ensures r.Ok? && r.value.Planned? ==> r.value.at.tz == Some(localOffset)
    ensures r.Ok? && r.value.Planned? ==>
              DayOf(monday.wall) <= DayOf(r.value.at.wall) <= DayOf(monday.wall) + 6
    ensures Match(input).Some? && DayIndex(Match(input).value.day).Some? ==>
              var g := Match(input).value;
              var d := DayIndex(g.day).value;
              && (r.Ok? <==> InRange(monday.wall + d * 86400) && DigitsValue(g.mm) < 60)
              && (r.Ok? ==> && r.value.Planned?
                            && DayOf(r.value.at.wall) == DayOf(monday.wall) + d
                            && SecondOfDay(r.value.at.wall) == Hour(g.hh, g.ap) * 3600 + DigitsValue(g.mm) * 60)
              && (r.Err? ==> (r.error == OverflowError <==> !InRange(monday.wall + d * 86400)))
  {
    var m := Match(input);
    if m.None? then Ok(Rejected(FormatMessage)) else PlanGroups(m.value, monday, localOffset)
  }

  /** The reply of `_parse_day_time_input` once the pattern has matched. */
  function PlanGroups(g: Groups, monday: DateTime, localOffset: int): (r: Result<Parsed>)
    requires AllDigits(g.hh) && AllDigits(g.mm) && IsMeridiem(g.ap)
    ensures DayIndex(g.day).None? ==> r == Ok(Rejected(UnknownDayMessage))
    ensures r.Ok? && r.value.Rejected? ==> DayIndex(g.day).None? && r.value.message == UnknownDayMessage
    ensures r.Ok? && r.value.Planned? ==>
              DayOf(monday.wall) <= DayOf(r.value.at.wall) <= DayOf(monday.wall) + 6
    ensures DayIndex(g.day).Some? ==>
              var d := DayIndex(g.day).value;
              && (r.Ok? <==> InRange(monday.wall + d * 86400) && DigitsValue(g.mm) < 60)
              && (r.Ok? ==> && r.value.Planned? && r.value.at.tz == Some(localOffset)
                            && DayOf(r.value.at.wall) == DayOf(monday.wall) + d
                            && SecondOfDay(r.value.at.wall) == Hour(g.hh, g.ap) * 3600 + DigitsValue(g.mm) * 60)
              && (r.Err? ==> (r.error == OverflowError <==> !InRange(monday.wall + d * 86400)))
  {
    match DayIndex(g.day)
    case None => Ok(Rejected(UnknownDayMessage))
    case Some(d) =>
      var at :- PlaceGroups(g, d, monday, localOffset);
      Ok(Planned(at))
  }

  /** `parse_day_time_input(input, week_monday)` up to its last line: the
      local datetime, or None when the input does not match or names no day. */
  function BotPlace(input: string, monday: DateTime, localOffset: int): (r: Result<Option<DateTime>>)
    ensures r == Ok(None) <==> Match(input).None? || (Lower(Match(input).value.day) !in BotDayMap)
    ensures r.Ok? && r.value.Some? ==> r.value.value.tz == Some(localOffset)
    ensures r.Ok? && r.value.Some? ==>
              DayOf(monday.wall) <= DayOf(r.value.value.wall) <= DayOf(monday.wall) + 6
    ensures Match(input).Some? && Lower(Match(input).value.day) in BotDayMap ==>
              var g := Match(input).value;
              var d := BotDayMap[Lower(g.day)];
              && (r.Ok? <==> InRange(monday.wall + d * 86400) && DigitsValue(g.mm) < 60)
              && (r.Ok? ==> && r.value.Some?
                            && DayOf(r.value.value.wall) == DayOf(monday.wall) + d
                            && SecondOfDay(r.value.value.wall) == Hour(g.hh, g.ap) * 3600 + DigitsValue(g.mm) * 60)
              && (r.Err? ==> (r.error == OverflowError <==> !InRange(monday.wall + d * 86400)))
  {
    var m := Match(input);
    if m.None? then Ok(None) else BotPlaceGroups(m.value, monday, localOffset)
  }

  /** `parse_day_time_input` once the pattern has matched. */
  function BotPlaceGroups(g: Groups, monday: DateTime, localOffset: int): (r: Result<Option<DateTime>>)
    requires AllDigits(g.hh) && AllDigits(g.mm) && IsMeridiem(g.ap)
    ensures r == Ok(None) <==> Lower(g.day) !in BotDayMap
    ensures r.Ok? && r.value.Some? ==> r.value.value.tz == Some(localOffset)
    ensures r.Ok? && r.value.Some? ==>
              DayOf(monday.wall) <= DayOf(r.value.value.wall) <= DayOf(monday.wall) + 6
    ensures Lower(g.day) in BotDayMap ==>
              var d := BotDayMap[Lower(g.day)];
              && (r.Ok? <==> InRange(monday.wall + d * 86400) && DigitsValue(g.mm) < 60)
              && (r.Ok? ==> && r.value.Some?
                            && DayOf(r.value.value.wall) == DayOf(monday.wall) + d
                            && SecondOfDay(r.value.value.wall) == Hour(g.hh, g.ap) * 3600 + DigitsValue(g.mm) * 60)
              && (r.Err? ==> (r.error == OverflowError <==> !InRange(monday.wall + d * 86400)))
  {
    BotDayMapIsDayNameMap();
    DayNamesInWeek();
    var day := Lower(g.day);
    if day !in BotDayMap then Ok(None)
    else
      var at :- PlaceGroups(g, BotDayMap[day], monday, localOffset);
      Ok(Some(at))
  }

  /** `parse_day_time_input(input, week_monday)`: the canonical UTC text of
      the planned time (`to_utc_iso_z`), or None. */
  function BotParse(input: string, monday: DateTime, localOffset: int): (r: Result<Option<string>>)
    ensures r == Ok(None) <==> Match(input).None? || (Lower(Match(input).value.day) !in BotDayMap)
    ensures r.Ok? && r.value.Some? ==> IsCanonical(r.value.value)
    ensures BotPlace(input, monday, localOffset).Err? ==> r == Err(BotPlace(input, monday, localOffset).error)
    ensures r.Ok? && r.value.Some? ==>
              var p := BotPlace(input, monday, localOffset);
              && p.Ok? && p.value.Some? && InRange(UtcSeconds(p.value.value, localOffset))
              && r.value.value == Format(UtcSeconds(p.value.value, localOffset))
    ensures var p := BotPlace(input, monday, localOffset);
            p.Ok? && p.value.Some? && !InRange(UtcSeconds(p.value.value, localOffset)) ==> r == Err(OverflowError)
  {
    var placed :- BotPlace(input, monday, localOffset);
    match placed
    case None => Ok(None)
    case Some(at) =>
      match ToUtcIsoZ(at, localOffset)
      case Err(e) => Err(e)
      case Ok(text) =>
        ToUtcIsoZIsFormat(at, localOffset);
        Ok(Some(text))
  }

  /** The two parsers agree: bot.py's result is `to_utc_iso_z` of the weekly
      parser's datetime, its None is the weekly parser's message, and both
      raise the same exception on the same input. */
  lemma ParsersAgree(input: string, monday: DateTime, localOffset: int)
    ensures var w := WeeklyParse(input, monday, localOffset);
            var b := BotParse(input, monday, localOffset);
            && (w.Err? ==> b == Err(w.error))
            && (w.Ok? && w.value.Rejected? ==> b == Ok(None))
            && (w.Ok? && w.value.Planned? ==>
                  match ToUtcIsoZ(w.value.at, localOffset)
                  case Ok(text) => b == Ok(Some(text))
                  case Err(e) => b == Err(e))
  {
    BotDayMapIsDayNameMap();
  }

  /** A matched entry naming a day, with a minute below 60, is placed on
      that day of the week at `Hour(hh, ap)`:`mm` local time; the result is
      the canonical text of that instant, or OverflowError when the
      instant is outside years 1..9999. */
  lemma BotParseInstant(input: string, monday: DateTime, localOffset: int) returns (wall: int)
    requires Match(input).Some? && Lower(Match(input).value.day) in DayNameMap
    requires DigitsValue(Match(input).value.mm) < 60
    requires InRange(monday.wall + DayNameMap[Lower(Match(input).value.day)] * 86400)
    ensures var g := Match(input).value;
            && DayOf(wall) == DayOf(monday.wall) + DayNameMap[Lower(g.day)]
            && SecondOfDay(wall) == Hour(g.hh, g.ap) * 3600 + DigitsValue(g.mm) * 60
    ensures InRange(wall - localOffset) ==> BotParse(input, monday, localOffset) == Ok(Some(Format(wall - localOffset)))
    ensures !InRange(wall - localOffset) ==> BotParse(input, monday, localOffset) == Err(OverflowError)
  {
    BotDayMapIsDayNameMap();
    var at := BotPlace(input, monday, localOffset).value.value;
    wall := at.wall;
    assert UtcSeconds(at, localOffset) == wall - localOffset;
  }

  /** `Wed 7:30 PM` is placed on day 2 of the week at 7:30 PM. */
  lemma ExampleWed(monday: DateTime, localOffset: int)
    requires InRange(monday.wall) && InRange(monday.wall + 6 * 86400)
    ensures PlacedAt("Wed 7:30 PM", monday, localOffset, 2, 19 * 3600 + 30 * 60)
  {
    LowerOf("Wed", "wed");
    ExampleMatches("Wed 7:30 PM", Groups("Wed", "7", "30", "PM"), monday, localOffset, 2);
  }

  /** `Tue 9:00 AM` is placed on day 1 of the week at 9:00 AM. */
  lemma ExampleTue(monday: DateTime, localOffset: int)
    requires InRange(monday.wall) && InRange(monday.wall + 6 * 86400)
    ensures PlacedAt("Tue 9:00 AM", monday, localOffset, 1, 9 * 3600)
  {
    LowerOf("Tue", "tue");
    ExampleMatches("Tue 9:00 AM", Groups("Tue", "9", "00", "AM"), monday, localOffset, 1);
  }

  /** `Thurs 9:00 AM` is placed on day 3 of the week at 9:00 AM. */
  lemma ExampleThurs(monday: DateTime, localOffset: int)
    requires InRange(monday.wall) && InRange(monday.wall + 6 * 86400)
    ensures PlacedAt("Thurs 9:00 AM", monday, localOffset, 3, 9 * 3600)
  {
    LowerOf("Thurs", "thurs");
    ExampleMatches("Thurs 9:00 AM", Groups("Thurs", "9", "00", "AM"), monday, localOffset, 3);
  }

  /** `Fri 12:00 PM` is placed on day 4 of the week at 12:00 PM. */
  lemma ExampleFri(monday: DateTime, localOffset: int)
    requires InRange(monday.wall) && InRange(monday.wall + 6 * 86400)
    ensures PlacedAt("Fri 12:00 PM", monday, localOffset, 4, 12 * 3600)
  {
    LowerOf("Fri", "fri");
    ExampleMatches("Fri 12:00 PM", Groups("Fri", "12", "00", "PM"), monday, localOffset, 4);
  }

  /** `Sat 12:00 AM` is placed on day 5 of the week at 12:00 AM. */
  lemma ExampleSat(monday: DateTime, localOffset: int)
    requires InRange(monday.wall) && InRange(monday.wall + 6 * 86400)
    ensures PlacedAt("Sat 12:00 AM", monday, localOffset, 5, 0)
  {
    LowerOf("Sat", "sat");
    ExampleMatches("Sat 12:00 AM", Groups("Sat", "12", "00", "AM"), monday, localOffset, 5);
  }

  /** An ASCII name lower-cased letter by letter. */
  lemma LowerOf(s: string, t: string)
    requires |s| == |t| && forall i :: 0 <= i < |s| ==> LowerChar(s[i]) == t[i]
    ensures Lower(s) == t
  {
  }

  /** `input` is placed on day `d` of the week at second `secs` of that
      local day. */
  predicate PlacedAt(input: string, monday: DateTime, localOffset: int, d: int, secs: int) {
    var r := BotPlace(input, monday, localOffset);
    r.Ok? && r.value.Some? && DayOf(r.value.value.wall) == DayOf(monday.wall) + d
    && SecondOfDay(r.value.value.wall) == secs
  }

  lemma ExampleMatches(input: string, g: Groups, monday: DateTime, localOffset: int, d: int)
    requires Spelled(input, g, [], " ", " ", [])
    requires 0 <= d <= 6 && InRange(monday.wall) && InRange(monday.wall + 6 * 86400) && DigitsValue(g.mm) < 60
    requires Lower(g.day) in BotDayMap && BotDayMap[Lower(g.day)] == d
    ensures PlacedAt(input, monday, localOffset, d, Hour(g.hh, g.ap) * 3600 + DigitsValue(g.mm) * 60)
  {
    MatchComplete(input, g, [], " ", " ", []);
    InRangeBetween(monday.wall, monday.wall + d * 86400, monday.wall + 6 * 86400);
    PlacedOfMatch(input, g, monday, localOffset, d);
  }

  lemma PlacedOfMatch(input: string, g: Groups, monday: DateTime, localOffset: int, d: int)
    requires Match(input) == Some(g) && InRange(monday.wall + d * 86400) && DigitsValue(g.mm) < 60
    requires Lower(g.day) in BotDayMap && BotDayMap[Lower(g.day)] == d
    ensures PlacedAt(input, monday, localOffset, d, Hour(g.hh, g.ap) * 3600 + DigitsValue(g.mm) * 60)
  {
  }

  /** An instant between two in-range instants is in range. */
  lemma InRangeBetween(a: int, b: int, c: int)
    requires InRange(a) && InRange(c) && a <= b <= c
    ensures InRange(b)
  {
    assert DayOf(a) <= DayOf(b) <= DayOf(c);
  }

  /** A well-formed entry with a minute of 60 or more is not turned into
      None: `replace` raises ValueError. */
  lemma LargeMinuteRaises(input: string, monday: DateTime, localOffset: int)
    requires Match(input).Some? && Lower(Match(input).value.day) in DayNameMap
    requires InRange(monday.wall + DayNameMap[Lower(Match(input).value.day)] * 86400)
    requires DigitsValue(Match(input).value.mm) >= 60
    ensures BotParse(input, monday, localOffset).Err?
    ensures BotParse(input, monday, localOffset).error.ValueError?
  {
    BotDayMapIsDayNameMap();
    var g := Match(input).value;
    var day := Lower(g.day);
    var placed := PlaceLocal(monday, BotDayMap[day], Hour(g.hh, g.ap), DigitsValue(g.mm), localOffset);
    assert placed.Err? && placed.error.ValueError?;
    assert BotPlace(input, monday, localOffset) == Err(placed.error);
  }

  // ---------------------------------------------------------------------
  // Round trip
  // ---------------------------------------------------------------------

  /** How a user writes a time of the week: full day name, two-digit
      12-hour clock, minute, AM or PM. */
  function Spell(day: int, hour: int, minute: int): (s: string)
    requires 0 <= day < 7 && 0 <= hour <= 23 && 0 <= minute < 60
  {
    var h12 := if hour % 12 == 0 then 12 else hour % 12;
    FullDayNames[day] + " " + Pad2(h12) + ":" + Pad2(minute) + (if hour < 12 then " AM" else " PM")
  }

  /** The hour written on a 12-hour clock reads back as the same hour. */
  lemma HourOfSpelled(hour: int)
    requires 0 <= hour <= 23
    ensures var h12 := if hour % 12 == 0 then 12 else hour % 12;
            Hour(Pad2(h12), if hour < 12 then "AM" else "PM") == hour
  {
    var h12 := if hour % 12 == 0 then 12 else hour % 12;
    var ap := if hour < 12 then "AM" else "PM";
    assert DigitsValue(Pad2(h12)) == h12;
    assert LowerChar(ap[0]) == (if hour < 12 then 'a' else 'p');
  }

  /** The spelled time matches the pattern with its own pieces as groups. */
  lemma SpellMatches(day: int, hour: int, minute: int)
    requires 0 <= day < 7 && 0 <= hour <= 23 && 0 <= minute < 60
    ensures var h12 := if hour % 12 == 0 then 12 else hour % 12;
            Match(Spell(day, hour, minute))
            == Some(Groups(FullDayNames[day], Pad2(h12), Pad2(minute), if hour < 12 then "AM" else "PM"))
  {
    var h12 := if hour % 12 == 0 then 12 else hour % 12;
    var ap := if hour < 12 then "AM" else "PM";
    var g := Groups(FullDayNames[day], Pad2(h12), Pad2(minute), ap);
    var s := Spell(day, hour, minute);
    DayNameLetters(day);
    assert s == g.day + " " + g.hh + ":" + g.mm + (" " + g.ap);
    SpelledPieces(g.day, g.hh, g.mm, g.ap);
    MatchComplete(s, g, [], " ", " ", []);
  }

  /** The full day names are made of letters. */
  lemma DayNameLetters(day: int)
    requires 0 <= day < 7
    ensures |FullDayNames[day]| > 0 && AllIn(FullDayNames[day], IsAsciiLetter)
  {
    var name := FullDayNames[day];
    assert forall i :: 0 <= i < |name| ==> 'a' <= name[i] <= 'z';
  }

  /** The spelled time regrouped as the pattern reads it. */
  lemma SpelledPieces(day: string, hh: string, mm: string, ap: string)
    ensures day + " " + hh + ":" + mm + (" " + ap)
            == [] + (day + (" " + (hh + ([':'] + (mm + ([' '] + (ap + [])))))))
  {
  }

  /** Writing a time and parsing it back gives that day of the given week
      at that hour and minute, local time. */
  lemma SpellThenParse(day: int, hour: int, minute: int, monday: DateTime, localOffset: int)
    requires 0 <= day < 7 && 0 <= hour <= 23 && 0 <= minute < 60
    requires InRange(monday.wall + day * 86400)
    ensures var r := WeeklyParse(Spell(day, hour, minute), monday, localOffset);
            && r.Ok? && r.value.Planned?
            && DayOf(r.value.at.wall) == DayOf(monday.wall) + day
            && SecondOfDay(r.value.at.wall) == hour * 3600 + minute * 60
            && r.value.at.tz == Some(localOffset)
  {
    var h12 := if hour % 12 == 0 then 12 else hour % 12;
    var g := Groups(FullDayNames[day], Pad2(h12), Pad2(minute), if hour < 12 then "AM" else "PM");
    SpellMatches(day, hour, minute);
    EveryDayNamed();
    DayNamesLowerCase();
    HourOfSpelled(hour);
    assert DayIndex(g.day) == Some(day);
    assert DigitsValue(g.mm) == minute;
    var placed := PlaceLocal(monday, day, hour, minute, localOffset);
    assert WeeklyParse(Spell(day, hour, minute), monday, localOffset) == Ok(Planned(placed.value));
  }
}

=== FILE: json.dfy ===
/** Decoded JSON values as the Python code sees them (dicts, lists, str,
    int, bool, None), with the few Python operations the gateway and the
    store apply to them: truthiness, `in`, subscripting, `dict.get`,
    `int(...)`, and the text SQLite stores for a bound scalar. */
module Json {
  import opened Outcomes
  import opened Text

  datatype Value =
    | Null
    | Bool(b: bool)
    | Int(i: int)
    | Str(s: string)
    | Arr(items: seq<Value>)
    | Obj(fields: map<string, Value>)

  /** Python truthiness: None, False, 0 and empty containers are false. */
  predicate Falsy(v: Value) {
    match v
    case Null => true
    case Bool(b) => !b
    case Int(i) => i == 0
    case Str(s) => |s| == 0
    case Arr(xs) => |xs| == 0
    case Obj(m) => |m| == 0
  }

  /** `key in v`: key presence for a dict, substring for a str, element
      membership for a list; other values are not iterable. */
  function HasKey(v: Value, key: string): (r: Result<bool>)
    ensures v.Obj? ==> r == Ok(key in v.fields)
    ensures r.Err? <==> (v.Null? || v.Bool? || v.Int?)
  {
    match v
    case Obj(m) => Ok(key in m)
    case Str(s) => Ok(Contains(s, key))
    case Arr(xs) => Ok(Str(key) in xs)
    case _ => Err(TypeError)
  }

  /** `v[key]`: a missing dict key raises KeyError; a str or list index
      must be an int, and other values are not subscriptable. */
  function Subscript(v: Value, key: string): (r: Result<Value>)
    ensures r.Ok? <==> v.Obj? && key in v.fields
    ensures r.Ok? ==> r.value == v.fields[key]
    ensures v.Obj? && key !in v.fields ==> r == Err(KeyError(key))
  {
    match v
    case Obj(m) => if key in m then Ok(m[key]) else Err(KeyError(key))
    case _ => Err(TypeError)
  }

  /** `v.get(key, default)`: only a dict has `get`. */
  function GetOr(v: Value, key: string, default: Value): (r: Result<Value>)
    ensures r.Ok? <==> v.Obj?
    ensures v.Obj? && key in v.fields ==> r == Ok(v.fields[key])
    ensures v.Obj? && key !in v.fields ==> r == Ok(default)
  {
    match v
    case Obj(m) => Ok(if key in m then m[key] else default)
    case _ => Err(AttributeError("get"))
  }

  // ---------------------------------------------------------------------
  // Decimal text of integers
  // ---------------------------------------------------------------------

  /** Decimal digits of a natural number, without leading zeros. */
  function NatText(n: nat): (r: string)
    ensures IsDigitString(r)
    ensures |r| > 1 ==> r[0] != '0'
    decreases n
  {
    if n < 10 then [DigitChar(n)] else NatText(n / 10) + [DigitChar(n % 10)]
  }

  /** `str(i)` for a Python int. */
  function IntText(i: int): string {
    if i < 0 then "-" + NatText(-i) else NatText(i)
  }

  lemma {:induction false} NatTextValue(n: nat)
    ensures DigitsValue(NatText(n)) == n
    decreases n
  {
    var r := NatText(n);
    if n >= 10 {
      NatTextValue(n / 10);
      assert r[..|r| - 1] == NatText(n / 10);
      assert r[|r| - 1] == DigitChar(n % 10);
    } else {
      assert r[..0] == [];
    }
  }

  /** `int(s)` on a str: surrounding whitespace is ignored and one sign is
      allowed before ASCII digits. Every other text is ValueError here,
      including the `_`-grouped digits and non-ASCII decimal digits that
      Python also accepts. */
  function ParseInt(s: string): (r: Result<int>)
    ensures r.Err? ==> r.error.ValueError?
    ensures IsDigitString(s) ==> r == Ok(DigitsValue(s))
  {
    var t := Strip(s);
    if IsDigitString(s) then
      StripDigits(s);
      Ok(DigitsValue(s))
    else if IsDigitString(t) then Ok(DigitsValue(t))
    else if |t| > 1 && t[0] == '-' && IsDigitString(t[1..]) then Ok(0 - DigitsValue(t[1..]) as int)
    else if |t| > 1 && t[0] == '+' && IsDigitString(t[1..]) then Ok(DigitsValue(t[1..]))
    else Err(ValueError("invalid literal for int() with base 10"))
  }

  lemma StripDigits(s: string)
    requires IsDigitString(s)
    ensures Strip(s) == s
  {
    StripLeftNoSpace(s);
    StripRightNoSpace(s);
  }

  lemma StripLeftNoSpace(s: string)
    requires |s| > 0 && !IsSpace(s[0])
    ensures StripLeft(s) == s
  {
  }

  lemma StripRightNoSpace(s: string)
    requires |s| > 0 && !IsSpace(s[|s| - 1])
    ensures StripRight(s) == s
  {
  }

  /** `int(str(i)) == i`: the decimal text reads back as the same integer. */
  lemma IntTextRoundTrip(i: int)
    ensures ParseInt(IntText(i)) == Ok(i)
  {
    var n: nat := if i < 0 then -i else i;
    NatTextValue(n);
    var t := IntText(i);
    if i < 0 {
      assert t[0] == '-' && t[1..] == NatText(n);
      assert !IsDigitString(t) by { assert !IsDigit(t[0]); }
      StripLeftNoSpace(t);
      assert !IsSpace(t[|t| - 1]) by { assert t[|t| - 1] == NatText(n)[|NatText(n)| - 1]; }
      StripRightNoSpace(t);
    }
  }

  /** `int(v)` on a decoded JSON value: bools are 0 and 1, str goes
      through `ParseInt`, None and containers raise TypeError. */
  function ToInt(v: Value): (r: Result<int>)
    ensures v.Int? ==> r == Ok(v.i)
    ensures v.Bool? ==> r == Ok(if v.b then 1 else 0)
    ensures r.Err? && !v.Str? ==> r.error == TypeError
  {
    match v
    case Int(i) => Ok(i)
    case Bool(b) => Ok(if b then 1 else 0)
    case Str(s) => ParseInt(s)
    case _ => Err(TypeError)
  }

  // ---------------------------------------------------------------------
  // Binding to SQLite
  // ---------------------------------------------------------------------

  /** The range of SQLite's INTEGER storage class. */
  const MinInt64: int := -0x8000_0000_0000_0000
  const MaxInt64: int := 0x7fff_ffff_ffff_ffff

  predicate InInt64(n: int) { MinInt64 <= n <= MaxInt64 }

  /** A value as SQLite stores it. */
  datatype SqlValue = SqlNull | SqlInt(n: int) | SqlText(text: string)

  /** The value `sqlite3` binds for a query parameter: None is NULL, a bool
      is the integer 0 or 1, an int that does not fit in 64 signed bits is
      an OverflowError, a str is text, and a list or dict is not a
      supported parameter type. */
  function Bind(v: Value): (r: Result<SqlValue>)
    ensures r.Err? <==> v.Arr? || v.Obj? || (v.Int? && !InInt64(v.i))
    ensures r.Err? ==> r.error == (if v.Int? then OverflowError else ProgrammingError)
    ensures r.Ok? && r.value.SqlInt? ==> InInt64(r.value.n)
    ensures r.Ok? ==> (r.value.SqlNull? <==> v.Null?) && (r.value.SqlText? <==> v.Str?)
    ensures v.Int? && r.Ok? ==> r.value.n == v.i
    ensures v.Bool? ==> r == Ok(SqlInt(if v.b then 1 else 0))
    ensures v.Str? ==> r.value.text == v.s
  {
    match v
    case Null => Ok(SqlNull)
    case Bool(b) => Ok(SqlInt(if b then 1 else 0))
    case Int(i) => if InInt64(i) then Ok(SqlInt(i)) else Err(OverflowError)
    case Str(s) => Ok(SqlText(s))
    case _ => Err(ProgrammingError)
  }

  /** The digits of a text after an optional leading sign. */
  function UnsignedPart(s: string): string {
    if |s| > 0 && (s[0] == '-' || s[0] == '+') then s[1..] else s
  }

  /** The integer a text spells for SQLite's INTEGER affinity: an optional
      sign and decimal digits, with a value that fits in 64 signed bits. */
  function IntegerLiteral(s: string): (r: Option<int>)
    ensures r.Some? ==> InInt64(r.value)
  {
    var digits := UnsignedPart(s);
    if !IsDigitString(digits) then None
    else
      var n := if |s| > 0 && s[0] == '-' then 0 - DigitsValue(digits) else DigitsValue(digits);
      if InInt64(n) then Some(n) else None
  }

  /** Python's `int()` reads an integer literal as the same integer. */
  lemma IntegerLiteralIsInt(s: string)
    requires IntegerLiteral(s).Some?
    ensures ParseInt(s) == Ok(IntegerLiteral(s).value)
  {
    LiteralDigits(s);
    LiteralParses(s, UnsignedPart(s));
  }

  /** What `IntegerLiteral` found: the digits after the sign, and their signed value. */
  lemma LiteralDigits(s: string)
    requires IntegerLiteral(s).Some?
    ensures IsDigitString(UnsignedPart(s))
    ensures IntegerLiteral(s).value
            == if |s| > 0 && s[0] == '-' then 0 - DigitsValue(UnsignedPart(s)) else DigitsValue(UnsignedPart(s))
  {
  }

  lemma LiteralParses(s: string, digits: string)
    requires IsDigitString(digits) && digits == UnsignedPart(s)
    ensures ParseInt(s) == Ok(if |s| > 0 && s[0] == '-' then 0 - DigitsValue(digits) else DigitsValue(digits))
  {
    if !IsDigitString(s) {
      assert !IsDigit(s[0]);
      StripLeftNoSpace(s);
      assert s[|s| - 1] == digits[|digits| - 1];
      StripRightNoSpace(s);
    }
  }

  /** `str(i)` of a 64-bit int is an integer literal for SQLite, spelling `i`. */
  lemma {:induction false} IntegerLiteralOfIntText(i: int)
    requires InInt64(i)
    ensures IntegerLiteral(IntText(i)) == Some(i)
  {
    var n: nat := if i < 0 then -i else i;
    NatTextValue(n);
    var t := IntText(i);
    if i < 0 {
      assert UnsignedPart(t) == NatText(n) by { assert t[0] == '-' && t[1..] == NatText(n); }
    } else {
      assert UnsignedPart(t) == NatText(n) by { assert IsDigit(t[0]); }
    }
  }

  /** The value a TEXT column holds after binding `v`: None stays NULL, a
      str is kept, and a bound integer is stored as its decimal text
      (SQLite's TEXT affinity); binding errors propagate. */
  function ColumnText(v: Value): (r: Result<Option<string>>)
    ensures r == Ok(None) <==> v.Null?
    ensures v.Str? ==> r == Ok(Some(v.s))
    ensures r.Err? <==> Bind(v).Err?
    ensures r.Err? ==> r.error == Bind(v).error
    ensures v.Int? && r.Ok? ==> ParseInt(r.value.value) == Ok(v.i)
  {
    var x :- Bind(v);
    match x
    case SqlNull => Ok(None)
    case SqlText(s) => Ok(Some(s))
    case SqlInt(n) => IntTextRoundTrip(n); Ok(Some(IntText(n)))
  }
}

=== FILE: outcomes.dfy ===
/** Optional values, Python exceptions and results that either hold a value
    or the exception the source would raise. */
module Outcomes {

  datatype Option<+T> = None | Some(value: T) {
    function GetOr(default: T): T {
      match this
      case Some(v) => v
      case None => default
    }
  }

  /** The exceptions the modelled code can raise, by Python class. */
  datatype Exc =
    | ValueError(reason: string)
    | OverflowError
    | NameError(name: string)
    | KeyError(key: string)
    | TypeError
    | IntegrityError(column: string)
    | AttributeError(attribute: string)
    | ProgrammingError
    | CanvasApiError
    /** Not a Python exception: the row would be stored under a NULL or a
        non-integer text key, which the model's integer-keyed tables do
        not hold, so the model stops there. */
    | UnkeyedRow

  datatype Result<+T> = Ok(value: T) | Err(error: Exc) {
    predicate IsFailure() { Err? }

    function PropagateFailure<U>(): Result<U>
      requires Err?
    {
      Err(error)
    }

    function Extract(): T
      requires Ok?
    {
      value
    }
  }
}

=== FILE: queries.dfy ===
/** The read queries of database/db_manager.py. Stored timestamps are
    canonical UTC texts, so every `BETWEEN` on them is a comparison of the
    instants they denote (`DateTimes.FormatBetween`); here a query selects
    rows by comparing instants. A query's rows come back as a set of
    primary keys: the row order of a query without `ORDER BY` is not
    specified, and the ordered listings are stated separately
    (`Listings`). */
module Queries {
  import opened Outcomes
  import opened DateTimes
  import opened Constants
  import opened Store

  /** `x BETWEEN lo AND hi` on a stored timestamp: NULL never matches. */
  predicate Between(x: Option<int>, lo: int, hi: int) {
    x.Some? && lo <= x.value <= hi
  }

  /** `COALESCE(uas.completed, 0) = 1` for one user: a missing status row
      counts as not completed. */
  predicate Completed(db: Db, userId: string, k: AssignmentKey) {
    var u := UserKey(userId, k.courseId, k.id);
    u in db.status && db.status[u].completed
  }

  /** A row of `assignments a JOIN courses c ON a.course_id = c.id`. The
      foreign key is declared but SQLite does not enforce it, so an
      assignment need not have its course. */
  predicate Joined(db: Db, k: AssignmentKey) {
    k in db.assignments && k.courseId in db.courses
  }

  /** In-range instants form an interval. */
  lemma InRangeBetween(a: int, x: int, b: int)
    requires InRange(a) && InRange(b) && a <= x <= b
    ensures InRange(x)
  {
    assert DayOf(a) <= DayOf(x) <= DayOf(b);
  }

  // ---------------------------------------------------------------------
  // Weeks
  // ---------------------------------------------------------------------

  /** The Monday the commands and the completion check compute from a
      naive `datetime.now()`: that day at midnight, minus `weekday()` days. */
  function WeekMonday(today: DateTime): (m: DateTime)
    requires InRange(today.wall)
    ensures m.tz == today.tz && m.micro == 0 && InRange(m.wall)
    ensures Weekday(m.wall) == 0 && SecondOfDay(m.wall) == 0
    ensures m.wall <= today.wall < m.wall + 7 * 86400
  {
    MondayInRange(today.wall);
    var d := DayOf(today.wall);
    assert d * 86400 <= today.wall < d * 86400 + 86400;
    DateTime(MondayMidnight(today.wall), 0, today.tz)
  }

  /** `start + timedelta(days=6, hours=23, minutes=59, seconds=59)`. */
  function WeekEnd(start: DateTime): DateTime {
    start.(wall := start.wall + WeekSpan)
  }

  /** The UTC bounds a week query binds: a naive start is local time; the
      end is the start plus 6 days 23:59:59 of wall-clock time; each
      datetime step and each conversion raises OverflowError outside
      years 1..9999. */
  function WeekRange(start: DateTime, localOffset: int): (r: Result<(int, int)>)
    ensures r.Ok? <==> InRange(start.wall + WeekSpan) && InRange(UtcSeconds(start, localOffset))
                       && InRange(UtcSeconds(start, localOffset) + WeekSpan)
    ensures r.Err? ==> r.error == OverflowError
    ensures r.Ok? ==> r.value == (UtcSeconds(start, localOffset), UtcSeconds(start, localOffset) + WeekSpan)
  {
    var lo := UtcSeconds(start, localOffset);
    if !InRange(start.wall + WeekSpan) then Err(OverflowError)
    else if !InRange(lo) || !InRange(lo + WeekSpan) then Err(OverflowError)
    else Ok((lo, lo + WeekSpan))
  }

  /** The bounds are the texts `to_utc_iso_z` makes of the start and of
      the end datetime (the start given the local zone when naive). */
  lemma WeekRangeTexts(start: DateTime, localOffset: int)
    requires WeekRange(start, localOffset).Ok?
    ensures var aware := if start.tz.None? then start.(tz := Some(localOffset)) else start;
            && ToUtcIsoZ(aware, localOffset) == Ok(Format(WeekRange(start, localOffset).value.0))
            && ToUtcIsoZ(WeekEnd(aware), localOffset) == Ok(Format(WeekRange(start, localOffset).value.1))
  {
    var aware := if start.tz.None? then start.(tz := Some(localOffset)) else start;
    assert UtcSeconds(aware, localOffset) == UtcSeconds(start, localOffset);
    assert UtcSeconds(WeekEnd(aware), localOffset) == UtcSeconds(start, localOffset) + WeekSpan;
    ToUtcIsoZIsFormat(aware, localOffset);
    ToUtcIsoZIsFormat(WeekEnd(aware), localOffset);
  }

  /** The assignments with a course whose due instant lies in [lo, hi]. */
  function DueWithCourse(db: Db, lo: int, hi: int): (r: set<AssignmentKey>)
    ensures forall k :: k in r <==> Joined(db, k) && Between(db.assignments[k].due, lo, hi)
  {
    set k | k in db.assignments && k.courseId in db.courses && Between(db.assignments[k].due, lo, hi)
  }

  /** `get_assignments_for_week` and `get_assignments_for_week_with_ids`:
      the assignments with a course due in the week from `start`. */
  function AssignmentsForWeek(db: Db, start: DateTime, localOffset: int): (r: Result<set<AssignmentKey>>)
    ensures r.Ok? <==> WeekRange(start, localOffset).Ok?
    ensures r.Ok? ==> forall k :: k in r.value ==> Joined(db, k) && db.assignments[k].due.Some?
  {
    var w :- WeekRange(start, localOffset);
    Ok(DueWithCourse(db, w.0, w.1))
  }

  /** For the naive Monday the commands pass, the week queries select
      exactly the assignments that fall due in that local week. */
  lemma WeekSelectsLocalWeek(db: Db, today: DateTime, localOffset: int, k: AssignmentKey)
    requires today.tz.None? && InRange(today.wall)
    requires WeekRange(WeekMonday(today), localOffset).Ok?
    requires Joined(db, k) && db.assignments[k].due.Some?
    ensures k in AssignmentsForWeek(db, WeekMonday(today), localOffset).value
            <==> MondayMidnight(db.assignments[k].due.value + localOffset) == WeekMonday(today).wall
  {
    var m := WeekMonday(today).wall;
    MondayOfWeek(m, db.assignments[k].due.value + localOffset);
  }

  /** `get_week_assignments_with_status`: the week's assignments with the
      user's completion, missing status read as not completed. */
  function WeekStatus(db: Db, userId: string, start: DateTime, localOffset: int)
    : (r: Result<map<AssignmentKey, bool>>)
    ensures r.Ok? <==> WeekRange(start, localOffset).Ok?
    ensures r.Ok? ==> r.value.Keys == AssignmentsForWeek(db, start, localOffset).value
    ensures r.Ok? ==> forall k :: k in r.value ==> (r.value[k] <==> Completed(db, userId, k))
  {
    var keys :- AssignmentsForWeek(db, start, localOffset);
    Ok(map k | k in keys :: Completed(db, userId, k))
  }

  /** One user's completion never changes another user's view. */
  lemma StatusIsPerUser(db: Db, u: string, v: string, courseId: int, assignmentId: int,
                        completed: bool, at: Option<int>, start: DateTime, localOffset: int)
    requires u != v
    ensures var db' := SetAssignmentCompleted(db, UserKey(v, courseId, assignmentId), completed, at);
            && WeekStatus(db', u, start, localOffset) == WeekStatus(db, u, start, localOffset)
            && CheckWeekCompletion(db', u, start, localOffset) == CheckWeekCompletion(db, u, start, localOffset)
  {
    var db' := SetAssignmentCompleted(db, UserKey(v, courseId, assignmentId), completed, at);
    assert forall k :: Completed(db', u, k) == Completed(db, u, k);
    if WeekRange(start, localOffset).Ok? {
      var w := WeekRange(start, localOffset).value;
      assert DueWithCourse(db', w.0, w.1) == DueWithCourse(db, w.0, w.1);
      var a, b := WeekStatus(db', u, start, localOffset).value, WeekStatus(db, u, start, localOffset).value;
      assert a.Keys == b.Keys;
      assert forall k :: k in a ==> a[k] == b[k];
      assert a == b;
      var due := DueInWindow(db, w.0, w.1);
      assert DueInWindow(db', w.0, w.1) == due;
      assert (set k | k in due && Completed(db', u, k)) == (set k | k in due && Completed(db, u, k));
      assert WeekStatus(db', u, start, localOffset) == WeekStatus(db, u, start, localOffset);
      var c1, c2 := CheckWeekCompletion(db', u, start, localOffset), CheckWeekCompletion(db, u, start, localOffset);
      assert c1.Ok? && c2.Ok?;
      assert c1.value.1 == c2.value.1;
      assert c1.value.2 == c2.value.2;
    }
  }

  /** Recording a completion shows in that user's week view. */
  lemma CompletionShows(db: Db, userId: string, k: AssignmentKey, at: Option<int>, start: DateTime, localOffset: int)
    requires WeekRange(start, localOffset).Ok?
    requires k in AssignmentsForWeek(db, start, localOffset).value
    ensures var db' := SetAssignmentCompleted(db, UserKey(userId, k.courseId, k.id), true, at);
            k in WeekStatus(db', userId, start, localOffset).value
            && WeekStatus(db', userId, start, localOffset).value[k]
  {
    var db' := SetAssignmentCompleted(db, UserKey(userId, k.courseId, k.id), true, at);
    assert db'.assignments == db.assignments && db'.courses == db.courses;
    assert Completed(db', userId, k);
  }

  // ---------------------------------------------------------------------
  // Study plans of a week
  // ---------------------------------------------------------------------

  /** `get_study_plans_for_week`: the user's plans whose time lies in the week. */
  function PlansForWeek(db: Db, userId: string, start: DateTime, localOffset: int): (r: Result<set<UserKey>>)
    ensures r.Ok? <==> WeekRange(start, localOffset).Ok?
    ensures r.Ok? ==> forall k :: k in r.value <==>
              (k in db.plans && k.userId == userId
               && Between(Some(db.plans[k].plannedAt), WeekRange(start, localOffset).value.0,
                          WeekRange(start, localOffset).value.1))
  {
    var w :- WeekRange(start, localOffset);
    Ok(set k | k in db.plans && k.userId == userId && Between(Some(db.plans[k].plannedAt), w.0, w.1))
  }

  /** `get_user_plans_for_week_detailed`: the same plans, joined with their
      assignment and its course, so a plan whose assignment or course row
      is missing is not listed. */
  function DetailedPlansForWeek(db: Db, userId: string, start: DateTime, localOffset: int)
    : (r: Result<set<UserKey>>)
    ensures r.Ok? <==> WeekRange(start, localOffset).Ok?
    ensures r.Ok? ==> forall k :: k in r.value <==>
              (k in PlansForWeek(db, userId, start, localOffset).value && Joined(db, Assignment(k)))
  {
    var plans :- PlansForWeek(db, userId, start, localOffset);
    Ok(set k | k in plans && Joined(db, Assignment(k)))
  }

  // ---------------------------------------------------------------------
  // Work-session reminders
  // ---------------------------------------------------------------------

  /** How long before the planned time each work-session reminder is due. */
  function WorkLead(t: WorkTag): int {
    match t
    case Before24h => 24 * 3600
    case Before1h => 3600
    case AtTime => 0
  }

  /** The tags in the order `get_pending_reminders` queries them. */
  const WorkTags: seq<WorkTag> := [Before24h, Before1h, AtTime]

  /** A plan is owed reminder `t` at `now`: its time lies within a minute
      either side of `now + lead` (inclusive), that reminder has not been
      sent, and its assignment and course rows exist. */
  predicate WorkPending(db: Db, k: UserKey, t: WorkTag, now: int) {
    && k in db.plans
    && Joined(db, Assignment(k))
    && now + WorkLead(t) - 60 <= db.plans[k].plannedAt <= now + WorkLead(t) + 60
    && t !in db.plans[k].sent
  }

  function WorkBlock(db: Db, now: int, t: WorkTag): (r: set<UserKey>)
    ensures forall k :: k in r <==> WorkPending(db, k, t, now)
  {
    set k | k in db.plans && WorkPending(db, k, t, now)
  }

  /** `get_pending_reminders(now_utc)`: the 24h block, then the 1h block,
      then the at-time block. Every bound it converts (the unused
      `now`, `now+24h`, `now+1h` among them) must lie in years 1..9999. */
  function GetPendingReminders(db: Db, now: int): (r: Result<seq<set<UserKey>>>)
    ensures r.Ok? <==> InRange(now - 60) && InRange(now + 24 * 3600 + 60)
    ensures r.Err? ==> r.error == OverflowError
    ensures r.Ok? ==> |r.value| == |WorkTags|
    ensures r.Ok? ==> forall i, k :: 0 <= i < |WorkTags| ==> (k in r.value[i] <==> WorkPending(db, k, WorkTags[i], now))
  {
    if InRange(now - 60) && InRange(now + 24 * 3600 + 60) then
      Ok([WorkBlock(db, now, Before24h), WorkBlock(db, now, Before1h), WorkBlock(db, now, AtTime)])
    else Err(OverflowError)
  }

  /** The three windows are disjoint: at one instant a plan is owed at most
      one work-session reminder. */
  lemma OneWorkTagAtATime(db: Db, k: UserKey, t1: WorkTag, t2: WorkTag, now: int)
    requires WorkPending(db, k, t1, now) && WorkPending(db, k, t2, now)
    ensures t1 == t2
  {
  }

  // ---------------------------------------------------------------------
  // Due-date reminders
  // ---------------------------------------------------------------------

  /** How long before the due time each due-date reminder is due. */
  function DueLead(t: DueTag): int {
    match t
    case Before2d => 2 * 86400
    case Before1d => 86400
    case Before12h => 12 * 3600
  }

  /** The tags in the order `get_pending_due_date_reminders` queries them. */
  const DueTags: seq<DueTag> := [Before2d, Before1d, Before12h]

  /** The current local week, as UTC bounds: the local time of `now`, its
      day at midnight minus `weekday()` days, and that Monday plus 6 days
      23:59:59. */
  function CurrentWeek(now: int, localOffset: int): (r: Result<(int, int)>)
    ensures r.Ok? ==> r.value.0 <= now <= r.value.1 && r.value.1 == r.value.0 + WeekSpan
    ensures r.Ok? ==> r.value.0 + localOffset == MondayMidnight(now + localOffset)
    ensures r.Ok? ==> InRange(r.value.0) && InRange(r.value.1)
    ensures r.Err? ==> r.error == OverflowError
  {
    var today := now + localOffset;
    if !InRange(today) then Err(OverflowError)
    else
      var monday := WeekMonday(DateTime(today, 0, Some(localOffset))).wall;
      if !InRange(monday + WeekSpan) then Err(OverflowError)
      else
        var lo := monday - localOffset;
        if !InRange(lo) || !InRange(lo + WeekSpan) then Err(OverflowError)
        else Ok((lo, lo + WeekSpan))
  }

  /** An assignment is owed due reminder `t` for a user at `now`: it has a
      course, its due instant lies within a minute either side of
      `now + lead` and inside the current week, the shared flag for `t` is
      clear, and this user has not completed it. */
  predicate DuePending(db: Db, userId: string, k: AssignmentKey, t: DueTag, now: int, week: (int, int)) {
    && Joined(db, k)
    && Between(db.assignments[k].due, now + DueLead(t) - 60, now + DueLead(t) + 60)
    && Between(db.assignments[k].due, week.0, week.1)
    && t !in db.assignments[k].dueSent
    && !Completed(db, userId, k)
  }

  function DueBlock(db: Db, userId: string, now: int, week: (int, int), t: DueTag): (r: set<AssignmentKey>)
    ensures forall k :: k in r <==> DuePending(db, userId, k, t, now, week)
  {
    set k | k in db.assignments && DuePending(db, userId, k, t, now, week)
  }

  /** `get_pending_due_date_reminders(now_utc, user_id)` as intended: the
      2d block, then the 1d block, then the 12h block. */
  function GetPendingDueDateReminders(db: Db, now: int, localOffset: int, userId: string)
    : (r: Result<seq<set<AssignmentKey>>>)
    ensures r.Ok? <==> CurrentWeek(now, localOffset).Ok? && InRange(now + 12 * 3600 - 60) && InRange(now + 2 * 86400 + 60)
    ensures r.Err? ==> r.error == OverflowError
    ensures r.Ok? ==> |r.value| == |DueTags|
    ensures r.Ok? ==> forall i, k :: 0 <= i < |DueTags| ==>
              (k in r.value[i] <==> DuePending(db, userId, k, DueTags[i], now, CurrentWeek(now, localOffset).value))
  {
    var week :- CurrentWeek(now, localOffset);
    if InRange(now + 12 * 3600 - 60) && InRange(now + 2 * 86400 + 60) then
      Ok([DueBlock(db, userId, now, week, Before2d), DueBlock(db, userId, now, week, Before1d),
          DueBlock(db, userId, now, week, Before12h)])
    else Err(OverflowError)
  }

  /** `get_pending_due_date_reminders` as written: its first statement
      calls `get_local_tz`, a name the module never imports, so every call
      raises NameError before any query runs. */
  function GetPendingDueDateRemindersAsWritten(db: Db, now: int, userId: string)
    : (r: Result<seq<set<AssignmentKey>>>)
    ensures r.Err? && r.error == NameError("get_local_tz")
  {
    Err(NameError("get_local_tz"))
  }

  /** The three due windows are disjoint, and a due reminder is only owed
      for an assignment due later in the current week. */
  lemma DueWindowsDisjoint(db: Db, userId: string, k: AssignmentKey, t1: DueTag, t2: DueTag, now: int, week: (int, int))
    requires DuePending(db, userId, k, t1, now, week) && DuePending(db, userId, k, t2, now, week)
    ensures t1 == t2
    ensures now < db.assignments[k].due.value <= week.1
  {
  }

  // ---------------------------------------------------------------------
  // Week completion
  // ---------------------------------------------------------------------

  /** The assignments due in [lo, hi], course or not. */
  function DueInWindow(db: Db, lo: int, hi: int): (r: set<AssignmentKey>)
    ensures forall k :: k in r <==> k in db.assignments && Between(db.assignments[k].due, lo, hi)
  {
    set k | k in db.assignments && Between(db.assignments[k].due, lo, hi)
  }

  /** `check_week_completion(user_id, start)`: (all complete, total,
      completed). The total counts every assignment due in the week, with
      no course join; no assignment at all gives (True, 0, 0). */
  function CheckWeekCompletion(db: Db, userId: string, start: DateTime, localOffset: int)
    : (r: Result<(bool, nat, nat)>)
    ensures r.Ok? <==> WeekRange(start, localOffset).Ok?
    ensures r.Ok? ==> r.value.2 <= r.value.1
    ensures r.Ok? ==> (r.value.0 <==> r.value.1 == r.value.2)
    ensures r.Ok? && r.value.1 == 0 ==> r.value == (true, 0, 0)
    ensures r.Ok? ==> var w := WeekRange(start, localOffset).value;
                      && r.value.1 == |DueInWindow(db, w.0, w.1)|
                      && (r.value.0 <==> forall k :: k in DueInWindow(db, w.0, w.1) ==> Completed(db, userId, k))
  {
    var w :- WeekRange(start, localOffset);
    var due := DueInWindow(db, w.0, w.1);
    if |due| == 0 then Ok((true, 0, 0))
    else
      var done := set k | k in due && Completed(db, userId, k);
      SubsetCardinality(done, due);
      Ok((|done| == |due|, |due|, |done|))
  }

  /** A subset is no larger, and as large only when it is the whole set. */
  lemma {:induction false} SubsetCardinality<T>(a: set<T>, b: set<T>)
    requires a <= b
    ensures |a| <= |b|
    ensures |a| == |b| <==> a == b
    decreases |b|
  {
    if a != b {
      var x :| x in b && x !in a;
      SubsetCardinality(a, b - {x});
    }
  }
}

=== FILE: store.dfy ===
/** The bot's SQLite tables as finite maps from their primary keys, and
    every write of the database layer as a function from a store to the
    next store. A call that raises part-way leaves the store as it was:
    each write function opens one connection and commits only at its end,
    so an exception discards everything the call had executed. */
module Store {
  import opened Outcomes
  import opened DateTimes
  import opened Json
  import opened Constants
  import Canvas

  // ---------------------------------------------------------------------
  // Keys and rows
  // ---------------------------------------------------------------------

  /** `assignments` is keyed by `(course_id, id)`. */
  datatype AssignmentKey = AssignmentKey(courseId: int, id: int)

  /** `study_plans` and `user_assignment_status` are keyed by
      `(user_id, course_id, assignment_id)`. */
  datatype UserKey = UserKey(userId: string, courseId: int, assignmentId: int)

  function Assignment(k: UserKey): AssignmentKey {
    AssignmentKey(k.courseId, k.assignmentId)
  }

  datatype CourseRow = CourseRow(name: string, courseCode: Option<string>, startAt: Option<string>, endAt: Option<string>)

  /** `due` is the instant the stored canonical text denotes; `dueSent`
      holds the tags whose `due_reminder_*_sent` column is 1. */
  datatype AssignmentRow = AssignmentRow(name: string, due: Option<int>, htmlUrl: Option<string>,
                                         submitted: int, dueSent: set<DueTag>)

  /** `plannedAt` is the instant of `planned_at_utc`; `sent` holds the tags
      whose `reminder_*_sent` column is 1. */
  datatype PlanRow = PlanRow(plannedAt: int, notes: Option<string>, sent: set<WorkTag>)

  datatype StatusRow = StatusRow(completed: bool, completedAt: Option<int>)

  /** A `week_completion_notifications` row: every row the code writes has
      `notified = 1`, so the table is the set of its keys. */
  datatype WeekMark = WeekMark(userId: string, week: WeekKey)

  datatype Db = Db(
    courses: map<int, CourseRow>,
    assignments: map<AssignmentKey, AssignmentRow>,
    plans: map<UserKey, PlanRow>,
    status: map<UserKey, StatusRow>,
    notified: set<WeekMark>)

  const EmptyDb: Db := Db(map[], map[], map[], map[], {})

  // ---------------------------------------------------------------------
  // Column conversions
  // ---------------------------------------------------------------------

  /** An id bound into an INTEGER column. SQLite's INTEGER affinity turns
      text that spells a 64-bit integer into that integer; NULL and other
      text are stored as they are. */
  function ColumnId(v: Value): (r: Result<SqlValue>)
    ensures r.Err? <==> Bind(v).Err?
    ensures r.Err? ==> r.error == Bind(v).error
    ensures r.Ok? && r.value.SqlInt? ==> InInt64(r.value.n)
    ensures v.Int? && r.Ok? ==> r.value == SqlInt(v.i)
    ensures v.Bool? ==> r == Ok(SqlInt(if v.b then 1 else 0))
    ensures v.Null? ==> r == Ok(SqlNull)
    ensures v.Str? ==> r == Ok(if IntegerLiteral(v.s).Some? then SqlInt(IntegerLiteral(v.s).value) else SqlText(v.s))
  {
    var x :- Bind(v);
    match x
    case SqlText(s) => Ok(if IntegerLiteral(s).Some? then SqlInt(IntegerLiteral(s).value) else x)
    case _ => Ok(x)
  }

  /** The integer key an id value gives a row, if it gives one. */
  function IdKey(v: Value): Option<int> {
    if ColumnId(v).Ok? && ColumnId(v).value.SqlInt? then Some(ColumnId(v).value.n) else None
  }

  /** An int, its decimal text and (for 0 and 1) a bool all key the same
      row; None and text that is not an integer key none. */
  lemma IdSpellingsAgree(i: int)
    requires InInt64(i)
    ensures IdKey(Int(i)) == Some(i) && IdKey(Str(IntText(i))) == Some(i)
    ensures IdKey(Bool(true)) == Some(1) && IdKey(Bool(false)) == Some(0)
    ensures IdKey(Null) == None && IdKey(Str("")) == None && IdKey(Str("12a")) == None
  {
    IntegerLiteralOfIntText(i);
    assert !Text.IsDigit("12a"[2]);
  }

  /** Every parameter of a course row binds. */
  predicate CourseBinds(c: Canvas.CourseRecord) {
    Bind(c.id).Ok? && ColumnText(c.name).Ok? && ColumnText(c.courseCode).Ok?
    && ColumnText(c.startAt).Ok? && ColumnText(c.endAt).Ok?
  }

  /** The `(id, row)` an upserted course record writes. Parameters are
      bound in column order; then `courses.id`, an INTEGER PRIMARY KEY and
      so an alias for the rowid, must hold an integer ("datatype
      mismatch"), and then `name` is checked NOT NULL. SQLite gives a NULL
      id a fresh rowid; the model does not pick one. */
  function CourseRowOf(c: Canvas.CourseRecord): (r: Result<(int, CourseRow)>)
    ensures r.Ok? <==> CourseBinds(c) && IdKey(c.id).Some? && c.name != Null
    ensures r.Ok? ==> IdKey(c.id) == Some(r.value.0) && ColumnText(c.name) == Ok(Some(r.value.1.name))
    ensures !CourseBinds(c) ==> r.Err? && !r.error.IntegrityError?
    ensures CourseBinds(c) && c.id.Str? && IdKey(c.id).None? ==> r == Err(IntegrityError("courses.id"))
    ensures CourseBinds(c) && IdKey(c.id).Some? && c.name == Null ==> r == Err(IntegrityError("courses.name"))
  {
    var id :- ColumnId(c.id);
    var name :- ColumnText(c.name);
    var code :- ColumnText(c.courseCode);
    var start :- ColumnText(c.startAt);
    var end :- ColumnText(c.endAt);
    if id.SqlText? then Err(IntegrityError("courses.id"))
    else if name.None? then Err(IntegrityError("courses.name"))
    else if id.SqlNull? then Err(UnkeyedRow)
    else Ok((id.n, CourseRow(name.value, code, start, end)))
  }

  /** The stored `due_at`: a falsy value is NULL; a str is parsed and
      stored as its canonical UTC text; any other truthy value has no
      `replace` method. */
  function DueColumn(v: Value): (r: Result<Option<int>>)
    ensures r == Ok(None) <==> Falsy(v)
    ensures r.Ok? && r.value.Some? ==>
              v.Str? && ParseCanvasDatetime(v.s).Ok? && InRange(r.value.value)
              && ToUtcIsoZ(ParseCanvasDatetime(v.s).value, 0) == Ok(Format(r.value.value))
    ensures !Falsy(v) && !v.Str? ==> r == Err(AttributeError("replace"))
  {
    if Falsy(v) then Ok(None)
    else if v.Str? then
      var dt :- ParseCanvasDatetime(v.s);
      var t := UtcSeconds(dt, 0);
      if InRange(t) then
        ToUtcIsoZIsFormat(dt, 0);
        Ok(Some(t))
      else Err(OverflowError)
    else Err(AttributeError("replace"))
  }

  /** Every parameter of an assignment row binds, `int(has_submitted_submissions)`
      included. */
  predicate AssignmentBinds(a: Canvas.AssignmentRecord, courseId: Value) {
    Bind(a.id).Ok? && Bind(courseId).Ok? && ColumnText(a.name).Ok? && ColumnText(a.htmlUrl).Ok?
    && ToInt(a.hasSubmitted).Ok? && InInt64(ToInt(a.hasSubmitted).value)
  }

  /** The fields an upserted assignment record writes, keyed by its
      `(course_id, id)`: `due_at` is converted first, then
      `int(has_submitted_submissions)`, then the parameters are bound in
      column order and `name` is checked NOT NULL. `id` and `course_id`
      are plain INTEGER columns: SQLite stores a NULL or non-integer text
      key as it is, which the model does not. */
  function AssignmentFieldsOf(a: Canvas.AssignmentRecord, courseId: Value)
    : (r: Result<(AssignmentKey, AssignmentRow)>)
    ensures r.Ok? <==> DueColumn(a.dueAt).Ok? && AssignmentBinds(a, courseId)
                       && a.name != Null && IdKey(a.id).Some? && IdKey(courseId).Some?
    ensures r.Ok? ==> IdKey(a.id) == Some(r.value.0.id) && IdKey(courseId) == Some(r.value.0.courseId)
    ensures r.Ok? ==> ColumnText(a.name) == Ok(Some(r.value.1.name))
    ensures r.Ok? ==> DueColumn(a.dueAt) == Ok(r.value.1.due) && ToInt(a.hasSubmitted) == Ok(r.value.1.submitted)
    ensures r.Ok? ==> r.value.1.dueSent == {}
    ensures DueColumn(a.dueAt).Err? ==> r == Err(DueColumn(a.dueAt).error)
    ensures DueColumn(a.dueAt).Ok? && AssignmentBinds(a, courseId) && a.name == Null
            ==> r == Err(IntegrityError("assignments.name"))
  {
    var due :- DueColumn(a.dueAt);
    var submitted :- ToInt(a.hasSubmitted);
    var id :- ColumnId(a.id);
    var course :- ColumnId(courseId);
    var name :- ColumnText(a.name);
    var url :- ColumnText(a.htmlUrl);
    var _ :- Bind(Int(submitted));
    if name.None? then Err(IntegrityError("assignments.name"))
    else if !id.SqlInt? || !course.SqlInt? then Err(UnkeyedRow)
    else Ok((AssignmentKey(course.n, id.n), AssignmentRow(name.value, due, url, submitted, {})))
  }

  // ---------------------------------------------------------------------
  // Course and assignment upserts
  // ---------------------------------------------------------------------

  /** `f` applied to each element in order, as the statements of one
      connection run; the first failure aborts the batch with its exception. */
  function Batch<A, R>(xs: seq<A>, f: A -> Result<R>): (r: Result<seq<R>>)
    ensures r.Ok? <==> forall i :: 0 <= i < |xs| ==> f(xs[i]).Ok?
    ensures r.Ok? ==> |r.value| == |xs| && forall i :: 0 <= i < |xs| ==> f(xs[i]) == Ok(r.value[i])
    ensures r.Err? ==> exists i :: 0 <= i < |xs| && f(xs[i]) == Err(r.error)
                                   && forall j :: 0 <= j < i ==> f(xs[j]).Ok?
  {
    if |xs| == 0 then Ok([])
    else
      match f(xs[0])
      case Err(e) => Err(e)
      case Ok(row) =>
        match Batch(xs[1..], f)
        case Err(e) =>
          assert forall i :: 1 <= i < |xs| ==> xs[i] == xs[1..][i - 1];
          Err(e)
        case Ok(rows) =>
          assert forall i :: 1 <= i < |xs| ==> xs[i] == xs[1..][i - 1];
          Ok([row] + rows)
  }

  /** The rows a batch of course records writes, in order; the first
      record that cannot be written aborts the batch with its exception. */
  function CourseRows(cs: seq<Canvas.CourseRecord>): (r: Result<seq<(int, CourseRow)>>)
    ensures r.Ok? <==> forall i :: 0 <= i < |cs| ==> CourseRowOf(cs[i]).Ok?
    ensures r.Ok? ==> |r.value| == |cs| && forall i :: 0 <= i < |cs| ==> CourseRowOf(cs[i]) == Ok(r.value[i])
    ensures r.Err? ==> exists i :: 0 <= i < |cs| && CourseRowOf(cs[i]) == Err(r.error)
                                   && forall j :: 0 <= j < i ==> CourseRowOf(cs[j]).Ok?
  {
    Batch(cs, CourseRowOf)
  }

  /** Writing rows one after the other, each replacing the row of its key. */
  function PutCourses(m: map<int, CourseRow>, rows: seq<(int, CourseRow)>): map<int, CourseRow>
    decreases |rows|
  {
    if |rows| == 0 then m
    else PutCourses(m, rows[..|rows| - 1])[rows[|rows| - 1].0 := rows[|rows| - 1].1]
  }

  /** `upsert_courses`: each record inserts its row or overwrites every
      column of the row with the same id; a record that cannot be written
      aborts the whole call, and only the courses table is written. */
  function UpsertCourses(db: Db, cs: seq<Canvas.CourseRecord>): (r: Result<Db>)
    ensures r.Ok? <==> forall i :: 0 <= i < |cs| ==> CourseRowOf(cs[i]).Ok?
    ensures r.Ok? ==> r.value == db.(courses := r.value.courses)
  {
    var rows :- CourseRows(cs);
    Ok(db.(courses := PutCourses(db.courses, rows)))
  }

  /** No later row has the same key as row `i`. */
  predicate LastOfKey<K(==), V>(rows: seq<(K, V)>, i: int)
    requires 0 <= i < |rows|
  {
    forall j :: i < j < |rows| ==> rows[j].0 != rows[i].0
  }

  /** The keys of a sequence of rows. */
  function KeysOf<K, V>(rows: seq<(K, V)>): set<K> {
    set i | 0 <= i < |rows| :: rows[i].0
  }

  /** After writing rows the keys are the old ones plus the rows' keys;
      each key holds its LAST row, and other keys keep their rows. */
  lemma {:induction false} PutCoursesLastWins(m: map<int, CourseRow>, rows: seq<(int, CourseRow)>)
    ensures PutCourses(m, rows).Keys == m.Keys + KeysOf(rows)
    ensures forall i :: 0 <= i < |rows| && LastOfKey(rows, i) ==> PutCourses(m, rows)[rows[i].0] == rows[i].1
    ensures forall k :: k in m && k !in KeysOf(rows) ==> PutCourses(m, rows)[k] == m[k]
    decreases |rows|
  {
    if |rows| > 0 {
      var prefix := rows[..|rows| - 1];
      var last := rows[|rows| - 1];
      PutCoursesLastWins(m, prefix);
      KeysOfSnoc(rows);
      assert PutCourses(m, rows) == PutCourses(m, prefix)[last.0 := last.1];
      PutLastStep(PutCourses(m, prefix), rows);
    }
  }

  /** One more row keeps every last row in place. */
  lemma PutLastStep<K, V>(before: map<K, V>, rows: seq<(K, V)>)
    requires |rows| > 0
    requires var prefix := rows[..|rows| - 1];
             forall i :: 0 <= i < |prefix| && LastOfKey(prefix, i) ==>
               prefix[i].0 in before && before[prefix[i].0] == prefix[i].1
    ensures var after := before[rows[|rows| - 1].0 := rows[|rows| - 1].1];
            forall i :: 0 <= i < |rows| && LastOfKey(rows, i) ==>
              rows[i].0 in after && after[rows[i].0] == rows[i].1
  {
    var prefix := rows[..|rows| - 1];
    var last := rows[|rows| - 1];
    forall i | 0 <= i < |rows| && LastOfKey(rows, i)
      ensures var after := before[last.0 := last.1];
              rows[i].0 in after && after[rows[i].0] == rows[i].1
    {
      if i < |prefix| {
        assert LastOfKey(prefix, i) && prefix[i] == rows[i] && rows[i].0 != last.0;
      }
    }
  }

  lemma KeysOfSnoc<K, V>(rows: seq<(K, V)>)
    requires |rows| > 0
    ensures KeysOf(rows) == KeysOf(rows[..|rows| - 1]) + {rows[|rows| - 1].0}
  {
    var prefix := rows[..|rows| - 1];
    assert forall i :: 0 <= i < |prefix| ==> prefix[i] == rows[i];
  }

  /** Each written course row is keyed by its record's id. */
  lemma CourseRowsKeys(cs: seq<Canvas.CourseRecord>)
    requires CourseRows(cs).Ok?
    ensures forall i :: 0 <= i < |cs| ==> IdKey(cs[i].id) == Some(CourseRows(cs).value[i].0)
  {
    var rows := CourseRows(cs).value;
    forall i | 0 <= i < |cs|
      ensures IdKey(cs[i].id) == Some(rows[i].0)
    {
      assert CourseRowOf(cs[i]) == Ok(rows[i]);
    }
  }

  /** After `upsert_courses` the course ids are the old ones plus every
      record's id. */
  lemma UpsertCoursesKeys(db: Db, cs: seq<Canvas.CourseRecord>)
    requires UpsertCourses(db, cs).Ok?
    ensures forall id :: id in UpsertCourses(db, cs).value.courses <==>
              (id in db.courses || exists i :: 0 <= i < |cs| && IdKey(cs[i].id) == Some(id))
  {
    var rows := CourseRows(cs).value;
    PutCoursesLastWins(db.courses, rows);
    CourseRowsKeys(cs);
  }

  /** A record no later record overrides leaves exactly its row under its id. */
  lemma UpsertCoursesLastWins(db: Db, cs: seq<Canvas.CourseRecord>, i: int)
    requires UpsertCourses(db, cs).Ok? && 0 <= i < |cs|
    requires forall j :: i < j < |cs| ==> IdKey(cs[j].id) != IdKey(cs[i].id)
    ensures CourseRowOf(cs[i]).Ok?
    ensures CourseRowOf(cs[i]).value.0 in UpsertCourses(db, cs).value.courses
    ensures UpsertCourses(db, cs).value.courses[CourseRowOf(cs[i]).value.0] == CourseRowOf(cs[i]).value.1
  {
    var rows := CourseRows(cs).value;
    PutCoursesLastWins(db.courses, rows);
    CourseRowsKeys(cs);
    assert CourseRowOf(cs[i]) == Ok(rows[i]);
    assert LastOfKey(rows, i);
  }

  /** Courses no record names keep their rows. */
  lemma UpsertCoursesKeepsOthers(db: Db, cs: seq<Canvas.CourseRecord>, id: int)
    requires UpsertCourses(db, cs).Ok? && id in db.courses
    requires forall i :: 0 <= i < |cs| ==> IdKey(cs[i].id) != Some(id)
    ensures id in UpsertCourses(db, cs).value.courses
    ensures UpsertCourses(db, cs).value.courses[id] == db.courses[id]
  {
    var rows := CourseRows(cs).value;
    PutCoursesLastWins(db.courses, rows);
    CourseRowsKeys(cs);
    assert id !in KeysOf(rows);
  }

  /** The rows a batch of assignment records writes, in order. */
  function AssignmentRows(as_: seq<Canvas.AssignmentRecord>, courseId: Value)
    : (r: Result<seq<(AssignmentKey, AssignmentRow)>>)
    ensures r.Ok? <==> forall i :: 0 <= i < |as_| ==> AssignmentFieldsOf(as_[i], courseId).Ok?
    ensures r.Ok? ==> |r.value| == |as_|
                      && forall i :: 0 <= i < |as_| ==> AssignmentFieldsOf(as_[i], courseId) == Ok(r.value[i])
    ensures r.Err? ==> exists i :: 0 <= i < |as_| && AssignmentFieldsOf(as_[i], courseId) == Err(r.error)
                                   && forall j :: 0 <= j < i ==> AssignmentFieldsOf(as_[j], courseId).Ok?
  {
    Batch(as_, a => AssignmentFieldsOf(a, courseId))
  }

  /** Inserting an assignment row, or updating one in place: an update
      rewrites every data column and keeps the row's due-reminder flags. */
  function PutAssignment(rows: map<AssignmentKey, AssignmentRow>, k: AssignmentKey, row: AssignmentRow)
    : map<AssignmentKey, AssignmentRow>
  {
    rows[k := if k in rows then row.(dueSent := rows[k].dueSent) else row]
  }

  function PutAssignments(m: map<AssignmentKey, AssignmentRow>, rows: seq<(AssignmentKey, AssignmentRow)>)
    : map<AssignmentKey, AssignmentRow>
    decreases |rows|
  {
    if |rows| == 0 then m
    else PutAssignment(PutAssignments(m, rows[..|rows| - 1]), rows[|rows| - 1].0, rows[|rows| - 1].1)
  }

  /** `upsert_assignments(assignments, course_id)`. */
  function UpsertAssignments(db: Db, as_: seq<Canvas.AssignmentRecord>, courseId: Value): (r: Result<Db>)
    ensures r.Ok? <==> forall i :: 0 <= i < |as_| ==> AssignmentFieldsOf(as_[i], courseId).Ok?
    ensures r.Ok? ==> r.value == db.(assignments := r.value.assignments)
  {
    var rows :- AssignmentRows(as_, courseId);
    Ok(db.(assignments := PutAssignments(db.assignments, rows)))
  }

  /** Writing assignment rows: each key holds the data of its LAST row
      and the flags it had before the batch (none for a new key). */
  lemma {:induction false} PutAssignmentsLastWins(m: map<AssignmentKey, AssignmentRow>, rows: seq<(AssignmentKey, AssignmentRow)>)
    ensures PutAssignments(m, rows).Keys == m.Keys + KeysOf(rows)
    ensures forall i :: 0 <= i < |rows| && LastOfKey(rows, i) ==>
              PutAssignments(m, rows)[rows[i].0].(dueSent := rows[i].1.dueSent) == rows[i].1
    ensures forall k :: k in PutAssignments(m, rows) ==>
              PutAssignments(m, rows)[k].dueSent
              == if k in m then m[k].dueSent else FirstRowOf(rows, k).dueSent
    ensures forall k :: k in m && k !in KeysOf(rows) ==> PutAssignments(m, rows)[k] == m[k]
    decreases |rows|
  {
    if |rows| > 0 {
      var prefix := rows[..|rows| - 1];
      var last := rows[|rows| - 1];
      PutAssignmentsLastWins(m, prefix);
      KeysOfSnoc(rows);
      var before := PutAssignments(m, prefix);
      assert PutAssignments(m, rows) == PutAssignment(before, last.0, last.1);
      PutAssignmentsLastStep(before, rows);
      forall k | k in KeysOf(prefix)
        ensures FirstRowOf(rows, k) == FirstRowOf(prefix, k)
      {
        FirstRowOfPrefix(rows, k);
      }
      var k := rows[|rows| - 1].0;
      if k !in KeysOf(prefix) {
        FirstRowOfLast(rows);
      }
    }
  }

  /** One more row keeps every last row's data in place. */
  lemma PutAssignmentsLastStep(before: map<AssignmentKey, AssignmentRow>, rows: seq<(AssignmentKey, AssignmentRow)>)
    requires |rows| > 0
    requires var prefix := rows[..|rows| - 1];
             forall i :: 0 <= i < |prefix| && LastOfKey(prefix, i) ==>
               prefix[i].0 in before && before[prefix[i].0].(dueSent := prefix[i].1.dueSent) == prefix[i].1
    ensures var after := PutAssignment(before, rows[|rows| - 1].0, rows[|rows| - 1].1);
            forall i :: 0 <= i < |rows| && LastOfKey(rows, i) ==>
              rows[i].0 in after && after[rows[i].0].(dueSent := rows[i].1.dueSent) == rows[i].1
  {
    var prefix := rows[..|rows| - 1];
    var last := rows[|rows| - 1];
    forall i | 0 <= i < |rows| && LastOfKey(rows, i)
      ensures var after := PutAssignment(before, last.0, last.1);
              rows[i].0 in after && after[rows[i].0].(dueSent := rows[i].1.dueSent) == rows[i].1
    {
      if i < |prefix| {
        assert LastOfKey(prefix, i) && prefix[i] == rows[i] && rows[i].0 != last.0;
        PutAssignmentElsewhere(before, last.0, last.1, rows[i].0);
      } else {
        PutAssignmentHere(before, last.0, last.1);
      }
    }
  }

  /** Writing a row keeps its data, whatever flags it inherits. */
  lemma PutAssignmentHere(rows: map<AssignmentKey, AssignmentRow>, k: AssignmentKey, row: AssignmentRow)
    ensures PutAssignment(rows, k, row)[k].(dueSent := row.dueSent) == row
  {
  }

  /** Writing a row leaves the other keys alone. */
  lemma PutAssignmentElsewhere(rows: map<AssignmentKey, AssignmentRow>, k: AssignmentKey, row: AssignmentRow, other: AssignmentKey)
    requires other != k && other in rows
    ensures PutAssignment(rows, k, row)[other] == rows[other]
  {
  }

  /** The row of the first occurrence of a key. */
  function FirstRowOf<K(==), V>(rows: seq<(K, V)>, k: K): V
    requires k in KeysOf(rows)
  {
    if rows[0].0 == k then rows[0].1
    else
      assert k in KeysOf(rows[1..]) by {
        var i :| 0 <= i < |rows| && rows[i].0 == k;
        assert rows[1..][i - 1] == rows[i];
      }
      FirstRowOf(rows[1..], k)
  }

  lemma {:induction false} FirstRowOfPrefix<K, V>(rows: seq<(K, V)>, k: K)
    requires |rows| > 0 && k in KeysOf(rows[..|rows| - 1])
    ensures k in KeysOf(rows) && FirstRowOf(rows, k) == FirstRowOf(rows[..|rows| - 1], k)
    decreases |rows|
  {
    var prefix := rows[..|rows| - 1];
    KeysOfSnoc(rows);
    if rows[0].0 != k {
      assert prefix[0] == rows[0];
      assert rows[1..][..|rows[1..]| - 1] == prefix[1..];
      assert k in KeysOf(prefix[1..]) by {
        var i :| 0 <= i < |prefix| && prefix[i].0 == k;
        assert prefix[1..][i - 1] == prefix[i];
      }
      FirstRowOfPrefix(rows[1..], k);
    }
  }

  lemma {:induction false} FirstRowOfLast<K, V>(rows: seq<(K, V)>)
    requires |rows| > 0 && rows[|rows| - 1].0 !in KeysOf(rows[..|rows| - 1])
    ensures rows[|rows| - 1].0 in KeysOf(rows)
    ensures FirstRowOf(rows, rows[|rows| - 1].0) == rows[|rows| - 1].1
    decreases |rows|
  {
    var k := rows[|rows| - 1].0;
    var prefix := rows[..|rows| - 1];
    KeysOfSnoc(rows);
    if |rows| > 1 {
      assert rows[0] == prefix[0];
      assert rows[0].0 != k;
      assert rows[1..][..|rows[1..]| - 1] == prefix[1..];
      assert forall i :: 0 <= i < |prefix[1..]| ==> prefix[1..][i] == prefix[i + 1];
      assert k !in KeysOf(prefix[1..]);
      FirstRowOfLast(rows[1..]);
    }
  }

  /** Each written assignment row is keyed by the course and its record's id. */
  lemma AssignmentRowsKeys(as_: seq<Canvas.AssignmentRecord>, courseId: Value)
    requires AssignmentRows(as_, courseId).Ok?
    ensures forall i :: 0 <= i < |as_| ==>
              IdKey(as_[i].id) == Some(AssignmentRows(as_, courseId).value[i].0.id)
              && IdKey(courseId) == Some(AssignmentRows(as_, courseId).value[i].0.courseId)
  {
    var rows := AssignmentRows(as_, courseId).value;
    forall i | 0 <= i < |as_|
      ensures IdKey(as_[i].id) == Some(rows[i].0.id) && IdKey(courseId) == Some(rows[i].0.courseId)
    {
      assert AssignmentFieldsOf(as_[i], courseId) == Ok(rows[i]);
    }
  }

  /** After `upsert_assignments` the keys are the old ones plus every
      record's id under the given course. */
  lemma UpsertAssignmentsKeys(db: Db, as_: seq<Canvas.AssignmentRecord>, courseId: Value)
    requires UpsertAssignments(db, as_, courseId).Ok?
    ensures forall k :: k in UpsertAssignments(db, as_, courseId).value.assignments <==>
              (k in db.assignments || (IdKey(courseId) == Some(k.courseId) && exists i :: 0 <= i < |as_| && IdKey(as_[i].id) == Some(k.id)))
  {
    var rows := AssignmentRows(as_, courseId).value;
    PutAssignmentsLastWins(db.assignments, rows);
    AssignmentRowsKeys(as_, courseId);
    forall k: AssignmentKey | IdKey(courseId) == Some(k.courseId) && exists i :: 0 <= i < |as_| && IdKey(as_[i].id) == Some(k.id)
      ensures k in KeysOf(rows)
    {
      var i :| 0 <= i < |as_| && IdKey(as_[i].id) == Some(k.id);
      assert rows[i].0 == k;
    }
  }

  /** A record no later record overrides leaves its data under its key,
      with the flags the row had before the call (none for a new row). */
  lemma UpsertAssignmentsLastWins(db: Db, as_: seq<Canvas.AssignmentRecord>, courseId: Value, i: int)
    requires UpsertAssignments(db, as_, courseId).Ok? && 0 <= i < |as_|
    requires forall j :: i < j < |as_| ==> IdKey(as_[j].id) != IdKey(as_[i].id)
    ensures AssignmentFieldsOf(as_[i], courseId).Ok?
    ensures var (k, row) := AssignmentFieldsOf(as_[i], courseId).value;
            var r := UpsertAssignments(db, as_, courseId).value.assignments;
            && k in r
            && r[k].(dueSent := {}) == row
            && r[k].dueSent == (if k in db.assignments then db.assignments[k].dueSent else {})
  {
    var rows := AssignmentRows(as_, courseId).value;
    PutAssignmentsLastWins(db.assignments, rows);
    AssignmentRowsKeys(as_, courseId);
    assert AssignmentFieldsOf(as_[i], courseId) == Ok(rows[i]);
    assert LastOfKey(rows, i);
    var k := rows[i].0;
    assert k in KeysOf(rows);
    FirstRowIsARow(rows, k);
    var j :| 0 <= j < |rows| && rows[j] == (k, FirstRowOf(rows, k));
    assert AssignmentFieldsOf(as_[j], courseId) == Ok(rows[j]);
  }

  /** Assignments no record names keep their rows, flags included. */
  lemma UpsertAssignmentsKeepsOthers(db: Db, as_: seq<Canvas.AssignmentRecord>, courseId: Value, k: AssignmentKey)
    requires UpsertAssignments(db, as_, courseId).Ok? && k in db.assignments
    requires IdKey(courseId) != Some(k.courseId) || forall i :: 0 <= i < |as_| ==> IdKey(as_[i].id) != Some(k.id)
    ensures k in UpsertAssignments(db, as_, courseId).value.assignments
    ensures UpsertAssignments(db, as_, courseId).value.assignments[k] == db.assignments[k]
  {
    var rows := AssignmentRows(as_, courseId).value;
    PutAssignmentsLastWins(db.assignments, rows);
    AssignmentRowsKeys(as_, courseId);
    assert k !in KeysOf(rows);
  }

  lemma {:induction false} FirstRowIsARow<K, V>(rows: seq<(K, V)>, k: K)
    requires k in KeysOf(rows)
    ensures exists i :: 0 <= i < |rows| && rows[i] == (k, FirstRowOf(rows, k))
    decreases |rows|
  {
    if rows[0].0 != k {
      assert k in KeysOf(rows[1..]) by {
        var i :| 0 <= i < |rows| && rows[i].0 == k;
        assert rows[1..][i - 1] == rows[i];
      }
      FirstRowIsARow(rows[1..], k);
      var i :| 0 <= i < |rows[1..]| && rows[1..][i] == (k, FirstRowOf(rows[1..], k));
      assert rows[i + 1] == (k, FirstRowOf(rows, k));
    }
  }

  /** The course id only enters an assignment row's key: the same record
      under any other course that keys a row gives the same data. */
  lemma AssignmentFieldsCourse(a: Canvas.AssignmentRecord, c1: Value, c2: Value)
    requires AssignmentFieldsOf(a, c1).Ok? && IdKey(c2).Some?
    ensures AssignmentFieldsOf(a, c2)
            == Ok((AssignmentKey(IdKey(c2).value, IdKey(a.id).value), AssignmentFieldsOf(a, c1).value.1))
  {
  }

  /** Assignment rows are keyed by course as well as id: the same
      assignment id synced under two courses gives two rows. */
  lemma SameIdTwoCourses(db: Db, a: Canvas.AssignmentRecord, c1: Value, c2: Value)
    requires IdKey(c2).Some? && IdKey(c1) != IdKey(c2)
    requires AssignmentFieldsOf(a, c1).Ok?
    ensures UpsertAssignments(db, [a], c1).Ok?
    ensures var r1 := UpsertAssignments(db, [a], c1).value;
            var r2 := UpsertAssignments(r1, [a], c2);
            && r2.Ok?
            && AssignmentKey(IdKey(c1).value, IdKey(a.id).value) in r2.value.assignments
            && AssignmentKey(IdKey(c2).value, IdKey(a.id).value) in r2.value.assignments
  {
    AssignmentFieldsCourse(a, c1, c2);
    var r1 := UpsertAssignments(db, [a], c1).value;
    UpsertAssignmentsKeys(db, [a], c1);
    UpsertAssignmentsKeys(r1, [a], c2);
    assert [a][0] == a;
  }

  // ---------------------------------------------------------------------
  // Study plans and completion status
  // ---------------------------------------------------------------------

  /** `upsert_study_plan`: a new plan starts with no reminder sent; an
      existing plan gets the new time and notes and KEEPS its flags. */
  function UpsertStudyPlan(db: Db, k: UserKey, plannedAt: int, notes: Option<string>): (r: Db)
    ensures r == db.(plans := r.plans)
    ensures r.plans.Keys == db.plans.Keys + {k}
    ensures forall j :: j in db.plans && j != k ==> r.plans[j] == db.plans[j]
    ensures r.plans[k].plannedAt == plannedAt && r.plans[k].notes == notes
    ensures r.plans[k].sent == (if k in db.plans then db.plans[k].sent else {})
  {
    var sent := if k in db.plans then db.plans[k].sent else {};
    db.(plans := db.plans[k := PlanRow(plannedAt, notes, sent)])
  }

  /** `update_study_plan_time`: the plan gets the new time and all three
      work-session flags are cleared; with no such plan nothing changes. */
  function UpdateStudyPlanTime(db: Db, k: UserKey, plannedAt: int): (r: Db)
    ensures r == db.(plans := r.plans)
    ensures r.plans.Keys == db.plans.Keys
    ensures forall j :: j in db.plans && j != k ==> r.plans[j] == db.plans[j]
    ensures k in db.plans ==> r.plans[k] == PlanRow(plannedAt, db.plans[k].notes, {})
    ensures k !in db.plans ==> r == db
  {
    if k in db.plans then db.(plans := db.plans[k := db.plans[k].(plannedAt := plannedAt, sent := {})])
    else db
  }

  /** `set_assignment_completed`: insert or overwrite one user's status. */
  function SetAssignmentCompleted(db: Db, k: UserKey, completed: bool, completedAt: Option<int>): (r: Db)
    ensures r == db.(status := r.status)
    ensures r.status.Keys == db.status.Keys + {k}
    ensures forall j :: j in db.status && j != k ==> r.status[j] == db.status[j]
    ensures r.status[k] == StatusRow(completed, completedAt)
  {
    db.(status := db.status[k := StatusRow(completed, completedAt)])
  }

  // ---------------------------------------------------------------------
  // Reminder flags
  // ---------------------------------------------------------------------

  /** `mark_reminder_sent(user, course, assignment, reminder_type)`: an
      unknown type is ignored; otherwise the one flag of that plan is set
      (an UPDATE that matches no row changes nothing). */
  function MarkReminderSent(db: Db, k: UserKey, reminderType: string): (r: Db)
    ensures r == db.(plans := r.plans)
    ensures r.plans.Keys == db.plans.Keys
    ensures forall j :: j in db.plans && j != k ==> r.plans[j] == db.plans[j]
    ensures ParseWorkTag(reminderType).None? || k !in db.plans ==> r == db
    ensures ParseWorkTag(reminderType).Some? && k in db.plans ==>
              r.plans[k] == db.plans[k].(sent := db.plans[k].sent + {ParseWorkTag(reminderType).value})
  {
    match ParseWorkTag(reminderType)
    case None => db
    case Some(t) =>
      if k in db.plans then db.(plans := db.plans[k := db.plans[k].(sent := db.plans[k].sent + {t})])
      else db
  }

  /** `mark_due_date_reminder_sent(course, assignment, reminder_type)`:
      the flag is per assignment, shared by every user. */
  function MarkDueDateReminderSent(db: Db, k: AssignmentKey, reminderType: string): (r: Db)
    ensures r == db.(assignments := r.assignments)
    ensures r.assignments.Keys == db.assignments.Keys
    ensures forall j :: j in db.assignments && j != k ==> r.assignments[j] == db.assignments[j]
    ensures ParseDueTag(reminderType).None? || k !in db.assignments ==> r == db
    ensures ParseDueTag(reminderType).Some? && k in db.assignments ==>
              r.assignments[k] == db.assignments[k].(dueSent := db.assignments[k].dueSent + {ParseDueTag(reminderType).value})
  {
    match ParseDueTag(reminderType)
    case None => db
    case Some(t) =>
      if k in db.assignments then
        db.(assignments := db.assignments[k := db.assignments[k].(dueSent := db.assignments[k].dueSent + {t})])
      else db
  }

  /** Marking the same reminder twice is the same as marking it once. */
  lemma MarkIdempotent(db: Db, k: UserKey, a: AssignmentKey, reminderType: string)
    ensures MarkReminderSent(MarkReminderSent(db, k, reminderType), k, reminderType)
            == MarkReminderSent(db, k, reminderType)
    ensures MarkDueDateReminderSent(MarkDueDateReminderSent(db, a, reminderType), a, reminderType)
            == MarkDueDateReminderSent(db, a, reminderType)
  {
  }

  // ---------------------------------------------------------------------
  // Week-completion notifications
  // ---------------------------------------------------------------------

  /** `get_week_completion_notified(user, week_start)`: keyed by the
      `%Y-%U` text of the week start's own wall-clock fields. */
  function WeekCompletionNotified(db: Db, userId: string, weekStart: DateTime): bool
    requires InRange(weekStart.wall)
  {
    WeekMark(userId, WeekKeyOf(weekStart.wall)) in db.notified
  }

  /** `mark_week_completion_notified(user, week_start)`. */
  function MarkWeekCompletionNotified(db: Db, userId: string, weekStart: DateTime): (r: Db)
    requires InRange(weekStart.wall)
    ensures r == db.(notified := r.notified)
    ensures WeekCompletionNotified(r, userId, weekStart)
    ensures forall u, w :: WeekMark(u, w) in db.notified ==> WeekMark(u, w) in r.notified
    ensures forall u, w :: WeekMark(u, w) in r.notified && u != userId ==> WeekMark(u, w) in db.notified
  {
    db.(notified := db.notified + {WeekMark(userId, WeekKeyOf(weekStart.wall))})
  }

  /** Marking one Monday leaves every other Monday of the same user
      unmarked if it was, so each week is notified at most once and a new
      week starts fresh. */
  lemma MarkIsPerWeek(db: Db, userId: string, m1: DateTime, m2: DateTime)
    requires InRange(m1.wall) && InRange(m2.wall)
    requires Weekday(m1.wall) == 0 && Weekday(m2.wall) == 0 && DayOf(m1.wall) != DayOf(m2.wall)
    ensures WeekCompletionNotified(MarkWeekCompletionNotified(db, userId, m1), userId, m2)
            == WeekCompletionNotified(db, userId, m2)
  {
    MondayKeysDistinct(m1.wall, m2.wall);
  }

  // ---------------------------------------------------------------------
  // Flags only rise
  // ---------------------------------------------------------------------

  /** Every flag set in `a` is still set in `b`, and no row was removed. */
  predicate FlagsKept(a: Db, b: Db) {
    && (forall k :: k in a.plans ==> k in b.plans && a.plans[k].sent <= b.plans[k].sent)
    && (forall k :: k in a.assignments ==> k in b.assignments && a.assignments[k].dueSent <= b.assignments[k].dueSent)
    && a.notified <= b.notified
  }

  /** Marking, planning and recording completion never clear a flag. */
  lemma FlagsOnlyRise(db: Db, k: UserKey, a: AssignmentKey, tag: string, plannedAt: int, notes: Option<string>,
                      completed: bool, at: Option<int>)
    ensures FlagsKept(db, MarkReminderSent(db, k, tag))
    ensures FlagsKept(db, MarkDueDateReminderSent(db, a, tag))
    ensures FlagsKept(db, UpsertStudyPlan(db, k, plannedAt, notes))
    ensures FlagsKept(db, SetAssignmentCompleted(db, k, completed, at))
  {
    MarkKeepsFlags(db, k, tag);
    MarkDueKeepsFlags(db, a, tag);
    PlanKeepsFlags(db, k, plannedAt, notes);
    CompletionKeepsFlags(db, k, completed, at);
  }

  lemma MarkKeepsFlags(db: Db, k: UserKey, tag: string)
    ensures FlagsKept(db, MarkReminderSent(db, k, tag))
  {
  }

  lemma MarkDueKeepsFlags(db: Db, a: AssignmentKey, tag: string)
    ensures FlagsKept(db, MarkDueDateReminderSent(db, a, tag))
  {
  }

  lemma PlanKeepsFlags(db: Db, k: UserKey, plannedAt: int, notes: Option<string>)
    ensures FlagsKept(db, UpsertStudyPlan(db, k, plannedAt, notes))
  {
  }

  lemma CompletionKeepsFlags(db: Db, k: UserKey, completed: bool, at: Option<int>)
    ensures FlagsKept(db, SetAssignmentCompleted(db, k, completed, at))
  {
  }

  /** A sync never clears a flag: re-upserting an assignment keeps its
      due-reminder flags. */
  lemma SyncKeepsFlags(db: Db, cs: seq<Canvas.CourseRecord>, as_: seq<Canvas.AssignmentRecord>, courseId: Value)
    ensures UpsertCourses(db, cs).Ok? ==> FlagsKept(db, UpsertCourses(db, cs).value)
    ensures UpsertAssignments(db, as_, courseId).Ok? ==> FlagsKept(db, UpsertAssignments(db, as_, courseId).value)
  {
    if UpsertAssignments(db, as_, courseId).Ok? {
      PutAssignmentsLastWins(db.assignments, AssignmentRows(as_, courseId).value);
    }
  }

  /** Rescheduling clears the flags of the rescheduled plan only. */
  lemma RescheduleClearsOnlyItsPlan(db: Db, k: UserKey, plannedAt: int)
    requires k in db.plans
    ensures var r := UpdateStudyPlanTime(db, k, plannedAt);
            && r.plans[k].sent == {}
            && forall j :: j in db.plans && j != k ==> r.plans[j].sent == db.plans[j].sent
  {
  }
}

=== FILE: sync.dfy ===
/** `sync_canvas_data()` as a composition of the store's upserts: the
    courses first, then each course's assignments in course order. Each
    upsert commits on its own, so a failure part-way leaves the earlier
    upserts in place. The network responses are parameters: the course
    listing the client returned, and for each course id the assignment
    listing or the exception fetching it raised. */
module Sync {
  import opened Outcomes
  import opened Json
  import opened Store
  import Canvas

  /** The store after a sync and the exception that stopped it, if any. */
  datatype Synced = Synced(db: Db, error: Option<Exc>)

  /** The loop over the fetched courses: fetch, normalise and upsert each
      course's assignments under that course's id. */
  function SyncAssignments(db: Db, cs: seq<Canvas.CourseRecord>, fetch: Value -> Result<Value>): (r: Synced)
    decreases |cs|
    ensures r.db == db.(assignments := r.db.assignments)
    ensures db.assignments.Keys <= r.db.assignments.Keys
  {
    if |cs| == 0 then Synced(db, None)
    else
      match fetch(cs[0].id)
      case Err(e) => Synced(db, Some(e))
      case Ok(data) =>
        match Canvas.GetAssignments(data)
        case Err(e) => Synced(db, Some(e))
        case Ok(as_) =>
          match UpsertAssignments(db, as_, cs[0].id)
          case Err(e) => Synced(db, Some(e))
          case Ok(db1) =>
            UpsertAssignmentsKeys(db, as_, cs[0].id);
            SyncAssignments(db1, cs[1..], fetch)
  }

  /** `sync_canvas_data()`, after `init_db()`. */
  function SyncCanvasData(db: Db, courseData: Result<Value>, fetch: Value -> Result<Value>): (r: Synced)
    ensures r.db.plans == db.plans && r.db.status == db.status && r.db.notified == db.notified
    ensures FlagsKept(db, r.db)
    ensures r.error.None? ==> courseData.Ok? && Canvas.GetCourses(courseData.value).Ok?
  {
    match courseData
    case Err(e) => Synced(db, Some(e))
    case Ok(data) =>
      match Canvas.GetCourses(data)
      case Err(e) => Synced(db, Some(e))
      case Ok(cs) =>
        match UpsertCourses(db, cs)
        case Err(e) => Synced(db, Some(e))
        case Ok(db1) =>
          SyncKeepsFlags(db, cs, [], Null);
          SyncAssignmentsKeepsDueFlags(db1, cs, fetch);
          SyncAssignments(db1, cs, fetch)
  }

  /** Every course is written before any assignment: when the course
      upsert succeeds, the course table after the sync is exactly the one
      it wrote; when it fails, nothing is written at all. */
  lemma CoursesFirst(db: Db, courseData: Result<Value>, fetch: Value -> Result<Value>)
    requires courseData.Ok? && Canvas.GetCourses(courseData.value).Ok?
    ensures var cs := Canvas.GetCourses(courseData.value).value;
            var r := SyncCanvasData(db, courseData, fetch);
            && (UpsertCourses(db, cs).Ok? ==> r.db.courses == UpsertCourses(db, cs).value.courses)
            && (UpsertCourses(db, cs).Err? ==> r == Synced(db, Some(UpsertCourses(db, cs).error)))
  {
  }

  /** An assignment upsert keeps the due-reminder flags of every row it
      updates and starts new rows with none. */
  lemma UpsertAssignmentsFlags(db: Db, as_: seq<Canvas.AssignmentRecord>, courseId: Value)
    requires UpsertAssignments(db, as_, courseId).Ok?
    ensures var r := UpsertAssignments(db, as_, courseId).value;
            forall k :: k in r.assignments ==>
              r.assignments[k].dueSent == (if k in db.assignments then db.assignments[k].dueSent else {})
  {
    var rows := AssignmentRows(as_, courseId).value;
    PutAssignmentsLastWins(db.assignments, rows);
    forall k | k in PutAssignments(db.assignments, rows) && k !in db.assignments
      ensures FirstRowOf(rows, k).dueSent == {}
    {
      FirstRowIsARow(rows, k);
      var i :| 0 <= i < |rows| && rows[i] == (k, FirstRowOf(rows, k));
      assert AssignmentFieldsOf(as_[i], courseId) == Ok(rows[i]);
    }
  }

  /** The assignment phase keeps every due-reminder flag, and rows it
      creates start with none. */
  lemma {:induction false} SyncAssignmentsKeepsDueFlags(db: Db, cs: seq<Canvas.CourseRecord>, fetch: Value -> Result<Value>)
    ensures var r := SyncAssignments(db, cs, fetch);
            forall k :: k in r.db.assignments ==>
              r.db.assignments[k].dueSent == (if k in db.assignments then db.assignments[k].dueSent else {})
    decreases |cs|
  {
    if |cs| > 0 && fetch(cs[0].id).Ok? && Canvas.GetAssignments(fetch(cs[0].id).value).Ok? {
      var as_ := Canvas.GetAssignments(fetch(cs[0].id).value).value;
      if UpsertAssignments(db, as_, cs[0].id).Ok? {
        var db1 := UpsertAssignments(db, as_, cs[0].id).value;
        UpsertAssignmentsFlags(db, as_, cs[0].id);
        SyncAssignmentsKeepsDueFlags(db1, cs[1..], fetch);
        UpsertAssignmentsKeys(db, as_, cs[0].id);
      }
    }
  }

  /** The step for one course fails, with the exception it raises. */
  predicate CourseFails(db: Db, c: Canvas.CourseRecord, fetch: Value -> Result<Value>, e: Exc) {
    || fetch(c.id) == Err(e)
    || (fetch(c.id).Ok? && Canvas.GetAssignments(fetch(c.id).value) == Err(e))
    || (fetch(c.id).Ok? && Canvas.GetAssignments(fetch(c.id).value).Ok?
        && UpsertAssignments(db, Canvas.GetAssignments(fetch(c.id).value).value, c.id) == Err(e))
  }

  /** A sync that stops at a course keeps what the courses before it
      wrote: the store is the one a sync of just those courses leaves, and
      the failing course's step raised the reported exception. */
  lemma {:induction false} PartialSyncKept(db: Db, cs: seq<Canvas.CourseRecord>, fetch: Value -> Result<Value>)
    requires SyncAssignments(db, cs, fetch).error.Some?
    ensures exists j :: StopsAt(db, cs, fetch, j, SyncAssignments(db, cs, fetch))
    decreases |cs|
  {
    var r := SyncAssignments(db, cs, fetch);
    assert SyncAssignments(db, cs[..0], fetch) == Synced(db, None);
    if fetch(cs[0].id).Ok? && Canvas.GetAssignments(fetch(cs[0].id).value).Ok? {
      var as_ := Canvas.GetAssignments(fetch(cs[0].id).value).value;
      if UpsertAssignments(db, as_, cs[0].id).Ok? {
        var db1 := UpsertAssignments(db, as_, cs[0].id).value;
        assert r == SyncAssignments(db1, cs[1..], fetch);
        PartialSyncKept(db1, cs[1..], fetch);
        var j :| StopsAt(db1, cs[1..], fetch, j, r);
        StopsLater(db, cs, fetch, j, r);
      } else {
        assert StopsAt(db, cs, fetch, 0, r);
      }
    } else {
      assert StopsAt(db, cs, fetch, 0, r);
    }
  }

  /** The sync `r` stopped at course `j`: the courses before it synced
      normally to the store `r` reports, and course `j` raised `r`'s
      exception. */
  predicate StopsAt(db: Db, cs: seq<Canvas.CourseRecord>, fetch: Value -> Result<Value>, j: int, r: Synced) {
    && 0 <= j < |cs| && r.error.Some?
    && SyncAssignments(db, cs[..j], fetch).error.None?
    && SyncAssignments(db, cs[..j], fetch).db == r.db
    && CourseFails(SyncAssignments(db, cs[..j], fetch).db, cs[j], fetch, r.error.value)
  }

  /** Stopping at course `j` after the first course stopped at `j + 1`
      from the start. */
  lemma StopsLater(db: Db, cs: seq<Canvas.CourseRecord>, fetch: Value -> Result<Value>, j: int, r: Synced)
    requires |cs| > 0 && fetch(cs[0].id).Ok? && Canvas.GetAssignments(fetch(cs[0].id).value).Ok?
    requires UpsertAssignments(db, Canvas.GetAssignments(fetch(cs[0].id).value).value, cs[0].id).Ok?
    requires StopsAt(UpsertAssignments(db, Canvas.GetAssignments(fetch(cs[0].id).value).value, cs[0].id).value,
                     cs[1..], fetch, j, r)
    ensures StopsAt(db, cs, fetch, j + 1, r)
  {
    var db1 := UpsertAssignments(db, Canvas.GetAssignments(fetch(cs[0].id).value).value, cs[0].id).value;
    assert cs[..j + 1][1..] == cs[1..][..j];
    assert SyncAssignments(db, cs[..j + 1], fetch) == SyncAssignments(db1, cs[1..][..j], fetch);
    assert cs[1..][j] == cs[j + 1];
  }

  /** After a sync that ends normally, an assignment record that no later
      record of its course's listing, and no later course with the same
      id, overrides holds its data under `(course id, id)`. Together with
      SyncAssignmentsKeepsDueFlags: an existing row is updated in place. */
  lemma {:induction false} SyncLastWins(db: Db, cs: seq<Canvas.CourseRecord>, fetch: Value -> Result<Value>, i: int, j: int)
    requires SyncAssignments(db, cs, fetch).error.None?
    requires LastRecord(cs, fetch, i, j)
    ensures var as_ := Canvas.GetAssignments(fetch(cs[i].id).value).value;
            HoldsRecord(SyncAssignments(db, cs, fetch).db.assignments, as_[j], cs[i].id)
    decreases |cs|, 1
  {
    if i == 0 {
      SyncStep(db, cs, fetch);
      FirstCourseWins(db, cs, fetch, j);
    } else {
      LaterCourseWins(db, cs, fetch, i, j);
    }
  }

  /** The later-course case of SyncLastWins: the sync goes on from the
      store the first course left. */
  lemma {:induction false} LaterCourseWins(db: Db, cs: seq<Canvas.CourseRecord>, fetch: Value -> Result<Value>, i: int, j: int)
    requires SyncAssignments(db, cs, fetch).error.None?
    requires LastRecord(cs, fetch, i, j) && i > 0
    ensures var as_ := Canvas.GetAssignments(fetch(cs[i].id).value).value;
            HoldsRecord(SyncAssignments(db, cs, fetch).db.assignments, as_[j], cs[i].id)
    decreases |cs|, 0
  {
    var as0 := Canvas.GetAssignments(fetch(cs[0].id).value).value;
    SyncStep(db, cs, fetch);
    var db1 := UpsertAssignments(db, as0, cs[0].id).value;
    LastRecordTail(cs, fetch, i, j);
    SyncLastWins(db1, cs[1..], fetch, i - 1, j);
  }

  /** Record `j` of course `i`'s listing is fetched, and no later course
      with the same id and no later record of that listing with the same
      id overrides it. */
  predicate LastRecord(cs: seq<Canvas.CourseRecord>, fetch: Value -> Result<Value>, i: int, j: int) {
    && 0 <= i < |cs| && (forall i' :: i < i' < |cs| ==> IdKey(cs[i'].id) != IdKey(cs[i].id))
    && fetch(cs[i].id).Ok? && Canvas.GetAssignments(fetch(cs[i].id).value).Ok?
    && var as_ := Canvas.GetAssignments(fetch(cs[i].id).value).value;
       0 <= j < |as_| && forall j' :: j < j' < |as_| ==> IdKey(as_[j'].id) != IdKey(as_[j].id)
  }

  lemma LastRecordTail(cs: seq<Canvas.CourseRecord>, fetch: Value -> Result<Value>, i: int, j: int)
    requires LastRecord(cs, fetch, i, j) && i > 0
    ensures LastRecord(cs[1..], fetch, i - 1, j) && cs[1..][i - 1] == cs[i]
  {
    var rest := cs[1..];
    assert rest[i - 1] == cs[i];
    assert forall i' :: i - 1 < i' < |rest| ==> IdKey(rest[i'].id) != IdKey(rest[i - 1].id);
  }

  /** The store `r` holds the data of record `a` of course `courseId` under
      its `(course id, id)` key, whatever its flags. */
  predicate HoldsRecord(r: map<AssignmentKey, AssignmentRow>, a: Canvas.AssignmentRecord, courseId: Value) {
    && AssignmentFieldsOf(a, courseId).Ok?
    && AssignmentFieldsOf(a, courseId).value.0 in r
    && r[AssignmentFieldsOf(a, courseId).value.0].(dueSent := {}) == AssignmentFieldsOf(a, courseId).value.1
  }

  /** A sync that gets past its first course continues from the store
      that course's upsert left. */
  lemma SyncStep(db: Db, cs: seq<Canvas.CourseRecord>, fetch: Value -> Result<Value>)
    requires SyncAssignments(db, cs, fetch).error.None? && |cs| > 0
    ensures fetch(cs[0].id).Ok? && Canvas.GetAssignments(fetch(cs[0].id).value).Ok?
    ensures var as0 := Canvas.GetAssignments(fetch(cs[0].id).value).value;
            && UpsertAssignments(db, as0, cs[0].id).Ok?
            && SyncAssignments(db, cs, fetch) == SyncAssignments(UpsertAssignments(db, as0, cs[0].id).value, cs[1..], fetch)
  {
  }

  /** The first-course case of SyncLastWins. */
  lemma FirstCourseWins(db: Db, cs: seq<Canvas.CourseRecord>, fetch: Value -> Result<Value>, j: int)
    requires LastRecord(cs, fetch, 0, j)
    requires var as_ := Canvas.GetAssignments(fetch(cs[0].id).value).value;
             && UpsertAssignments(db, as_, cs[0].id).Ok?
             && SyncAssignments(db, cs, fetch) == SyncAssignments(UpsertAssignments(db, as_, cs[0].id).value, cs[1..], fetch)
    ensures var as_ := Canvas.GetAssignments(fetch(cs[0].id).value).value;
            HoldsRecord(SyncAssignments(db, cs, fetch).db.assignments, as_[j], cs[0].id)
  {
    var as0 := Canvas.GetAssignments(fetch(cs[0].id).value).value;
    var db1 := UpsertAssignments(db, as0, cs[0].id).value;
    UpsertAssignmentsLastWins(db, as0, cs[0].id, j);
    assert HoldsRecord(db1.assignments, as0[j], cs[0].id);
    var k := AssignmentFieldsOf(as0[j], cs[0].id).value.0;
    LaterCoursesOthers(cs, fetch, j, k);
    SyncUntouched(db1, cs[1..], fetch, k);
    HoldsRecordKept(db1.assignments, SyncAssignments(db1, cs[1..], fetch).db.assignments, as0[j], cs[0].id);
  }

  /** The courses after the first one are not the first record's course. */
  lemma LaterCoursesOthers(cs: seq<Canvas.CourseRecord>, fetch: Value -> Result<Value>, j: int, k: AssignmentKey)
    requires LastRecord(cs, fetch, 0, j) && IdKey(cs[0].id) == Some(k.courseId)
    ensures forall i :: 0 <= i < |cs[1..]| ==> IdKey(cs[1..][i].id) != Some(k.courseId)
  {
  }

  /** A row left as it was still holds its record. */
  lemma HoldsRecordKept(r1: map<AssignmentKey, AssignmentRow>, r2: map<AssignmentKey, AssignmentRow>,
                        a: Canvas.AssignmentRecord, courseId: Value)
    requires HoldsRecord(r1, a, courseId)
    requires var k := AssignmentFieldsOf(a, courseId).value.0; k in r2 && r2[k] == r1[k]
    ensures HoldsRecord(r2, a, courseId)
  {
  }

  /** Courses whose id differs from `k`'s course leave row `k` alone. */
  lemma {:induction false} SyncUntouched(db: Db, cs: seq<Canvas.CourseRecord>, fetch: Value -> Result<Value>, k: AssignmentKey)
    requires k in db.assignments
    requires forall i :: 0 <= i < |cs| ==> IdKey(cs[i].id) != Some(k.courseId)
    ensures k in SyncAssignments(db, cs, fetch).db.assignments
    ensures SyncAssignments(db, cs, fetch).db.assignments[k] == db.assignments[k]
    decreases |cs|
  {
    if |cs| > 0 && fetch(cs[0].id).Ok? && Canvas.GetAssignments(fetch(cs[0].id).value).Ok? {
      var as_ := Canvas.GetAssignments(fetch(cs[0].id).value).value;
      if UpsertAssignments(db, as_, cs[0].id).Ok? {
        UpsertAssignmentsKeepsOthers(db, as_, cs[0].id, k);
        SyncUntouched(UpsertAssignments(db, as_, cs[0].id).value, cs[1..], fetch, k);
      }
    }
  }
}

=== FILE: text.dfy ===
/** Character and string primitives: ASCII digits, Python's whitespace, the Python
    `str` methods the source relies on, and the byte-wise ordering SQLite uses
    to compare TEXT values. */
module Text {

  // ---------------------------------------------------------------------
  // Digits
  // ---------------------------------------------------------------------

  predicate IsDigit(c: char) { '0' <= c <= '9' }

  function DigitValue(c: char): int
    requires IsDigit(c)
  {
    c as int - '0' as int
  }

  function DigitChar(d: int): char
    requires 0 <= d <= 9
  {
    ('0' as int + d) as char
  }

  predicate AllDigits(s: string) {
    forall i :: 0 <= i < |s| ==> IsDigit(s[i])
  }

  /** `str.isdigit()` restricted to ASCII: non-empty and digits only. */
  predicate IsDigitString(s: string) {
    |s| > 0 && AllDigits(s)
  }

  /** Decimal value of a digit string, most significant digit first (`int(s)`). */
  function DigitsValue(s: string): nat
    requires AllDigits(s)
  {
    if |s| == 0 then 0 else 10 * DigitsValue(s[..|s| - 1]) + DigitValue(s[|s| - 1])
  }

  function Pow10(n: nat): nat {
    if n == 0 then 1 else 10 * Pow10(n - 1)
  }

  lemma {:induction false} DigitsValueAppend(a: string, b: string)
    requires AllDigits(a) && AllDigits(b)
    ensures AllDigits(a + b)
    ensures DigitsValue(a + b) == DigitsValue(a) * Pow10(|b|) + DigitsValue(b)
    decreases |b|
  {
    if |b| == 0 {
      assert a + b == a;
    } else {
      var b' := b[..|b| - 1];
      var ab := a + b;
      assert ab[..|ab| - 1] == a + b';
      DigitsValueAppend(a, b');
      AllDigitsConcat(a, b);
      var x, p, y, d := DigitsValue(a), Pow10(|b'|), DigitsValue(b'), DigitValue(b[|b| - 1]);
      assert ab[|ab| - 1] == b[|b| - 1];
      assert DigitsValue(ab) == 10 * (x * p + y) + d;
      assert DigitsValue(b) == 10 * y + d;
      assert Pow10(|b|) == 10 * p;
      ShiftDigit(x, p, y, d);
    }
  }

  lemma AllDigitsConcat(a: string, b: string)
    requires AllDigits(a) && AllDigits(b)
    ensures AllDigits(a + b)
  {
    var ab := a + b;
    forall i | 0 <= i < |ab| ensures IsDigit(ab[i]) {
      if i < |a| { assert ab[i] == a[i]; } else { assert ab[i] == b[i - |a|]; }
    }
  }

  /** Appending one more digit: `10 (x p + y) + d = x (10 p) + (10 y + d)`. */
  lemma ShiftDigit(x: int, p: int, y: int, d: int)
    ensures 10 * (x * p + y) + d == x * (10 * p) + (10 * y + d)
  {
    assert x * (10 * p) == 10 * (x * p);
  }

  /** Two-digit zero-padded rendering (`%02d`). */
  function Pad2(v: int): (r: string)
    requires 0 <= v < 100
    ensures |r| == 2 && AllDigits(r)
    ensures DigitsValue(r) == v
  {
    var hi := [DigitChar(v / 10)];
    var r := hi + [DigitChar(v % 10)];
    assert r[..1] == hi && hi[..0] == [];
    assert DigitsValue(hi) == v / 10;
    r
  }

  /** Four-digit zero-padded rendering (`%04d`). */
  function Pad4(v: int): (r: string)
    requires 0 <= v < 10000
    ensures |r| == 4 && AllDigits(r)
    ensures DigitsValue(r) == v
  {
    DigitsValueAppend(Pad2(v / 100), Pad2(v % 100));
    assert Pow10(2) == 100;
    Pad2(v / 100) + Pad2(v % 100)
  }

  lemma Pad2OfDigits(s: string)
    requires |s| == 2 && AllDigits(s)
    ensures DigitsValue(s) < 100
    ensures Pad2(DigitsValue(s)) == s
  {
    assert s[..1][..0] == [];
    assert DigitsValue(s[..1]) == DigitValue(s[0]);
  }

  lemma Pad4OfDigits(s: string)
    requires |s| == 4 && AllDigits(s)
    ensures DigitsValue(s) < 10000
    ensures Pad4(DigitsValue(s)) == s
  {
    var hi, lo := s[..2], s[2..];
    assert s == hi + lo;
    DigitsValueAppend(hi, lo);
    Pad2OfDigits(hi);
    Pad2OfDigits(lo);
    var v := DigitsValue(s);
    assert v == DigitsValue(hi) * 100 + DigitsValue(lo);
    assert v / 100 == DigitsValue(hi) && v % 100 == DigitsValue(lo);
  }

  // ---------------------------------------------------------------------
  // Byte-wise string order (SQLite's BINARY collation on ASCII text)
  // ---------------------------------------------------------------------

  predicate StrLt(a: string, b: string)
    decreases |a|
  {
    if |a| == 0 then |b| > 0
    else if |b| == 0 then false
    else if a[0] != b[0] then a[0] < b[0]
    else StrLt(a[1..], b[1..])
  }

  predicate StrLe(a: string, b: string) {
    a == b || StrLt(a, b)
  }

  lemma {:induction false} StrLtIrreflexive(a: string)
    ensures !StrLt(a, a)
    decreases |a|
  {
    if |a| > 0 {
      StrLtIrreflexive(a[1..]);
    }
  }

  lemma {:induction false} StrLtAsymmetric(a: string, b: string)
    requires StrLt(a, b)
    ensures !StrLt(b, a)
    decreases |a|
  {
    if |a| > 0 && |b| > 0 && a[0] == b[0] {
      StrLtAsymmetric(a[1..], b[1..]);
    }
  }

  /** Comparing two concatenations whose first parts have equal length
      compares the first parts, then the second parts. */
  lemma {:induction false} StrLtConcat(x1: string, y1: string, x2: string, y2: string)
    requires |x1| == |x2|
    requires StrLt(x1, x2) || (x1 == x2 && StrLt(y1, y2))
    ensures StrLt(x1 + y1, x2 + y2)
    decreases |x1|
  {
    if x1 == x2 {
      if |x1| > 0 {
        assert (x1 + y1)[1..] == x1[1..] + y1;
        assert (x2 + y2)[1..] == x2[1..] + y2;
        StrLtConcat(x1[1..], y1, x2[1..], y2);
      } else {
        assert x1 + y1 == y1 && x2 + y2 == y2;
      }
    } else {
      assert |x1| > 0;
      assert (x1 + y1)[0] == x1[0] && (x2 + y2)[0] == x2[0];
      if x1[0] == x2[0] {
        assert (x1 + y1)[1..] == x1[1..] + y1;
        assert (x2 + y2)[1..] == x2[1..] + y2;
        StrLtConcat(x1[1..], y1, x2[1..], y2);
      }
    }
  }

  /** A shared prefix does not change the comparison. */
  lemma StrLtSamePrefix(p: string, y1: string, y2: string)
    requires StrLt(y1, y2)
    ensures StrLt(p + y1, p + y2)
  {
    StrLtConcat(p, y1, p, y2);
  }

  lemma Pad2Monotone(a: int, b: int)
    requires 0 <= a < b < 100
    ensures StrLt(Pad2(a), Pad2(b))
  {
    var pa, pb := Pad2(a), Pad2(b);
    if a / 10 == b / 10 {
      assert pa[1..] == [DigitChar(a % 10)] && pb[1..] == [DigitChar(b % 10)];
      assert StrLt(pa[1..], pb[1..]);
    }
  }

  lemma Pad4Monotone(a: int, b: int)
    requires 0 <= a < b < 10000
    ensures StrLt(Pad4(a), Pad4(b))
  {
    if a / 100 < b / 100 {
      Pad2Monotone(a / 100, b / 100);
    } else {
      Pad2Monotone(a % 100, b % 100);
    }
    StrLtConcat(Pad2(a / 100), Pad2(a % 100), Pad2(b / 100), Pad2(b % 100));
  }

  // ---------------------------------------------------------------------
  // Python string methods (ASCII case mapping, Python's whitespace)
  // ---------------------------------------------------------------------

  /** `str.isspace()` on one character, which is also the set `str.strip()`
      removes and the regex class `\s` matches: the controls 9–13 and 28–31,
      the space, and the Unicode spaces and line separators. */
  predicate IsSpace(c: char) {
    var n := c as int;
    (9 <= n <= 13) || (28 <= n <= 32) || n == 0x85 || n == 0xA0 || n == 0x1680
    || (0x2000 <= n <= 0x200A) || n == 0x2028 || n == 0x2029 || n == 0x202F
    || n == 0x205F || n == 0x3000
  }

  /** Every character of `s` is whitespace. */
  predicate AllSpace(s: string) {
    forall i :: 0 <= i < |s| ==> IsSpace(s[i])
  }

  predicate IsAsciiLetter(c: char) {
    ('a' <= c <= 'z') || ('A' <= c <= 'Z')
  }

  function LowerChar(c: char): char {
    if 'A' <= c <= 'Z' then (c as int + 32) as char else c
  }

  /** `str.lower()` on the ASCII range. */
  function Lower(s: string): (r: string)
    ensures |r| == |s|
    ensures forall i :: 0 <= i < |s| ==> r[i] == LowerChar(s[i])
  {
    seq(|s|, i requires 0 <= i < |s| => LowerChar(s[i]))
  }

  /** `str.lstrip()`: the leading whitespace removed, and nothing else. */
  function StripLeft(s: string): (r: string)
    ensures |r| <= |s| && r == s[|s| - |r|..]
    ensures |r| > 0 ==> !IsSpace(r[0])
    ensures AllSpace(s[..|s| - |r|])
    decreases |s|
  {
    if |s| > 0 && IsSpace(s[0]) then StripLeft(s[1..]) else s
  }

  /** `str.rstrip()`: the trailing whitespace removed, and nothing else. */
  function StripRight(s: string): (r: string)
    ensures |r| <= |s| && r == s[..|r|]
    ensures |r| > 0 ==> !IsSpace(r[|r| - 1])
    ensures AllSpace(s[|r|..])
    decreases |s|
  {
    if |s| > 0 && IsSpace(s[|s| - 1]) then StripRight(s[..|s| - 1]) else s
  }

  /** `str.strip()`. */
  function Strip(s: string): string {
    StripRight(StripLeft(s))
  }

  /** `str.lstrip(c)` for a single character. */
  function LStripChar(s: string, c: char): (r: string)
    ensures |r| <= |s| && r == s[|s| - |r|..]
    ensures |r| > 0 ==> r[0] != c
    ensures forall i :: 0 <= i < |s| - |r| ==> s[i] == c
    decreases |s|
  {
    if |s| > 0 && s[0] == c then LStripChar(s[1..], c) else s
  }

  /** `str.rstrip(c)` for a single character. */
  function RStripChar(s: string, c: char): (r: string)
    ensures |r| <= |s| && r == s[..|r|]
    ensures |r| > 0 ==> r[|r| - 1] != c
    ensures forall i :: |r| <= i < |s| ==> s[i] == c
    decreases |s|
  {
    if |s| > 0 && s[|s| - 1] == c then RStripChar(s[..|s| - 1], c) else s
  }

  /** `sub in s`. */
  predicate Contains(s: string, sub: string)
    decreases |s|
  {
    (|sub| <= |s| && s[..|sub|] == sub) || (|s| > 0 && Contains(s[1..], sub))
  }

  /** `s.find(c)`: the first index of `c`, or -1. */
  function Find(s: string, c: char): (r: int)
    ensures -1 <= r < |s|
    ensures r == -1 <==> c !in s
    ensures r >= 0 ==> s[r] == c && c !in s[..r]
  {
    if |s| == 0 then -1
    else if s[0] == c then 0
    else
      var k := Find(s[1..], c);
      if k == -1 then -1
      else
        assert s[1..][..k] == s[1..k + 1];
        k + 1
  }

  /** Python's `s[start:end]` with its negative-index and clamping rules. */
  function PySlice(s: string, start: int, end: int): (r: string)
    ensures |r| <= |s|
  {
    var n := |s|;
    var lo := if start < 0 then (if start + n < 0 then 0 else start + n) else (if start > n then n else start);
    var hi := if end < 0 then (if end + n < 0 then 0 else end + n) else (if end > n then n else end);
    if lo >= hi then [] else s[lo..hi]
  }

  /** `s.split(sep)` for a one-character separator: never empty, and
      joining the parts with `sep` gives `s` back. */
  function Split(s: string, sep: char): (parts: seq<string>)
    ensures |parts| >= 1
    ensures forall p :: p in parts ==> sep !in p
    decreases |s|
  {
    var k := Find(s, sep);
    if k == -1 then [s]
    else [s[..k]] + Split(s[k + 1..], sep)
  }

  function Join(parts: seq<string>, sep: char): string
    requires |parts| >= 1
  {
    if |parts| == 1 then parts[0] else parts[0] + [sep] + Join(parts[1..], sep)
  }

  lemma {:induction false} SplitJoin(s: string, sep: char)
    ensures Join(Split(s, sep), sep) == s
    decreases |s|
  {
    var k := Find(s, sep);
    if k != -1 {
      var rest := Split(s[k + 1..], sep);
      assert Split(s, sep) == [s[..k]] + rest;
      SplitJoin(s[k + 1..], sep);
      JoinCons(s[..k], rest, sep);
      Around(s, k);
    }
  }

  /** A string is what comes before an index followed by what comes after. */
  lemma Cut(s: string, k: int)
    requires 0 <= k <= |s|
    ensures s == s[..k] + s[k..]
  {
  }

  /** A string is what comes before an index, the character there, and
      what comes after. */
  lemma Around(s: string, k: int)
    requires 0 <= k < |s|
    ensures s == s[..k] + [s[k]] + s[k + 1..]
  {
  }

  /** Joining a part in front of further parts puts the separator between. */
  lemma JoinCons(head: string, rest: seq<string>, sep: char)
    requires |rest| >= 1
    ensures Join([head] + rest, sep) == head + [sep] + Join(rest, sep)
  {
    var parts := [head] + rest;
    assert parts[0] == head && parts[1..] == rest;
  }

  /** The other direction: splitting parts joined by a separator none of
      them contains gives the parts back. */
  lemma {:induction false} JoinSplit(parts: seq<string>, sep: char)
    requires |parts| >= 1
    requires forall i :: 0 <= i < |parts| ==> sep !in parts[i]
    ensures Split(Join(parts, sep), sep) == parts
    decreases |parts|
  {
    if |parts| > 1 {
      var head, rest := parts[0], Join(parts[1..], sep);
      var s := head + ([sep] + rest);
      assert Join(parts, sep) == s;
      FindAfter(head, [sep] + rest, sep);
      assert s[|head| + 1..] == rest;
      assert s[..|head|] == head;
      assert Split(s, sep) == [s[..|head|]] + Split(s[|head| + 1..], sep);
      JoinSplit(parts[1..], sep);
    }
  }

  /** The first separator of `head + tail` is where `tail` starts, when
      `head` has none and `tail` starts with one. */
  lemma FindAfter(head: string, tail: string, sep: char)
    requires sep !in head && |tail| > 0 && tail[0] == sep
    ensures Find(head + tail, sep) == |head|
  {
    var s := head + tail;
    var k := Find(s, sep);
    assert s[|head|] == sep;
    assert k != -1;
    assert forall j :: 0 <= j < |head| ==> s[j] == head[j];
  }

  /** `str(v)` for a non-negative integer: decimal digits, no leading zero. */
  function DecimalText(v: nat): (r: string)
    ensures IsDigitString(r)
    ensures DigitsValue(r) == v
  {
    if v < 10 then [DigitChar(v)]
    else
      var r := DecimalText(v / 10) + [DigitChar(v % 10)];
      assert r[..|r| - 1] == DecimalText(v / 10);
      r
  }

  /** Text with no whitespace at either end is its own `strip()`. */
  lemma StripUnchanged(s: string)
    requires |s| > 0 ==> !IsSpace(s[0]) && !IsSpace(s[|s| - 1])
    ensures Strip(s) == s
  {
  }
}

=== FILE: ticks.dfy ===
/** The once-a-minute reminder tick of bot.py as a pure step over the
    store: work-session reminders, then due-date reminders for every
    non-bot member of the guild, then, in the UTC noon hour, the
    week-completion congratulations. Sending a message is recorded in the
    step's output; the store writes that follow each send are the store
    functions of module Store. An exception anywhere ends the tick: what
    was already sent and committed stays, the rest of the tick is skipped. */
module Ticks {
  import opened Outcomes
  import opened DateTimes
  import opened Constants
  import opened Store
  import opened Queries

  datatype Member = Member(id: string, isBot: bool)

  /** What a tick posts to the channel. Rows of one reminder block come
      back from a query without ORDER BY, so a block is a set: one channel
      message per element, in an order the database chooses. */
  datatype Message =
    | WorkReminders(workTag: WorkTag, plans: set<UserKey>)
    | DueReminders(userId: string, dueTag: DueTag, assignments: set<AssignmentKey>)
    | Congratulations(userId: string, total: nat)

  datatype TickEnd = Done | Raised(error: Exc)

  /** The store after a step, what it sent, and how it ended. */
  datatype Step = Step(db: Db, sent: seq<Message>, end: TickEnd)

  /** The ids of the guild's human members. */
  function Humans(members: seq<Member>): set<string> {
    set m | m in members && !m.isBot :: m.id
  }

  // ---------------------------------------------------------------------
  // Marking a block of reminders
  // ---------------------------------------------------------------------

  /** Every plan of `ks` gets flag `t`; nothing else changes. */
  function MarkWorkBatch(db: Db, t: WorkTag, ks: set<UserKey>): (r: Db)
    ensures r == db.(plans := r.plans) && r.plans.Keys == db.plans.Keys
    ensures forall k :: k in db.plans ==>
              r.plans[k] == db.plans[k].(sent := r.plans[k].sent)
    ensures forall k, u :: k in db.plans ==>
              (u in r.plans[k].sent <==> u in db.plans[k].sent || (u == t && k in ks))
  {
    db.(plans := map k | k in db.plans :: if k in ks then db.plans[k].(sent := db.plans[k].sent + {t}) else db.plans[k])
  }

  /** The loop of `send_work_session_reminders` over the rows of one
      block: after each send, `mark_reminder_sent` with the row's tag. */
  function MarkEachReminder(db: Db, rows: seq<UserKey>, t: WorkTag): Db
    decreases |rows|
  {
    if |rows| == 0 then db
    else MarkEachReminder(MarkReminderSent(db, rows[0], WorkTagName(t)), rows[1..], t)
  }

  lemma MarkWorkBatchUnion(db: Db, t: WorkTag, a: set<UserKey>, b: set<UserKey>)
    ensures MarkWorkBatch(MarkWorkBatch(db, t, a), t, b) == MarkWorkBatch(db, t, a + b)
  {
    var x := MarkWorkBatch(MarkWorkBatch(db, t, a), t, b);
    var y := MarkWorkBatch(db, t, a + b);
    assert x.plans == y.plans by {
      forall k | k in x.plans
        ensures x.plans[k] == y.plans[k]
      {
        assert x.plans[k].sent == y.plans[k].sent;
      }
    }
  }

  /** Marking the rows one at a time, in whatever order the query returned
      them, leaves the store the block mark describes. */
  lemma {:induction false} MarkEachReminderIsBatch(db: Db, rows: seq<UserKey>, t: WorkTag)
    ensures MarkEachReminder(db, rows, t) == MarkWorkBatch(db, t, set k | k in rows)
    decreases |rows|
  {
    if |rows| == 0 {
      assert MarkWorkBatch(db, t, {}).plans == db.plans;
    } else {
      var db1 := MarkReminderSent(db, rows[0], WorkTagName(t));
      MarkOneReminder(db, rows[0], t);
      MarkEachReminderIsBatch(db1, rows[1..], t);
      MarkWorkBatchUnion(db, t, {rows[0]}, set k | k in rows[1..]);
      ElementsCons(rows);
    }
  }

  /** `mark_reminder_sent` of one row is the block mark of that row. */
  lemma MarkOneReminder(db: Db, k: UserKey, t: WorkTag)
    ensures MarkReminderSent(db, k, WorkTagName(t)) == MarkWorkBatch(db, t, {k})
  {
    TagNamesRoundTrip(t, Before2d);
    var db1 := MarkReminderSent(db, k, WorkTagName(t));
    assert db1.plans == MarkWorkBatch(db, t, {k}).plans;
  }

  /** The elements of a non-empty sequence are its head and those of its
      tail. */
  lemma ElementsCons<T>(rows: seq<T>)
    requires |rows| > 0
    ensures (set k | k in rows) == {rows[0]} + set k | k in rows[1..]
  {
    assert rows == [rows[0]] + rows[1..];
  }

  /** Every assignment of `ks` gets due flag `t`; nothing else changes. */
  function MarkDueBatch(db: Db, t: DueTag, ks: set<AssignmentKey>): (r: Db)
    ensures DueFlagsRise(db, r)
    ensures forall k, u :: k in db.assignments ==>
              (u in r.assignments[k].dueSent <==> u in db.assignments[k].dueSent || (u == t && k in ks))
  {
    db.(assignments := map k | k in db.assignments ::
          if k in ks then db.assignments[k].(dueSent := db.assignments[k].dueSent + {t}) else db.assignments[k])
  }

  /** The loop of `send_due_date_reminders` over the rows of one block:
      after each send, `mark_due_date_reminder_sent` with the row's tag. */
  function MarkEachDueReminder(db: Db, rows: seq<AssignmentKey>, t: DueTag): Db
    decreases |rows|
  {
    if |rows| == 0 then db
    else MarkEachDueReminder(MarkDueDateReminderSent(db, rows[0], DueTagName(t)), rows[1..], t)
  }

  lemma MarkDueBatchUnion(db: Db, t: DueTag, a: set<AssignmentKey>, b: set<AssignmentKey>)
    ensures MarkDueBatch(MarkDueBatch(db, t, a), t, b) == MarkDueBatch(db, t, a + b)
  {
    var x := MarkDueBatch(MarkDueBatch(db, t, a), t, b);
    var y := MarkDueBatch(db, t, a + b);
    assert x.assignments == y.assignments by {
      forall k | k in x.assignments
        ensures x.assignments[k] == y.assignments[k]
      {
        assert x.assignments[k].dueSent == y.assignments[k].dueSent;
      }
    }
  }

  lemma {:induction false} MarkEachDueReminderIsBatch(db: Db, rows: seq<AssignmentKey>, t: DueTag)
    ensures MarkEachDueReminder(db, rows, t) == MarkDueBatch(db, t, set k | k in rows)
    decreases |rows|
  {
    if |rows| == 0 {
      assert MarkDueBatch(db, t, {}).assignments == db.assignments;
    } else {
      var db1 := MarkDueDateReminderSent(db, rows[0], DueTagName(t));
      MarkOneDueReminder(db, rows[0], t);
      MarkEachDueReminderIsBatch(db1, rows[1..], t);
      MarkDueBatchUnion(db, t, {rows[0]}, set k | k in rows[1..]);
      ElementsCons(rows);
    }
  }

  /** `mark_due_date_reminder_sent` of one row is the block mark of that
      row. */
  lemma MarkOneDueReminder(db: Db, k: AssignmentKey, t: DueTag)
    ensures MarkDueDateReminderSent(db, k, DueTagName(t)) == MarkDueBatch(db, t, {k})
  {
    TagNamesRoundTrip(Before24h, t);
    var db1 := MarkDueDateReminderSent(db, k, DueTagName(t));
    assert db1.assignments == MarkDueBatch(db, t, {k}).assignments;
  }

  /** Only due-reminder flags change, and only from clear to set. */
  predicate DueFlagsRise(a: Db, b: Db) {
    && b == a.(assignments := b.assignments)
    && b.assignments.Keys == a.assignments.Keys
    && forall k :: k in a.assignments ==>
         && b.assignments[k] == a.assignments[k].(dueSent := b.assignments[k].dueSent)
         && a.assignments[k].dueSent <= b.assignments[k].dueSent
  }

  // ---------------------------------------------------------------------
  // Work-session reminders
  // ---------------------------------------------------------------------

  /** `format_local` of a stored UTC instant: the stored text read back at
      UTC, then `astimezone` to the local zone, which raises OverflowError
      when the local wall time leaves years 1..9999. */
  function ShowLocal(at: int, localOffset: int): (r: Result<DateTime>)
    ensures r.Ok? <==> InRange(at) && InRange(at + localOffset)
    ensures r.Err? ==> r.error == OverflowError
  {
    ToLocal(DateTime(at, 0, Some(0)), localOffset)
  }

  /** `format_local` of the stored `…Z` text of an instant is ShowLocal of
      that instant. */
  lemma ShowLocalOfStored(at: int, localOffset: int)
    requires InRange(at)
    ensures ToLocalText(Format(at), localOffset) == ShowLocal(at, localOffset)
  {
    FormatThenParse(at);
  }

  /** The reminder for plan `k` can be written: its planned time and, when
      the assignment has one, its due time are shown in local time without
      raising. */
  predicate RowShows(db: Db, k: UserKey, localOffset: int) {
    && k in db.plans && Assignment(k) in db.assignments
    && ShowLocal(db.plans[k].plannedAt, localOffset).Ok?
    && (db.assignments[Assignment(k)].due.Some? ==>
          ShowLocal(db.assignments[Assignment(k)].due.value, localOffset).Ok?)
  }

  /** Every row of work block `t` can be written. */
  predicate BlockShows(db: Db, now: int, localOffset: int, t: WorkTag) {
    forall k :: k in WorkBlock(db, now, t) ==> RowShows(db, k, localOffset)
  }

  /** Every owed work reminder can be written. */
  predicate AllShown(db: Db, now: int, localOffset: int) {
    forall k, t :: k in db.plans && WorkPending(db, k, t, now) ==> RowShows(db, k, localOffset)
  }

  /** The loop reaches row (k, t) and gets through it: every earlier block
      can be written in full, and either the row's own block can too, or
      the row can be written and the database returns it in `before`,
      ahead of the first row of its block that cannot. */
  predicate Reached(db: Db, now: int, localOffset: int, before: set<UserKey>, k: UserKey, t: WorkTag) {
    && (forall i :: 0 <= i < WorkIndex(t) ==> BlockShows(db, now, localOffset, WorkTags[i]))
    && (BlockShows(db, now, localOffset, t) || (k in before && RowShows(db, k, localOffset)))
  }

  /** `send_work_session_reminders(channel, now_utc)`: query the three
      blocks, then for each row format its planned and due times, send it
      and mark it sent. The rows of a block come back in an order the
      database chooses; `before` stands for the rows it returns ahead of
      the first row whose times cannot be shown. That row raises
      OverflowError, and the rows sent until then stay marked. */
  function WorkStep(db: Db, now: int, localOffset: int, before: set<UserKey>): (r: Step)
    ensures r.db == db.(plans := r.db.plans) && r.db.plans.Keys == db.plans.Keys
    ensures forall k :: k in db.plans ==>
              r.db.plans[k] == db.plans[k].(sent := r.db.plans[k].sent)
    ensures forall k, t :: k in db.plans ==>
              (t in r.db.plans[k].sent <==>
                 t in db.plans[k].sent
                 || (GetPendingReminders(db, now).Ok? && WorkPending(db, k, t, now)
                     && Reached(db, now, localOffset, before, k, t)))
    ensures r.end.Raised? <==> GetPendingReminders(db, now).Err? || !AllShown(db, now, localOffset)
    ensures r.end.Raised? ==> r.end.error == OverflowError
    ensures GetPendingReminders(db, now).Err? ==> r == Step(db, [], Raised(OverflowError))
    ensures |r.sent| <= |WorkTags|
    ensures forall i :: 0 <= i < |r.sent| ==> r.sent[i].WorkReminders? && r.sent[i].workTag == WorkTags[i]
    ensures forall i, k :: 0 <= i < |r.sent| ==>
              (k in r.sent[i].plans <==> WorkPending(db, k, WorkTags[i], now)
                                         && Reached(db, now, localOffset, before, k, WorkTags[i]))
    ensures r.end.Done? ==> |r.sent| == |WorkTags|
    ensures r.end.Done? ==> forall i, k :: 0 <= i < |WorkTags| ==>
              (k in r.sent[i].plans <==> WorkPending(db, k, WorkTags[i], now))
    ensures r.end.Done? ==> forall k, t :: !WorkPending(r.db, k, t, now)
  {
    match GetPendingReminders(db, now)
    case Err(e) => Step(db, [], Raised(e))
    case Ok(_) =>
      var j := ShownBlocks(db, now, localOffset);
      var n := if j < |WorkTags| then j + 1 else j;
      var rows := seq(n, i requires 0 <= i < n => SentRows(db, now, localOffset, before, WorkTags[i]));
      var marked := MarkWorkBlocks(db, rows);
      var sent := seq(n, i requires 0 <= i < n => WorkReminders(WorkTags[i], rows[i]));
      WorkStepFacts(db, now, localOffset, before, j, rows, marked);
      Step(marked, sent, if j < |WorkTags| then Raised(OverflowError) else Done)
  }

  /** How many blocks, from the first, can be written in full. */
  function ShownBlocks(db: Db, now: int, localOffset: int): (j: nat)
    ensures j <= |WorkTags|
    ensures forall i :: 0 <= i < j ==> BlockShows(db, now, localOffset, WorkTags[i])
    ensures j < |WorkTags| ==> !BlockShows(db, now, localOffset, WorkTags[j])
    ensures j == |WorkTags| <==> AllShown(db, now, localOffset)
  {
    if !BlockShows(db, now, localOffset, Before24h) then 0
    else if !BlockShows(db, now, localOffset, Before1h) then 1
    else if !BlockShows(db, now, localOffset, AtTime) then 2
    else 3
  }

  /** The rows of block `t` that are sent and marked. */
  function SentRows(db: Db, now: int, localOffset: int, before: set<UserKey>, t: WorkTag): (r: set<UserKey>)
    ensures forall k :: k in r <==> WorkPending(db, k, t, now) && Reached(db, now, localOffset, before, k, t)
  {
    set k | k in db.plans && WorkPending(db, k, t, now) && Reached(db, now, localOffset, before, k, t)
  }

  /** Where tag `t` sits in the order the work query returns its blocks. */
  function WorkIndex(t: WorkTag): (i: nat)
    ensures i < |WorkTags| && WorkTags[i] == t
    ensures forall j :: 0 <= j < |WorkTags| && WorkTags[j] == t ==> j == i
  {
    match t
    case Before24h => 0
    case Before1h => 1
    case AtTime => 2
  }

  /** The first `|rows|` blocks marked one after the other. */
  function MarkWorkBlocks(db: Db, rows: seq<set<UserKey>>): (r: Db)
    requires |rows| <= |WorkTags|
    ensures r == db.(plans := r.plans) && r.plans.Keys == db.plans.Keys
    ensures forall k :: k in db.plans ==> r.plans[k] == db.plans[k].(sent := r.plans[k].sent)
    ensures forall k, t :: k in db.plans ==>
              (t in r.plans[k].sent <==> t in db.plans[k].sent || (WorkIndex(t) < |rows| && k in rows[WorkIndex(t)]))
    decreases |rows|
  {
    if |rows| == 0 then db
    else
      var last := |rows| - 1;
      var prev := MarkWorkBlocks(db, rows[..last]);
      assert forall t :: WorkIndex(t) < last ==> rows[..last][WorkIndex(t)] == rows[WorkIndex(t)];
      MarkWorkBatch(prev, WorkTags[last], rows[last])
  }

  /** A row the loop gets through lies in a block no later than the first
      that cannot be written in full. */
  lemma ReachedWithin(db: Db, now: int, localOffset: int, before: set<UserKey>, k: UserKey, t: WorkTag)
    requires Reached(db, now, localOffset, before, k, t)
    ensures WorkIndex(t) <= ShownBlocks(db, now, localOffset)
  {
  }

  /** What the step's marks and messages come to, in terms of `Reached`. */
  lemma WorkStepFacts(db: Db, now: int, localOffset: int, before: set<UserKey>, j: nat,
                      rows: seq<set<UserKey>>, marked: Db)
    requires j == ShownBlocks(db, now, localOffset)
    requires |rows| == (if j < |WorkTags| then j + 1 else j)
    requires forall i :: 0 <= i < |rows| ==> rows[i] == SentRows(db, now, localOffset, before, WorkTags[i])
    requires marked == MarkWorkBlocks(db, rows)
    ensures forall k, t :: k in db.plans ==>
              (t in marked.plans[k].sent <==>
                 t in db.plans[k].sent || (WorkPending(db, k, t, now) && Reached(db, now, localOffset, before, k, t)))
    ensures j == |WorkTags| ==> forall k, t :: !WorkPending(marked, k, t, now)
  {
    forall k, t | k in db.plans
      ensures t in marked.plans[k].sent <==>
                t in db.plans[k].sent || (WorkPending(db, k, t, now) && Reached(db, now, localOffset, before, k, t))
    {
      MarkedRow(db, now, localOffset, before, j, rows, k, t);
    }
    if j == |WorkTags| {
      MarkedNotPending(db, marked, now);
    }
  }

  /** One row of WorkStepFacts: the row is in its block's marked set iff
      the loop gets through it. */
  lemma MarkedRow(db: Db, now: int, localOffset: int, before: set<UserKey>, j: nat,
                  rows: seq<set<UserKey>>, k: UserKey, t: WorkTag)
    requires j == ShownBlocks(db, now, localOffset)
    requires |rows| == (if j < |WorkTags| then j + 1 else j)
    requires forall i :: 0 <= i < |rows| ==> rows[i] == SentRows(db, now, localOffset, before, WorkTags[i])
    ensures (WorkIndex(t) < |rows| && k in rows[WorkIndex(t)])
            <==> WorkPending(db, k, t, now) && Reached(db, now, localOffset, before, k, t)
  {
    var i := WorkIndex(t);
    if WorkPending(db, k, t, now) && Reached(db, now, localOffset, before, k, t) {
      ReachedWithin(db, now, localOffset, before, k, t);
      assert i < |rows|;
    }
    if i < |rows| {
      assert rows[i] == SentRows(db, now, localOffset, before, t);
    }
  }

  /** Once every owed flag is set, nothing is owed: a store whose plans
      differ from `db`'s only by flags that cover all that `db` owed. */
  lemma MarkedNotPending(db: Db, marked: Db, now: int)
    requires marked == db.(plans := marked.plans) && marked.plans.Keys == db.plans.Keys
    requires forall k :: k in db.plans ==> marked.plans[k] == db.plans[k].(sent := marked.plans[k].sent)
    requires forall k, t :: k in db.plans ==>
               (t in marked.plans[k].sent <==> t in db.plans[k].sent || WorkPending(db, k, t, now))
    ensures forall k, t :: !WorkPending(marked, k, t, now)
  {
    forall k, t
      ensures !WorkPending(marked, k, t, now)
    {
      if k in db.plans {
        assert marked.plans[k].plannedAt == db.plans[k].plannedAt;
      }
    }
  }

  /** A work-session reminder goes out once: after a tick has sent it, no
      later tick sends it again, at any time, as long as nothing clears the
      plan's flags (only `update_study_plan_time` does). */
  lemma WorkReminderOnce(db: Db, now: int, localOffset: int, before: set<UserKey>,
                         later: Db, now2: int, before2: set<UserKey>, i: int, k: UserKey)
    requires FlagsKept(WorkStep(db, now, localOffset, before).db, later)
    requires 0 <= i < |WorkStep(db, now, localOffset, before).sent|
    requires k in WorkStep(db, now, localOffset, before).sent[i].plans
    ensures var r2 := WorkStep(later, now2, localOffset, before2);
            forall j :: 0 <= j < |r2.sent| && r2.sent[j].WorkReminders? && r2.sent[j].workTag == WorkTags[i]
              ==> k !in r2.sent[j].plans
  {
    var r := WorkStep(db, now, localOffset, before);
    var t := WorkTags[i];
    assert WorkPending(db, k, t, now);
    assert t in r.db.plans[k].sent;
    assert t in later.plans[k].sent;
    var r2 := WorkStep(later, now2, localOffset, before2);
    forall j | 0 <= j < |r2.sent| && r2.sent[j].WorkReminders? && r2.sent[j].workTag == t
      ensures k !in r2.sent[j].plans
    {
      assert WorkTags[j] == t;
      assert !WorkPending(later, k, t, now2);
    }
  }


  // ---------------------------------------------------------------------
  // Due-date reminders
  // ---------------------------------------------------------------------

  /** The two builds of `get_pending_due_date_reminders`: the shipped one,
      which raises NameError on its first line, and the one its SQL
      evidently intends. */
  datatype Build = AsWritten | Corrected

  function DueQuery(build: Build, db: Db, now: int, localOffset: int, userId: string)
    : (r: Result<seq<set<AssignmentKey>>>)
    ensures r.Err? <==> build == AsWritten || !DueWindowOk(now, localOffset)
    ensures r.Err? ==> r.error == (if build == AsWritten then NameError("get_local_tz") else OverflowError)
    ensures r.Ok? ==> |r.value| == |DueTags|
  {
    match build
    case AsWritten => GetPendingDueDateRemindersAsWritten(db, now, userId)
    case Corrected => GetPendingDueDateReminders(db, now, localOffset, userId)
  }

  /** Block `i` of a successful due query holds exactly the assignments
      owed reminder `DueTags[i]`. */
  lemma DueQueryBlocks(build: Build, db: Db, now: int, localOffset: int, userId: string, i: int, k: AssignmentKey)
    requires DueQuery(build, db, now, localOffset, userId).Ok? && 0 <= i < |DueTags|
    ensures k in DueQuery(build, db, now, localOffset, userId).value[i]
            <==> DuePending(db, userId, k, DueTags[i], now, CurrentWeek(now, localOffset).value)
  {
  }

  /** Every bound the intended due query converts lies in years 1..9999;
      it depends on the clock alone, not on the store or the user. */
  predicate DueWindowOk(now: int, localOffset: int) {
    CurrentWeek(now, localOffset).Ok? && InRange(now + 12 * 3600 - 60) && InRange(now + 2 * 86400 + 60)
  }

  /** Some due reminder in `sent` carries assignment `k` with tag `t`. */
  predicate Delivered(sent: seq<Message>, k: AssignmentKey, t: DueTag) {
    exists i :: 0 <= i < |sent| && sent[i].DueReminders? && sent[i].dueTag == t && k in sent[i].assignments
  }

  /** Where tag `t` sits in the order the due query returns its blocks. */
  function DueIndex(t: DueTag): (i: nat)
    ensures i < |DueTags| && DueTags[i] == t
  {
    match t
    case Before2d => 0
    case Before1d => 1
    case Before12h => 2
  }

  lemma DueIndexOf(i: int)
    requires 0 <= i < |DueTags|
    ensures DueIndex(DueTags[i]) == i
  {
  }

  /** One member's turn in `send_due_date_reminders`, once the query has
      returned that member's three blocks: send each row and mark it sent. */
  function SendDue(db: Db, userId: string, blocks: seq<set<AssignmentKey>>): (r: (Db, seq<Message>))
    requires |blocks| == |DueTags|
    ensures DueFlagsRise(db, r.0)
    ensures forall k, t :: k in db.assignments ==>
              (t in r.0.assignments[k].dueSent <==> t in db.assignments[k].dueSent || k in blocks[DueIndex(t)])
    ensures |r.1| == |DueTags| && forall i :: 0 <= i < |DueTags| ==> r.1[i] == DueReminders(userId, DueTags[i], blocks[i])
  {
    (MarkDueBlocks(db, blocks), [DueReminders(userId, Before2d, blocks[0]), DueReminders(userId, Before1d, blocks[1]),
                                 DueReminders(userId, Before12h, blocks[2])])
  }

  /** The three blocks marked one after the other. */
  function MarkDueBlocks(db: Db, blocks: seq<set<AssignmentKey>>): (r: Db)
    requires |blocks| == |DueTags|
    ensures DueFlagsRise(db, r)
    ensures forall k, t :: k in db.assignments ==>
              (t in r.assignments[k].dueSent <==> t in db.assignments[k].dueSent || k in blocks[DueIndex(t)])
  {
    MarkDueBatch(MarkDueBatch(MarkDueBatch(db, Before2d, blocks[0]), Before1d, blocks[1]), Before12h, blocks[2])
  }

  /** `send_due_date_reminders(channel, now_utc)` over the guild's members
      in order, skipping bots. The flags are per assignment, so once one
      member has been reminded of an assignment, later members are not. */
  function DueStep(build: Build, db: Db, now: int, localOffset: int, members: seq<Member>): (r: Step)
    decreases |members|
    ensures DueFlagsRise(db, r.db)
    ensures forall i :: 0 <= i < |r.sent| ==> r.sent[i].DueReminders? && r.sent[i].userId in Humans(members)
    ensures r.end.Raised? <==> Humans(members) != {} && (build == AsWritten || !DueWindowOk(now, localOffset))
    ensures r.end.Raised? ==> r.sent == [] && r.db == db
    ensures r.end.Raised? ==> r.end.error == (if build == AsWritten then NameError("get_local_tz") else OverflowError)
  {
    if |members| == 0 then Step(db, [], Done)
    else
      HumansCons(members);
      if members[0].isBot then DueStep(build, db, now, localOffset, members[1..])
      else
        match DueQuery(build, db, now, localOffset, members[0].id)
        case Err(e) => Step(db, [], Raised(e))
        case Ok(blocks) =>
          var first := SendDue(db, members[0].id, blocks);
          var rest := DueStep(build, first.0, now, localOffset, members[1..]);
          DueFlagsRiseTrans(db, first.0, rest.db);
          SentToHumans(members, first.1, rest.sent);
          Step(rest.db, first.1 + rest.sent, rest.end)
  }

  /** Raising due flags twice raises them. */
  lemma DueFlagsRiseTrans(a: Db, b: Db, c: Db)
    requires DueFlagsRise(a, b) && DueFlagsRise(b, c)
    ensures DueFlagsRise(a, c)
  {
  }

  /** The reminders of a human first member's turn followed by those of
      the rest of the guild all go to humans of the guild. */
  lemma SentToHumans(members: seq<Member>, first: seq<Message>, rest: seq<Message>)
    requires |members| > 0 && !members[0].isBot
    requires forall i :: 0 <= i < |first| ==> first[i].DueReminders? && first[i].userId == members[0].id
    requires forall i :: 0 <= i < |rest| ==> rest[i].DueReminders? && rest[i].userId in Humans(members[1..])
    ensures forall i :: 0 <= i < |first + rest| ==>
              (first + rest)[i].DueReminders? && (first + rest)[i].userId in Humans(members)
  {
    HumansCons(members);
    forall i | 0 <= i < |first + rest|
      ensures (first + rest)[i].DueReminders? && (first + rest)[i].userId in Humans(members)
    {
      AppendIndex(first, rest, i);
    }
  }

  /** One human member's turn followed by the rest of the guild. */
  lemma DueStepUnfold(build: Build, db: Db, now: int, localOffset: int, members: seq<Member>)
    requires |members| > 0 && !members[0].isBot && DueQuery(build, db, now, localOffset, members[0].id).Ok?
    ensures var first := SendDue(db, members[0].id, DueQuery(build, db, now, localOffset, members[0].id).value);
            var rest := DueStep(build, first.0, now, localOffset, members[1..]);
            DueStep(build, db, now, localOffset, members) == Step(rest.db, first.1 + rest.sent, rest.end)
  {
  }

  lemma HumansCons(members: seq<Member>)
    requires |members| > 0
    ensures Humans(members) == (if members[0].isBot then {} else {members[0].id}) + Humans(members[1..])
  {
    assert members == [members[0]] + members[1..];
  }

  /** Delivered over a concatenation. */
  lemma DeliveredAppend(a: seq<Message>, b: seq<Message>, k: AssignmentKey, t: DueTag)
    ensures Delivered(a + b, k, t) <==> Delivered(a, k, t) || Delivered(b, k, t)
  {
    if Delivered(a + b, k, t) {
      var i :| 0 <= i < |a + b| && (a + b)[i].DueReminders? && (a + b)[i].dueTag == t && k in (a + b)[i].assignments;
      if i >= |a| {
        assert (a + b)[i] == b[i - |a|];
      }
    }
    if Delivered(b, k, t) {
      var i :| 0 <= i < |b| && b[i].DueReminders? && b[i].dueTag == t && k in b[i].assignments;
      assert (a + b)[i + |a|] == b[i];
    }
    if Delivered(a, k, t) {
      var i :| 0 <= i < |a| && a[i].DueReminders? && a[i].dueTag == t && k in a[i].assignments;
      assert (a + b)[i] == a[i];
    }
  }

  /** A due flag is newly set exactly when that reminder was sent. */
  lemma {:induction false} DueStepFlags(build: Build, db: Db, now: int, localOffset: int, members: seq<Member>,
                                        k: AssignmentKey, t: DueTag)
    requires k in db.assignments
    ensures var r := DueStep(build, db, now, localOffset, members);
            t in r.db.assignments[k].dueSent <==> t in db.assignments[k].dueSent || Delivered(r.sent, k, t)
    decreases |members|
  {
    if |members| == 0 {
    } else if members[0].isBot {
      DueStepFlags(build, db, now, localOffset, members[1..], k, t);
    } else if DueQuery(build, db, now, localOffset, members[0].id).Ok? {
      var blocks := DueQuery(build, db, now, localOffset, members[0].id).value;
      var first := SendDue(db, members[0].id, blocks);
      var rest := DueStep(build, first.0, now, localOffset, members[1..]);
      DueStepUnfold(build, db, now, localOffset, members);
      DueStepFlags(build, first.0, now, localOffset, members[1..], k, t);
      DeliveredAppend(first.1, rest.sent, k, t);
      TurnDelivers(db, members[0].id, blocks, k, t);
    }
  }

  /** One member's turn delivers `(k, t)` exactly when `k` is in the
      block of tag `t`. */
  lemma TurnDelivers(db: Db, userId: string, blocks: seq<set<AssignmentKey>>, k: AssignmentKey, t: DueTag)
    requires |blocks| == |DueTags|
    ensures Delivered(SendDue(db, userId, blocks).1, k, t) <==> k in blocks[DueIndex(t)]
  {
    var msgs := SendDue(db, userId, blocks).1;
    if k in blocks[DueIndex(t)] {
      assert msgs[DueIndex(t)].dueTag == t;
    }
    if Delivered(msgs, k, t) {
      var i :| 0 <= i < |msgs| && msgs[i].DueReminders? && msgs[i].dueTag == t && k in msgs[i].assignments;
      assert msgs[i].dueTag == DueTags[i];
      DueIndexOf(i);
    }
  }

  /** Raising due flags never makes a reminder pending: what is owed
      after is owed before. */
  lemma PendingEarlier(a: Db, b: Db, userId: string, k: AssignmentKey, t: DueTag, now: int, week: (int, int))
    requires DueFlagsRise(a, b) && DuePending(b, userId, k, t, now, week)
    ensures DuePending(a, userId, k, t, now, week)
  {
  }

  /** Every due reminder the step sends was owed to its member at the
      start of the step. */
  lemma {:induction false} DueStepSendsPending(build: Build, db: Db, now: int, localOffset: int, members: seq<Member>,
                                               i: int, k: AssignmentKey)
    requires 0 <= i < |DueStep(build, db, now, localOffset, members).sent|
    requires k in DueStep(build, db, now, localOffset, members).sent[i].assignments
    ensures DueWindowOk(now, localOffset)
    ensures var m := DueStep(build, db, now, localOffset, members).sent[i];
            DuePending(db, m.userId, k, m.dueTag, now, CurrentWeek(now, localOffset).value)
    decreases |members|
  {
    if members[0].isBot {
      DueStepSendsPending(build, db, now, localOffset, members[1..], i, k);
    } else {
      var blocks := DueQuery(build, db, now, localOffset, members[0].id).value;
      var first := SendDue(db, members[0].id, blocks);
      var rest := DueStep(build, first.0, now, localOffset, members[1..]);
      DueStepUnfold(build, db, now, localOffset, members);
      if i < |first.1| {
        assert (first.1 + rest.sent)[i] == first.1[i];
        DueQueryBlocks(build, db, now, localOffset, members[0].id, i, k);
      } else {
        assert (first.1 + rest.sent)[i] == rest.sent[i - |first.1|];
        DueStepSendsPending(build, first.0, now, localOffset, members[1..], i - |first.1|, k);
        PendingEarlier(db, first.0, rest.sent[i - |first.1|].userId, k, rest.sent[i - |first.1|].dueTag, now,
                       CurrentWeek(now, localOffset).value);
      }
    }
  }

  /** Two due reminders of `sent` with the same tag share no assignment. */
  predicate OnceSent(sent: seq<Message>) {
    forall i, j ::
      (0 <= i < j < |sent| && sent[i].DueReminders? && sent[j].DueReminders? && sent[i].dueTag == sent[j].dueTag)
      ==> sent[i].assignments !! sent[j].assignments
  }

  /** No due reminder of `sent` names an assignment whose flag for that
      reminder is already set in `d`. */
  predicate FreshFor(d: Db, sent: seq<Message>) {
    forall j, k :: 0 <= j < |sent| && sent[j].DueReminders? && k in sent[j].assignments ==>
                     k in d.assignments && sent[j].dueTag !in d.assignments[k].dueSent
  }

  /** Each of the three reminders of one turn carries its block's tag, and
      every assignment it names has that tag set in `d`. */
  predicate MarkedTurn(d: Db, msgs: seq<Message>) {
    && |msgs| == |DueTags|
    && forall x :: 0 <= x < |DueTags| ==>
         && msgs[x].DueReminders? && msgs[x].dueTag == DueTags[x]
         && forall k :: k in msgs[x].assignments ==> k in d.assignments && DueTags[x] in d.assignments[k].dueSent
  }

  /** Within one tick a given (assignment, tag) reminder goes to at most
      one member: two reminders with the same tag never share an
      assignment. */
  lemma DueStepOnce(build: Build, db: Db, now: int, localOffset: int, members: seq<Member>, i: int, j: int)
    requires var r := DueStep(build, db, now, localOffset, members);
             0 <= i < j < |r.sent| && r.sent[i].dueTag == r.sent[j].dueTag
    ensures var r := DueStep(build, db, now, localOffset, members);
            r.sent[i].assignments !! r.sent[j].assignments
  {
    DueStepOnceAll(build, db, now, localOffset, members);
  }

  /** DueStepOnce for every pair of reminders at once. */
  lemma {:induction false} DueStepOnceAll(build: Build, db: Db, now: int, localOffset: int, members: seq<Member>)
    ensures OnceSent(DueStep(build, db, now, localOffset, members).sent)
    decreases |members|
  {
    if |members| == 0 {
    } else if members[0].isBot {
      DueStepOnceAll(build, db, now, localOffset, members[1..]);
    } else if DueQuery(build, db, now, localOffset, members[0].id).Ok? {
      var blocks := DueQuery(build, db, now, localOffset, members[0].id).value;
      var first := SendDue(db, members[0].id, blocks);
      var rest := DueStep(build, first.0, now, localOffset, members[1..]);
      DueStepUnfold(build, db, now, localOffset, members);
      forall x | 0 <= x < |DueTags|
        ensures first.1[x].DueReminders? && first.1[x].dueTag == DueTags[x]
        ensures forall k :: k in first.1[x].assignments ==>
                  k in first.0.assignments && DueTags[x] in first.0.assignments[k].dueSent
      {
        MarkedBlock(build, db, now, localOffset, members[0].id, first, x);
      }
      DueStepOnceAll(build, first.0, now, localOffset, members[1..]);
      DueStepFresh(build, first.0, now, localOffset, members[1..]);
      OnceAppend(first.0, first.1, rest.sent);
    }
  }

  /** A marked turn followed by reminders that are fresh for its store
      and once each keeps every reminder once. */
  lemma OnceAppend(d: Db, msgs: seq<Message>, later: seq<Message>)
    requires MarkedTurn(d, msgs) && FreshFor(d, later) && OnceSent(later)
    ensures OnceSent(msgs + later)
  {
    var sent := msgs + later;
    forall i, j | 0 <= i < j < |sent| && sent[i].DueReminders? && sent[j].DueReminders?
                  && sent[i].dueTag == sent[j].dueTag
      ensures sent[i].assignments !! sent[j].assignments
    {
      AppendIndex(msgs, later, i);
      AppendIndex(msgs, later, j);
      if j < |msgs| {
        assert false;
      } else if i < |msgs| {
        assert sent[i] == msgs[i] && sent[j] == later[j - |msgs|];
      } else {
        assert sent[i] == later[i - |msgs|] && sent[j] == later[j - |msgs|];
      }
    }
  }

  /** Indexing a concatenation indexes one of its parts. */
  lemma AppendIndex<T>(a: seq<T>, b: seq<T>, n: int)
    requires 0 <= n < |a| + |b|
    ensures (a + b)[n] == if n < |a| then a[n] else b[n - |a|]
  {
  }

  /** After one member's turn, every assignment of block `i` carries
      that block's tag. */
  lemma MarkedBlock(build: Build, db: Db, now: int, localOffset: int, userId: string,
                    first: (Db, seq<Message>), i: int)
    requires DueQuery(build, db, now, localOffset, userId).Ok?
    requires first == SendDue(db, userId, DueQuery(build, db, now, localOffset, userId).value)
    requires 0 <= i < |DueTags|
    ensures first.1[i].DueReminders? && first.1[i].dueTag == DueTags[i]
    ensures forall k :: k in first.1[i].assignments ==>
              k in first.0.assignments && DueTags[i] in first.0.assignments[k].dueSent
  {
    var blocks := DueQuery(build, db, now, localOffset, userId).value;
    DueIndexOf(i);
    forall k | k in blocks[i]
      ensures k in first.0.assignments && DueTags[i] in first.0.assignments[k].dueSent
    {
      DueQueryBlocks(build, db, now, localOffset, userId, i, k);
    }
  }

  /** A step sends only reminders whose flags were clear when it started. */
  lemma DueStepFresh(build: Build, db: Db, now: int, localOffset: int, members: seq<Member>)
    ensures FreshFor(db, DueStep(build, db, now, localOffset, members).sent)
  {
    var sent := DueStep(build, db, now, localOffset, members).sent;
    forall j | 0 <= j < |sent| && sent[j].DueReminders?
      ensures forall k :: k in sent[j].assignments ==> k in db.assignments && sent[j].dueTag !in db.assignments[k].dueSent
    {
      forall k | k in sent[j].assignments
        ensures k in db.assignments && sent[j].dueTag !in db.assignments[k].dueSent
      {
        SentFresh(build, db, now, localOffset, members, j, k);
      }
    }
  }

  /** DueStepFresh for one reminder and one of its assignments. */
  lemma SentFresh(build: Build, db: Db, now: int, localOffset: int, members: seq<Member>, j: int, k: AssignmentKey)
    requires 0 <= j < |DueStep(build, db, now, localOffset, members).sent|
    requires k in DueStep(build, db, now, localOffset, members).sent[j].assignments
    ensures var m := DueStep(build, db, now, localOffset, members).sent[j];
            k in db.assignments && m.dueTag !in db.assignments[k].dueSent
  {
    var m := DueStep(build, db, now, localOffset, members).sent[j];
    DueStepSendsPending(build, db, now, localOffset, members, j, k);
    var week := CurrentWeek(now, localOffset).value;
    assert DuePending(db, m.userId, k, m.dueTag, now, week);
  }

  /** After a step that ends normally, no human member of the guild is
      owed any due reminder. */
  lemma {:induction false} DueStepClears(build: Build, db: Db, now: int, localOffset: int, members: seq<Member>,
                                         u: string, k: AssignmentKey, t: DueTag)
    requires DueStep(build, db, now, localOffset, members).end.Done? && u in Humans(members)
    ensures DueWindowOk(now, localOffset)
    ensures !DuePending(DueStep(build, db, now, localOffset, members).db, u, k, t, now, CurrentWeek(now, localOffset).value)
    decreases |members|
  {
    HumansCons(members);
    if members[0].isBot {
      DueStepClears(build, db, now, localOffset, members[1..], u, k, t);
    } else {
      var blocks := DueQuery(build, db, now, localOffset, members[0].id).value;
      var first := SendDue(db, members[0].id, blocks);
      var rest := DueStep(build, first.0, now, localOffset, members[1..]);
      DueStepUnfold(build, db, now, localOffset, members);
      if u in Humans(members[1..]) {
        DueStepClears(build, first.0, now, localOffset, members[1..], u, k, t);
      } else {
        var week := CurrentWeek(now, localOffset).value;
        if DuePending(rest.db, u, k, t, now, week) {
          PendingEarlier(first.0, rest.db, u, k, t, now, week);
          PendingEarlier(db, first.0, u, k, t, now, week);
          DueQueryBlocks(build, db, now, localOffset, u, DueIndex(t), k);
          assert false;
        }
      }
    }
  }

  /** Every due reminder owed to a human member at the start of a step
      that ends normally is sent, to that member or to an earlier one. */
  lemma DueStepDelivers(build: Build, db: Db, now: int, localOffset: int, members: seq<Member>,
                        u: string, k: AssignmentKey, t: DueTag)
    requires DueStep(build, db, now, localOffset, members).end.Done? && u in Humans(members)
    requires CurrentWeek(now, localOffset).Ok? && DuePending(db, u, k, t, now, CurrentWeek(now, localOffset).value)
    ensures Delivered(DueStep(build, db, now, localOffset, members).sent, k, t)
  {
    DueStepClears(build, db, now, localOffset, members, u, k, t);
    DueStepFlags(build, db, now, localOffset, members, k, t);
  }

  // ---------------------------------------------------------------------
  // Week-completion congratulations
  // ---------------------------------------------------------------------

  /** A member earns the congratulation for the week of `monday`: every
      assignment due that week is completed, and there is at least one. */
  predicate Eligible(db: Db, userId: string, monday: DateTime, localOffset: int) {
    var c := CheckWeekCompletion(db, userId, monday, localOffset);
    c.Ok? && c.value.0 && c.value.1 > 0
  }

  /** `check_and_send_completion_notifications(channel)` over the guild's
      members in order: skip bots and members already notified for this
      week; congratulate, then mark, a member whose week is complete. */
  function CompletionStep(db: Db, localOffset: int, monday: DateTime, members: seq<Member>): (r: Step)
    requires InRange(monday.wall)
    decreases |members|
    ensures r.db == db.(notified := r.db.notified) && db.notified <= r.db.notified
    ensures forall i :: 0 <= i < |r.sent| ==> r.sent[i].Congratulations? && r.sent[i].userId in Humans(members)
    ensures r.end.Raised? ==> r.end.error == OverflowError && r.sent == [] && r.db == db
    ensures WeekRange(monday, localOffset).Ok? ==> r.end.Done?
  {
    if |members| == 0 then Step(db, [], Done)
    else
      HumansCons(members);
      var u := members[0].id;
      if members[0].isBot || WeekCompletionNotified(db, u, monday) then
        CompletionStep(db, localOffset, monday, members[1..])
      else
        match CheckWeekCompletion(db, u, monday, localOffset)
        case Err(e) => Step(db, [], Raised(e))
        case Ok((all, total, _)) =>
          if all && total > 0 then
            var rest := CompletionStep(MarkWeekCompletionNotified(db, u, monday), localOffset, monday, members[1..]);
            Step(rest.db, [Congratulations(u, total)] + rest.sent, rest.end)
          else CompletionStep(db, localOffset, monday, members[1..])
  }

  /** A congratulated member followed by the rest of the guild. */
  lemma CompletionStepUnfold(db: Db, localOffset: int, monday: DateTime, members: seq<Member>)
    requires InRange(monday.wall) && |members| > 0 && !members[0].isBot
    requires !WeekCompletionNotified(db, members[0].id, monday) && Eligible(db, members[0].id, monday, localOffset)
    ensures var marked := MarkWeekCompletionNotified(db, members[0].id, monday);
            var rest := CompletionStep(marked, localOffset, monday, members[1..]);
            var total := CheckWeekCompletion(db, members[0].id, monday, localOffset).value.1;
            CompletionStep(db, localOffset, monday, members)
              == Step(rest.db, [Congratulations(members[0].id, total)] + rest.sent, rest.end)
  {
  }

  /** The completion count reads due dates and completion status only, so
      sending reminders or recording notifications does not change it. */
  lemma CompletionReadsNoMarks(a: Db, b: Db, userId: string, monday: DateTime, localOffset: int)
    requires a.assignments.Keys == b.assignments.Keys && a.status == b.status
    requires forall k :: k in a.assignments ==> a.assignments[k].due == b.assignments[k].due
    ensures CheckWeekCompletion(a, userId, monday, localOffset) == CheckWeekCompletion(b, userId, monday, localOffset)
  {
    if WeekRange(monday, localOffset).Ok? {
      var w := WeekRange(monday, localOffset).value;
      assert DueInWindow(a, w.0, w.1) == DueInWindow(b, w.0, w.1);
      var due := DueInWindow(a, w.0, w.1);
      assert (set k | k in due && Completed(a, userId, k)) == (set k | k in due && Completed(b, userId, k));
    }
  }

  /** Each congratulation of `r` goes to a member who was not yet
      notified in `db` and whose week was complete and non-empty there,
      states that week's total, and leaves the member notified in `r.db`. */
  predicate SentEligible(db: Db, localOffset: int, monday: DateTime, r: Step)
    requires InRange(monday.wall)
  {
    forall i :: 0 <= i < |r.sent| && r.sent[i].Congratulations? ==>
      && !WeekCompletionNotified(db, r.sent[i].userId, monday)
      && Eligible(db, r.sent[i].userId, monday, localOffset)
      && r.sent[i].total == CheckWeekCompletion(db, r.sent[i].userId, monday, localOffset).value.1
      && WeekCompletionNotified(r.db, r.sent[i].userId, monday)
  }

  /** Each congratulation goes to a member who was not yet notified for
      the week and whose week was complete and non-empty, states the
      week's total, and leaves that member notified. */
  lemma CompletionSendsEligible(db: Db, localOffset: int, monday: DateTime, members: seq<Member>, i: int)
    requires InRange(monday.wall)
    requires 0 <= i < |CompletionStep(db, localOffset, monday, members).sent|
    ensures var r := CompletionStep(db, localOffset, monday, members);
            var u := r.sent[i].userId;
            && !WeekCompletionNotified(db, u, monday)
            && Eligible(db, u, monday, localOffset)
            && r.sent[i].total == CheckWeekCompletion(db, u, monday, localOffset).value.1
            && WeekCompletionNotified(r.db, u, monday)
  {
    CompletionAllEligible(db, localOffset, monday, members);
  }

  /** CompletionSendsEligible for every congratulation at once. */
  lemma {:induction false} CompletionAllEligible(db: Db, localOffset: int, monday: DateTime, members: seq<Member>)
    requires InRange(monday.wall)
    ensures SentEligible(db, localOffset, monday, CompletionStep(db, localOffset, monday, members))
    decreases |members|
  {
    if |members| > 0 {
      var u := members[0].id;
      if members[0].isBot || WeekCompletionNotified(db, u, monday) || !Eligible(db, u, monday, localOffset) {
        CompletionAllEligible(db, localOffset, monday, members[1..]);
      } else {
        var marked := MarkWeekCompletionNotified(db, u, monday);
        var rest := CompletionStep(marked, localOffset, monday, members[1..]);
        var total := CheckWeekCompletion(db, u, monday, localOffset).value.1;
        CompletionStepUnfold(db, localOffset, monday, members);
        CompletionAllEligible(marked, localOffset, monday, members[1..]);
        EligibleCons(db, localOffset, monday, u, total, rest);
      }
    }
  }

  /** Congratulating an eligible member, marking it notified, and then
      sending congratulations eligible in the marked store keeps every
      congratulation eligible in the original store. */
  lemma EligibleCons(db: Db, localOffset: int, monday: DateTime, u: string, total: nat, rest: Step)
    requires InRange(monday.wall)
    requires !WeekCompletionNotified(db, u, monday) && Eligible(db, u, monday, localOffset)
    requires total == CheckWeekCompletion(db, u, monday, localOffset).value.1
    requires MarkWeekCompletionNotified(db, u, monday).notified <= rest.db.notified
    requires SentEligible(MarkWeekCompletionNotified(db, u, monday), localOffset, monday, rest)
    ensures SentEligible(db, localOffset, monday, Step(rest.db, [Congratulations(u, total)] + rest.sent, rest.end))
  {
    var marked := MarkWeekCompletionNotified(db, u, monday);
    var sent := [Congratulations(u, total)] + rest.sent;
    forall i | 0 <= i < |sent| && sent[i].Congratulations?
      ensures && !WeekCompletionNotified(db, sent[i].userId, monday)
              && Eligible(db, sent[i].userId, monday, localOffset)
              && sent[i].total == CheckWeekCompletion(db, sent[i].userId, monday, localOffset).value.1
              && WeekCompletionNotified(rest.db, sent[i].userId, monday)
    {
      if i > 0 {
        assert sent[i] == rest.sent[i - 1];
        CompletionReadsNoMarks(db, marked, sent[i].userId, monday, localOffset);
      }
    }
  }

  /** Every week mark `r` adds to `db` is for the week of `monday` and for
      a member `r` congratulates. */
  ghost predicate MarksOnlySent(db: Db, monday: DateTime, r: Step)
    requires InRange(monday.wall)
  {
    forall u, w :: WeekMark(u, w) in r.db.notified && WeekMark(u, w) !in db.notified ==>
      w == WeekKeyOf(monday.wall) && u in Congratulated(r.sent)
  }

  /** The members `sent` congratulates. */
  function Congratulated(sent: seq<Message>): (us: set<string>)
    ensures forall u :: u in us <==> exists i :: 0 <= i < |sent| && sent[i].Congratulations? && sent[i].userId == u
  {
    set i | 0 <= i < |sent| && sent[i].Congratulations? :: sent[i].userId
  }

  /** Congratulating one more member first adds that member. */
  lemma CongratulatedCons(v: string, total: nat, sent: seq<Message>)
    ensures Congratulated([Congratulations(v, total)] + sent) == {v} + Congratulated(sent)
  {
    var s := [Congratulations(v, total)] + sent;
    forall u | u in Congratulated(sent) ensures u in Congratulated(s) {
      var i :| 0 <= i < |sent| && sent[i].Congratulations? && sent[i].userId == u;
      assert s[i + 1] == sent[i];
    }
    forall u | u in Congratulated(s) ensures u == v || u in Congratulated(sent) {
      var i :| 0 <= i < |s| && s[i].Congratulations? && s[i].userId == u;
      if i > 0 {
        assert s[i] == sent[i - 1];
      }
    }
    assert s[0].userId == v;
  }

  /** A week is marked notified only for a member who was congratulated
      in the same step. */
  lemma CompletionMarksOnlySent(db: Db, localOffset: int, monday: DateTime, members: seq<Member>,
                                u: string, w: WeekKey)
    requires InRange(monday.wall)
    requires var r := CompletionStep(db, localOffset, monday, members);
             WeekMark(u, w) in r.db.notified && WeekMark(u, w) !in db.notified
    ensures var r := CompletionStep(db, localOffset, monday, members);
            w == WeekKeyOf(monday.wall) && exists i :: 0 <= i < |r.sent| && r.sent[i].userId == u
  {
    CompletionMarksAll(db, localOffset, monday, members);
  }

  /** CompletionMarksOnlySent for every mark at once. */
  lemma {:induction false} CompletionMarksAll(db: Db, localOffset: int, monday: DateTime, members: seq<Member>)
    requires InRange(monday.wall)
    ensures MarksOnlySent(db, monday, CompletionStep(db, localOffset, monday, members))
    decreases |members|
  {
    if |members| > 0 {
      var v := members[0].id;
      if members[0].isBot || WeekCompletionNotified(db, v, monday) || !Eligible(db, v, monday, localOffset) {
        CompletionMarksAll(db, localOffset, monday, members[1..]);
      } else {
        var marked := MarkWeekCompletionNotified(db, v, monday);
        var rest := CompletionStep(marked, localOffset, monday, members[1..]);
        var total := CheckWeekCompletion(db, v, monday, localOffset).value.1;
        CompletionStepUnfold(db, localOffset, monday, members);
        CompletionMarksAll(marked, localOffset, monday, members[1..]);
        MarksCons(db, monday, v, total, rest);
      }
    }
  }

  /** Marking a congratulated member's week, then a step that marks only
      those it congratulates, marks only congratulated members. */
  lemma MarksCons(db: Db, monday: DateTime, v: string, total: nat, rest: Step)
    requires InRange(monday.wall)
    requires MarksOnlySent(MarkWeekCompletionNotified(db, v, monday), monday, rest)
    ensures MarksOnlySent(db, monday, Step(rest.db, [Congratulations(v, total)] + rest.sent, rest.end))
  {
    CongratulatedCons(v, total, rest.sent);
  }

  /** After a step that ends normally, every human member is either
      notified for the week or has an incomplete or empty week. */
  lemma {:induction false} CompletionCovers(db: Db, localOffset: int, monday: DateTime, members: seq<Member>, u: string)
    requires InRange(monday.wall)
    requires CompletionStep(db, localOffset, monday, members).end.Done? && u in Humans(members)
    ensures var r := CompletionStep(db, localOffset, monday, members);
            || WeekCompletionNotified(r.db, u, monday)
            || (WeekRange(monday, localOffset).Ok? && !Eligible(db, u, monday, localOffset))
    decreases |members|
  {
    HumansCons(members);
    var v := members[0].id;
    var r := CompletionStep(db, localOffset, monday, members);
    if members[0].isBot || WeekCompletionNotified(db, v, monday) {
      if u in Humans(members[1..]) {
        CompletionCovers(db, localOffset, monday, members[1..], u);
      }
    } else if Eligible(db, v, monday, localOffset) {
      var marked := MarkWeekCompletionNotified(db, v, monday);
      var rest := CompletionStep(marked, localOffset, monday, members[1..]);
      var total := CheckWeekCompletion(db, v, monday, localOffset).value.1;
      CompletionStepUnfold(db, localOffset, monday, members);
      if u in Humans(members[1..]) {
        CompletionCovers(marked, localOffset, monday, members[1..], u);
        CompletionReadsNoMarks(db, marked, u, monday, localOffset);
      }
    } else if u in Humans(members[1..]) {
      CompletionCovers(db, localOffset, monday, members[1..], u);
    }
  }

  /** A step in which every human member is already notified or not
      eligible sends nothing and changes nothing. */
  lemma {:induction false} CompletionQuiet(db: Db, localOffset: int, monday: DateTime, members: seq<Member>)
    requires InRange(monday.wall)
    requires forall u :: u in Humans(members) ==>
               || WeekCompletionNotified(db, u, monday)
               || (WeekRange(monday, localOffset).Ok? && !Eligible(db, u, monday, localOffset))
    ensures CompletionStep(db, localOffset, monday, members) == Step(db, [], Done)
    decreases |members|
  {
    if |members| > 0 {
      HumansCons(members);
      CompletionQuiet(db, localOffset, monday, members[1..]);
    }
  }

  /** Running the completion check again in the same week sends nothing:
      the congratulation is sent at most once per member and week. */
  lemma CompletionTwice(db: Db, localOffset: int, monday: DateTime, members: seq<Member>)
    requires InRange(monday.wall)
    requires CompletionStep(db, localOffset, monday, members).end.Done?
    ensures var r := CompletionStep(db, localOffset, monday, members);
            CompletionStep(r.db, localOffset, monday, members) == Step(r.db, [], Done)
  {
    var r := CompletionStep(db, localOffset, monday, members);
    forall u | u in Humans(members)
      ensures || WeekCompletionNotified(r.db, u, monday)
              || (WeekRange(monday, localOffset).Ok? && !Eligible(r.db, u, monday, localOffset))
    {
      CompletionCovers(db, localOffset, monday, members, u);
      CompletionReadsNoMarks(db, r.db, u, monday, localOffset);
    }
    CompletionQuiet(r.db, localOffset, monday, members);
  }

  // ---------------------------------------------------------------------
  // The tick
  // ---------------------------------------------------------------------

  /** The Monday the completion check uses: `datetime.now()` is naive
      local time, taken to midnight and moved back `weekday()` days. */
  function LocalMonday(now: int, localOffset: int): (m: DateTime)
    requires InRange(now + localOffset)
    ensures m.tz.None? && InRange(m.wall) && Weekday(m.wall) == 0
    ensures m.wall <= now + localOffset < m.wall + 7 * 86400
  {
    WeekMonday(DateTime(now + localOffset, 0, None))
  }

  /** `check_reminders()` once the channel is found, at UTC instant `now`:
      work-session reminders; then, if the channel has a guild, due
      reminders for its members and, when the UTC hour is 12, the
      completion check. The first exception ends the tick. `before` is
      the database's row order for WorkStep. */
  function Tick(build: Build, db: Db, now: int, localOffset: int, guild: Option<seq<Member>>,
                before: set<UserKey>): (r: Step)
    requires InRange(now) && InRange(now + localOffset)
    ensures FlagsKept(db, r.db)
    ensures r.db.courses == db.courses && r.db.status == db.status
    ensures r.db.plans.Keys == db.plans.Keys && r.db.assignments.Keys == db.assignments.Keys
    ensures forall k :: k in db.plans ==> r.db.plans[k] == db.plans[k].(sent := r.db.plans[k].sent)
    ensures forall k :: k in db.assignments ==>
              r.db.assignments[k] == db.assignments[k].(dueSent := r.db.assignments[k].dueSent)
    ensures FieldsOf(now).hour != 12 ==>
              r.db.notified == db.notified && forall i :: 0 <= i < |r.sent| ==> !r.sent[i].Congratulations?
  {
    var work := WorkStep(db, now, localOffset, before);
    if work.end.Raised? || guild.None? then work
    else
      var due := DueStep(build, work.db, now, localOffset, guild.value);
      if due.end.Raised? || FieldsOf(now).hour != 12 then Step(due.db, work.sent + due.sent, due.end)
      else
        var done := CompletionStep(due.db, localOffset, LocalMonday(now, localOffset), guild.value);
        Step(done.db, work.sent + due.sent + done.sent, done.end)
  }

  /** As shipped, a tick whose guild has a human member raises right
      after the work-session reminders: NameError from the due query, or
      OverflowError already in the work step when an owed reminder's time
      cannot be shown. No due reminder and no congratulation is ever sent,
      and only work flags are written. */
  lemma TickAsWrittenRaises(db: Db, now: int, localOffset: int, members: seq<Member>, before: set<UserKey>)
    requires InRange(now) && InRange(now + localOffset)
    requires GetPendingReminders(db, now).Ok? && Humans(members) != {}
    ensures var r := Tick(AsWritten, db, now, localOffset, Some(members), before);
            && r.end == (if AllShown(db, now, localOffset) then Raised(NameError("get_local_tz")) else Raised(OverflowError))
            && r.db == WorkStep(db, now, localOffset, before).db
            && forall i :: 0 <= i < |r.sent| ==> r.sent[i].WorkReminders?
  {
  }

  /** An owed work reminder whose planned or due time cannot be shown in
      local time ends the work step in OverflowError, and the tick with it:
      `check_reminders` catches the exception before the due step. */
  lemma UnshownRowRaises(build: Build, db: Db, now: int, localOffset: int, guild: Option<seq<Member>>,
                         before: set<UserKey>, k: UserKey, t: WorkTag)
    requires InRange(now) && InRange(now + localOffset)
    requires GetPendingReminders(db, now).Ok? && WorkPending(db, k, t, now)
    requires !RowShows(db, k, localOffset)
    ensures WorkStep(db, now, localOffset, before).end == Raised(OverflowError)
    ensures Tick(build, db, now, localOffset, guild, before) == WorkStep(db, now, localOffset, before)
  {
  }

  /** The last day of year 9999, counted from 1970-01-01. */
  const LastDay: int := MaxOrdinal - EpochOrdinal

  /** An assignment due at 23:00 UTC on 9999-12-31 cannot be shown east of
      UTC by an hour or more: a reminder owed for one of its plans raises
      OverflowError. */
  lemma LastHourDueRaises(build: Build, db: Db, now: int, localOffset: int, guild: Option<seq<Member>>,
                          before: set<UserKey>, k: UserKey, t: WorkTag)
    requires InRange(now) && InRange(now + localOffset) && localOffset >= 3600
    requires GetPendingReminders(db, now).Ok? && WorkPending(db, k, t, now)
    requires db.assignments[Assignment(k)].due == Some(LastDay * 86400 + 23 * 3600)
    ensures WorkStep(db, now, localOffset, before).end == Raised(OverflowError)
    ensures Tick(build, db, now, localOffset, guild, before) == WorkStep(db, now, localOffset, before)
  {
    var d := LastDay * 86400 + 23 * 3600;
    assert DayOf(d + localOffset) > LastDay;
    UnshownRowRaises(build, db, now, localOffset, guild, before, k, t);
  }

  /** A noon tick whose first two steps end normally runs all three. */
  lemma TickUnfold(build: Build, db: Db, now: int, localOffset: int, members: seq<Member>, before: set<UserKey>)
    requires InRange(now) && InRange(now + localOffset) && FieldsOf(now).hour == 12
    requires WorkStep(db, now, localOffset, before).end.Done?
    requires DueStep(build, WorkStep(db, now, localOffset, before).db, now, localOffset, members).end.Done?
    ensures var work := WorkStep(db, now, localOffset, before);
            var due := DueStep(build, work.db, now, localOffset, members);
            var done := CompletionStep(due.db, localOffset, LocalMonday(now, localOffset), members);
            Tick(build, db, now, localOffset, Some(members), before) == Step(done.db, work.sent + due.sent + done.sent, done.end)
  {
  }

  /** With the due query repaired, a tick in the UTC noon hour whose clock
      bounds are representable, and whose owed work reminders can all be
      shown, ends normally and leaves no reminder pending for any human
      member. */
  lemma TickCorrectedClears(db: Db, now: int, localOffset: int, members: seq<Member>, u: string, before: set<UserKey>)
    requires InRange(now) && InRange(now + localOffset) && FieldsOf(now).hour == 12
    requires GetPendingReminders(db, now).Ok? && AllShown(db, now, localOffset) && DueWindowOk(now, localOffset)
    requires WeekRange(LocalMonday(now, localOffset), localOffset).Ok?
    requires u in Humans(members)
    ensures var r := Tick(Corrected, db, now, localOffset, Some(members), before);
            && r.end.Done?
            && (forall k, t :: !WorkPending(r.db, k, t, now))
            && (forall k, t :: !DuePending(r.db, u, k, t, now, CurrentWeek(now, localOffset).value))
  {
    var work := WorkStep(db, now, localOffset, before);
    TickUnfold(Corrected, db, now, localOffset, members, before);
    DueAndCompletionClear(work.db, now, localOffset, members, u);
  }

  /** After the work step, the repaired due step and the completion step
      leave no due reminder pending for a human member and add no owed work
      reminder. */
  lemma DueAndCompletionClear(w: Db, now: int, localOffset: int, members: seq<Member>, u: string)
    requires InRange(now) && InRange(now + localOffset) && FieldsOf(now).hour == 12
    requires DueWindowOk(now, localOffset) && WeekRange(LocalMonday(now, localOffset), localOffset).Ok?
    requires u in Humans(members)
    ensures var due := DueStep(Corrected, w, now, localOffset, members);
            var done := CompletionStep(due.db, localOffset, LocalMonday(now, localOffset), members);
            && due.end.Done? && done.end.Done?
            && (forall k, t :: WorkPending(done.db, k, t, now) ==> WorkPending(w, k, t, now))
            && (forall k, t :: !DuePending(done.db, u, k, t, now, CurrentWeek(now, localOffset).value))
  {
    var due := DueStep(Corrected, w, now, localOffset, members);
    var done := CompletionStep(due.db, localOffset, LocalMonday(now, localOffset), members);
    assert done.db.plans == w.plans && done.db.courses == w.courses;
    assert done.db.assignments.Keys == w.assignments.Keys;
    WorkPendingSamePlans(w, done.db, now);
    var week := CurrentWeek(now, localOffset).value;
    forall k, t
      ensures !DuePending(done.db, u, k, t, now, week)
    {
      DueStepClears(Corrected, w, now, localOffset, members, u, k, t);
      assert done.db == due.db.(notified := done.db.notified);
    }
  }

  /** Whether a work-session reminder is owed depends on the plans and on
      which assignment and course rows exist, not on anything else. */
  lemma WorkPendingSamePlans(a: Db, b: Db, now: int)
    requires a.plans == b.plans && a.courses == b.courses && a.assignments.Keys == b.assignments.Keys
    ensures forall k, t :: WorkPending(b, k, t, now) ==> WorkPending(a, k, t, now)
  {
  }

  /** With the due query repaired, a tick in the UTC noon hour whose clock
      bounds are representable, and whose owed work reminders can all be
      shown, congratulates every human member whose week is complete and
      non-empty and who was not yet notified for it, and leaves every such
      member notified. */
  lemma TickCorrectedCongratulates(db: Db, now: int, localOffset: int, members: seq<Member>, u: string, before: set<UserKey>)
    requires InRange(now) && InRange(now + localOffset) && FieldsOf(now).hour == 12
    requires GetPendingReminders(db, now).Ok? && AllShown(db, now, localOffset) && DueWindowOk(now, localOffset)
    requires WeekRange(LocalMonday(now, localOffset), localOffset).Ok?
    requires u in Humans(members) && Eligible(db, u, LocalMonday(now, localOffset), localOffset)
    ensures var r := Tick(Corrected, db, now, localOffset, Some(members), before);
            var monday := LocalMonday(now, localOffset);
            && WeekCompletionNotified(r.db, u, monday)
            && (!WeekCompletionNotified(db, u, monday) ==>
                  exists i :: 0 <= i < |r.sent| && r.sent[i] == Congratulations(u, CheckWeekCompletion(db, u, monday, localOffset).value.1))
  {
    var monday := LocalMonday(now, localOffset);
    var work := WorkStep(db, now, localOffset, before);
    var due := DueStep(Corrected, work.db, now, localOffset, members);
    var done := CompletionStep(due.db, localOffset, monday, members);
    TickUnfold(Corrected, db, now, localOffset, members, before);
    assert due.db.notified == db.notified && due.db.status == db.status;
    assert due.db.assignments.Keys == db.assignments.Keys;
    assert forall k :: k in db.assignments ==> due.db.assignments[k].due == db.assignments[k].due;
    CompletionCongratulates(db, due.db, localOffset, monday, members, u);
    var r := Tick(Corrected, db, now, localOffset, Some(members), before);
    assert r.db == done.db;
    if !WeekCompletionNotified(db, u, monday) {
      var c := Congratulations(u, CheckWeekCompletion(db, u, monday, localOffset).value.1);
      var i :| 0 <= i < |done.sent| && done.sent[i] == c;
      AppendIndex(work.sent + due.sent, done.sent, |work.sent| + |due.sent| + i);
      assert r.sent[|work.sent| + |due.sent| + i] == c;
    }
  }

  /** The completion step congratulates, and marks, a human member whose
      week is complete and non-empty in a store that differs from `db` at
      most in reminder flags; the congratulation is sent unless the member
      was already notified. */
  lemma CompletionCongratulates(db: Db, start: Db, localOffset: int, monday: DateTime, members: seq<Member>, u: string)
    requires InRange(monday.wall) && WeekRange(monday, localOffset).Ok?
    requires u in Humans(members) && Eligible(db, u, monday, localOffset)
    requires start.notified == db.notified && start.status == db.status
    requires start.assignments.Keys == db.assignments.Keys
    requires forall k :: k in db.assignments ==> start.assignments[k].due == db.assignments[k].due
    ensures var done := CompletionStep(start, localOffset, monday, members);
            && WeekCompletionNotified(done.db, u, monday)
            && (!WeekCompletionNotified(db, u, monday) ==>
                  exists i :: 0 <= i < |done.sent| && done.sent[i] == Congratulations(u, CheckWeekCompletion(db, u, monday, localOffset).value.1))
  {
    var done := CompletionStep(start, localOffset, monday, members);
    CompletionCovers(start, localOffset, monday, members, u);
    CompletionReadsNoMarks(db, start, u, monday, localOffset);
    if !WeekCompletionNotified(db, u, monday) {
      CompletionMarksOnlySent(start, localOffset, monday, members, u, WeekKeyOf(monday.wall));
      var i :| 0 <= i < |done.sent| && done.sent[i].userId == u;
      CompletionSendsEligible(start, localOffset, monday, members, i);
      assert done.sent[i] == Congratulations(u, CheckWeekCompletion(db, u, monday, localOffset).value.1);
    }
  }
}

=== FILE: weekly.dfy ===
/** The interactive scheduling of `send_weekly_assignments` in
    utils/weekly.py: one prompt per assignment due this week, answered by
    a day and time, `stop`/`quit`, or nothing before the timeout. */
module Weekly {
  import opened Outcomes
  import opened Text
  import opened DateTimes
  import opened Store
  import opened Queries
  import opened DayTime
  import opened Commands
  import opened Constants

  /** What `wait_for` gives the loop: a message, or a timeout. */
  datatype Reply = Silence | Said(content: string)

  /** How the dialogue stopped. `Waiting` means the replies ran out while
      the bot was still prompting; `Raised` is an exception escaping the
      loop (plans saved before it stay saved). */
  datatype DialogueEnd = NothingDue | Finished | Cancelled | Waiting | Raised(error: Exc)

  /** The store after the dialogue, how it ended, and how many rows got a
      plan. */
  datatype Dialogue = Dialogue(db: Db, end: DialogueEnd, saved: nat)

  /** `content.lower() in ("stop", "quit")`. */
  predicate IsStopWord(content: string) {
    Lower(content) == "stop" || Lower(content) == "quit"
  }

  /** The per-user keys of rows `lo` up to `hi`. */
  function SavedKeys(userId: string, rows: seq<AssignmentKey>, lo: int, hi: int): (s: set<UserKey>)
    requires 0 <= lo && hi <= |rows|
    ensures forall u :: u in s <==> exists j :: lo <= j < hi && u == ForUser(userId, rows[j])
  {
    set j | lo <= j < hi :: ForUser(userId, rows[j])
  }

  /** A local wall-clock time on one of the seven days from `monday`. */
  predicate InWeekOf(wall: int, monday: DateTime) {
    DayOf(monday.wall) <= DayOf(wall) <= DayOf(monday.wall) + 6
  }

  /** What one reply does to the loop. */
  datatype Turn = Reprompt | Cancel | Fail(error: Exc) | Save(plannedAt: int)

  /** One reply: it is stripped; `stop` or `quit` cancels; a timeout or a
      reply the parser rejects prompts again for the same row; a minute of
      60 or more, or a time outside years 1..9999, raises; a parsed time
      is saved as its UTC instant. */
  function Answer(r: Reply, monday: DateTime, localOffset: int): Turn {
    match r
    case Silence => Reprompt
    case Said(c) => Interpret(Strip(c), monday, localOffset)
  }

  /** A stripped reply. */
  function Interpret(content: string, monday: DateTime, localOffset: int): (t: Turn)
    ensures t.Cancel? <==> IsStopWord(content)
    ensures t.Reprompt? <==> !IsStopWord(content) && WeeklyParse(content, monday, localOffset).Ok?
                             && WeeklyParse(content, monday, localOffset).value.Rejected?
  {
    if IsStopWord(content) then Cancel
    else
      match WeeklyParse(content, monday, localOffset)
      case Err(e) => Fail(e)
      case Ok(Rejected(_)) => Reprompt
      case Ok(Planned(at)) =>
        match StoredInstant(at, localOffset)
        case Err(e) => Fail(e)
        case Ok(t) => Save(t)
  }

  /** A timeout, or a text that is not `stop`/`quit` and that the parser
      answers with a message. */
  predicate Noise(r: Reply, monday: DateTime, localOffset: int) {
    || r.Silence?
    || (!IsStopWord(Strip(r.content))
        && WeeklyParse(Strip(r.content), monday, localOffset).Ok?
        && WeeklyParse(Strip(r.content), monday, localOffset).value.Rejected?)
  }

  /** A reply re-prompts exactly when it is noise. */
  lemma AnswerNoise(r: Reply, monday: DateTime, localOffset: int)
    ensures Answer(r, monday, localOffset).Reprompt? <==> Noise(r, monday, localOffset)
  {
    if r.Said? {
      var c := Strip(r.content);
      assert Answer(r, monday, localOffset) == Interpret(c, monday, localOffset);
    }
  }

  /** A reply cancels exactly when it is `stop` or `quit`. */
  lemma AnswerStop(r: Reply, monday: DateTime, localOffset: int)
    ensures Answer(r, monday, localOffset).Cancel? <==> r.Said? && IsStopWord(Strip(r.content))
  {
    if r.Said? {
      var c := Strip(r.content);
      assert Answer(r, monday, localOffset) == Interpret(c, monday, localOffset);
    }
  }

  /** A saved time is on one of the seven local days from the week's
      Monday. */
  lemma AnswerInWeek(r: Reply, monday: DateTime, localOffset: int)
    requires Answer(r, monday, localOffset).Save?
    ensures InWeekOf(Answer(r, monday, localOffset).plannedAt + localOffset, monday)
  {
    var c := Strip(r.content);
    assert Answer(r, monday, localOffset) == Interpret(c, monday, localOffset);
    assert !IsStopWord(c);
    var p := WeeklyParse(c, monday, localOffset);
    assert p.Ok? && p.value.Planned?;
    var at := p.value.at;
    var stored := StoredInstant(at, localOffset);
    assert stored.Ok?;
    assert Interpret(c, monday, localOffset) == Save(stored.value);
    assert at.tz == Some(localOffset);
    assert stored.value + localOffset == at.wall;
    assert InWeekOf(at.wall, monday);
  }

  /** How the dialogue for the week of `monday` answers a reply. */
  function AnswerTo(monday: DateTime, localOffset: int): Reply -> Turn {
    r => Answer(r, monday, localOffset)
  }

  /** What each reply does, in order. The loop reads them lazily; reading
      them all up front changes nothing, since an answer depends on its
      reply alone. */
  function Turns(replies: seq<Reply>, answer: Reply -> Turn): (ts: seq<Turn>)
    ensures |ts| == |replies|
    ensures forall j :: 0 <= j < |replies| ==> ts[j] == answer(replies[j])
  {
    seq(|replies|, j requires 0 <= j < |replies| => answer(replies[j]))
  }

  /** The loop from row `i` on: a re-prompt stays on the row, a halt ends
      the dialogue, a saved time is written with `upsert_study_plan` (no
      notes) and the dialogue moves to the next row. */
  function Converse(db: Db, userId: string, rows: seq<AssignmentKey>, i: nat, turns: seq<Turn>): (o: Dialogue)
    requires i <= |rows|
    ensures i <= o.saved <= |rows|
    ensures o.db == db.(plans := o.db.plans)
    ensures db.plans.Keys <= o.db.plans.Keys
    ensures o.end == Finished <==> o.saved == |rows|
    ensures o.end != NothingDue
    decreases |turns|
  {
    if i == |rows| then Dialogue(db, Finished, i)
    else if |turns| == 0 then Dialogue(db, Waiting, i)
    else
      match turns[0]
      case Reprompt => Converse(db, userId, rows, i, turns[1..])
      case Cancel => Dialogue(db, Cancelled, i)
      case Fail(e) => Dialogue(db, Raised(e), i)
      case Save(t) => Converse(UpsertStudyPlan(db, ForUser(userId, rows[i]), t, None), userId, rows, i + 1, turns[1..])
  }

  /** `send_weekly_assignments`: `today` is the naive `datetime.now()`,
      `rows` the rows of `get_assignments_for_week_with_ids` in their
      order, `replies` the messages the user sends. With nothing due the
      command only says so. */
  function WeeklyDialogue(db: Db, userId: string, today: DateTime, localOffset: int, rows: seq<AssignmentKey>,
                          replies: seq<Reply>): (o: Dialogue)
    requires today.tz.None? && InRange(today.wall)
    requires AssignmentsForWeek(db, WeekMonday(today), localOffset).Ok? ==>
               IsListing(rows, AssignmentsForWeek(db, WeekMonday(today), localOffset).value, DueRank(db))
    ensures AssignmentsForWeek(db, WeekMonday(today), localOffset).Err? ==>
              o == Dialogue(db, Raised(AssignmentsForWeek(db, WeekMonday(today), localOffset).error), 0)
    ensures o.end == NothingDue <==>
              AssignmentsForWeek(db, WeekMonday(today), localOffset).Ok? && |rows| == 0
    ensures o.saved <= |rows|
    ensures o.db == db.(plans := o.db.plans)
  {
    match AssignmentsForWeek(db, WeekMonday(today), localOffset)
    case Err(e) => Dialogue(db, Raised(e), 0)
    case Ok(keys) =>
      ListingSize(rows, keys, DueRank(db));
      if |keys| == 0 then Dialogue(db, NothingDue, 0)
      else Converse(db, userId, rows, 0, Turns(replies, AnswerTo(WeekMonday(today), localOffset)))
  }

  // ---------------------------------------------------------------------
  // What the dialogue writes
  // ---------------------------------------------------------------------

  /** Row `lo` followed by rows `lo + 1` up to `hi`. */
  lemma SavedKeysStep(userId: string, rows: seq<AssignmentKey>, lo: int, hi: int)
    requires 0 <= lo < hi <= |rows|
    ensures SavedKeys(userId, rows, lo, hi) == {ForUser(userId, rows[lo])} + SavedKeys(userId, rows, lo + 1, hi)
  {
    var a, b := SavedKeys(userId, rows, lo, hi), {ForUser(userId, rows[lo])} + SavedKeys(userId, rows, lo + 1, hi);
    forall u | u in a ensures u in b {
      var j :| lo <= j < hi && u == ForUser(userId, rows[j]);
      if j > lo {
        assert u in SavedKeys(userId, rows, lo + 1, hi);
      }
    }
  }

  /** The dialogue writes a plan for exactly the rows it got through. */
  lemma {:induction false} ConverseKeys(db: Db, userId: string, rows: seq<AssignmentKey>, i: nat, turns: seq<Turn>)
    requires i <= |rows|
    ensures var o := Converse(db, userId, rows, i, turns);
            o.db.plans.Keys == db.plans.Keys + SavedKeys(userId, rows, i, o.saved)
    decreases |turns|, 1
  {
    var o := Converse(db, userId, rows, i, turns);
    if i == |rows| || |turns| == 0 {
      assert SavedKeys(userId, rows, i, o.saved) == {};
    } else {
      match turns[0]
      case Reprompt =>
        assert o == Converse(db, userId, rows, i, turns[1..]);
        ConverseKeys(db, userId, rows, i, turns[1..]);
      case Cancel =>
        assert o.saved == i;
        assert SavedKeys(userId, rows, i, o.saved) == {};
      case Fail(e) =>
        assert o.saved == i;
        assert SavedKeys(userId, rows, i, o.saved) == {};
      case Save(t) =>
        ConverseKeysSave(db, userId, rows, i, turns, t);
    }
  }

  /** `ConverseKeys` when the first turn saves a time. */
  lemma {:induction false} ConverseKeysSave(db: Db, userId: string, rows: seq<AssignmentKey>, i: nat,
                                            turns: seq<Turn>, t: int)
    requires i < |rows| && |turns| > 0 && turns[0] == Save(t)
    ensures var o := Converse(db, userId, rows, i, turns);
            o.db.plans.Keys == db.plans.Keys + SavedKeys(userId, rows, i, o.saved)
    decreases |turns|, 0
  {
    var db' := UpsertStudyPlan(db, ForUser(userId, rows[i]), t, None);
    var o := Converse(db', userId, rows, i + 1, turns[1..]);
    assert Converse(db, userId, rows, i, turns) == o;
    ConverseKeys(db', userId, rows, i + 1, turns[1..]);
    SavedKeysStep(userId, rows, i, o.saved);
  }

  /** A plan of a row the dialogue did not get through is left alone. */
  lemma {:induction false} ConverseKeepsOthers(db: Db, userId: string, rows: seq<AssignmentKey>, i: nat,
                                               turns: seq<Turn>, u: UserKey)
    requires i <= |rows|
    requires u in db.plans
    requires u !in SavedKeys(userId, rows, i, Converse(db, userId, rows, i, turns).saved)
    ensures Converse(db, userId, rows, i, turns).db.plans[u] == db.plans[u]
    decreases |turns|
  {
    if i < |rows| && |turns| > 0 {
      var o := Converse(db, userId, rows, i, turns);
      match turns[0]
      case Reprompt =>
        ConverseKeepsOthers(db, userId, rows, i, turns[1..], u);
      case Cancel =>
      case Fail(e) =>
      case Save(t) =>
        SavedKeysStep(userId, rows, i, o.saved);
        ConverseKeepsOthers(UpsertStudyPlan(db, ForUser(userId, rows[i]), t, None), userId, rows, i + 1, turns[1..], u);
    }
  }

  /** Every time saved is on one of the seven local days from `monday`. */
  predicate SavesInWeek(turns: seq<Turn>, monday: DateTime, localOffset: int) {
    forall j :: 0 <= j < |turns| && turns[j].Save? ==> InWeekOf(turns[j].plannedAt + localOffset, monday)
  }

  /** The replies to one week's prompts only save times of that week. */
  lemma TurnsInWeek(replies: seq<Reply>, monday: DateTime, localOffset: int)
    ensures SavesInWeek(Turns(replies, AnswerTo(monday, localOffset)), monday, localOffset)
  {
    var ts := Turns(replies, AnswerTo(monday, localOffset));
    forall j | 0 <= j < |ts| && ts[j].Save?
      ensures InWeekOf(ts[j].plannedAt + localOffset, monday)
    {
      AnswerInWeek(replies[j], monday, localOffset);
    }
  }

  /** Every plan the dialogue wrote holds a time saved by one of the turns. */
  lemma {:induction false} ConverseInWeek(db: Db, userId: string, rows: seq<AssignmentKey>, i: nat, turns: seq<Turn>,
                                          monday: DateTime, localOffset: int, u: UserKey)
    requires i <= |rows|
    requires SavesInWeek(turns, monday, localOffset)
    requires u in SavedKeys(userId, rows, i, Converse(db, userId, rows, i, turns).saved)
    ensures var o := Converse(db, userId, rows, i, turns);
            u in o.db.plans && InWeekOf(o.db.plans[u].plannedAt + localOffset, monday)
    decreases |turns|
  {
    var o := Converse(db, userId, rows, i, turns);
    if i < |rows| && |turns| > 0 {
      assert SavesInWeek(turns[1..], monday, localOffset) by {
        forall j | 0 <= j < |turns| - 1 && turns[1..][j].Save?
          ensures InWeekOf(turns[1..][j].plannedAt + localOffset, monday)
        {
          assert turns[1..][j] == turns[j + 1];
        }
      }
      match turns[0]
      case Reprompt =>
        ConverseInWeek(db, userId, rows, i, turns[1..], monday, localOffset, u);
      case Cancel =>
      case Fail(e) =>
      case Save(t) =>
        var db' := UpsertStudyPlan(db, ForUser(userId, rows[i]), t, None);
        SavedKeysStep(userId, rows, i, o.saved);
        if u in SavedKeys(userId, rows, i + 1, o.saved) {
          ConverseInWeek(db', userId, rows, i + 1, turns[1..], monday, localOffset, u);
        } else {
          ConverseKeepsOthers(db', userId, rows, i + 1, turns[1..], u);
        }
    }
  }

  /** Every plan the dialogue saved shows in the user's plans for the
      week (`!myplans`). */
  lemma SavedPlansListed(db: Db, userId: string, today: DateTime, localOffset: int, rows: seq<AssignmentKey>,
                         replies: seq<Reply>, u: UserKey)
    requires today.tz.None? && InRange(today.wall)
    requires AssignmentsForWeek(db, WeekMonday(today), localOffset).Ok? ==>
               IsListing(rows, AssignmentsForWeek(db, WeekMonday(today), localOffset).value, DueRank(db))
    requires var o := WeeklyDialogue(db, userId, today, localOffset, rows, replies);
             u in SavedKeys(userId, rows, 0, o.saved)
    ensures var o := WeeklyDialogue(db, userId, today, localOffset, rows, replies);
            && PlansForWeek(o.db, userId, WeekMonday(today), localOffset).Ok?
            && u in PlansForWeek(o.db, userId, WeekMonday(today), localOffset).value
  {
    var monday := WeekMonday(today);
    var o := WeeklyDialogue(db, userId, today, localOffset, rows, replies);
    var turns := Turns(replies, AnswerTo(monday, localOffset));
    assert AssignmentsForWeek(db, monday, localOffset).Ok?;
    assert o == Converse(db, userId, rows, 0, turns);
    TurnsInWeek(replies, monday, localOffset);
    ConverseInWeek(db, userId, rows, 0, turns, monday, localOffset, u);
    var t := o.db.plans[u].plannedAt;
    assert InWeekOf(t + localOffset, monday);
    assert u.userId == userId;
    var w := WeekRange(monday, localOffset).value;
    assert w.0 <= t <= w.1;
  }

  // ---------------------------------------------------------------------
  // Replies that change nothing
  // ---------------------------------------------------------------------

  /** `Noise` for the week of `monday`. */
  function NoiseOf(monday: DateTime, localOffset: int): Reply -> bool {
    r => Noise(r, monday, localOffset)
  }

  /** The replies that are not noise, in order. */
  function Audible(replies: seq<Reply>, noise: Reply -> bool): (r: seq<Reply>)
    ensures |r| <= |replies|
    ensures forall x :: x in r <==> x in replies && !noise(x)
  {
    if |replies| == 0 then []
    else if noise(replies[0]) then Audible(replies[1..], noise)
    else [replies[0]] + Audible(replies[1..], noise)
  }

  /** The turns that are not re-prompts, in order. */
  function Heard(turns: seq<Turn>): (r: seq<Turn>)
    ensures |r| <= |turns|
    ensures forall x :: x in r <==> x in turns && !x.Reprompt?
  {
    if |turns| == 0 then []
    else if turns[0].Reprompt? then Heard(turns[1..])
    else [turns[0]] + Heard(turns[1..])
  }

  /** Re-prompts leave the dialogue where it was. */
  lemma {:induction false} RepromptsIgnored(db: Db, userId: string, rows: seq<AssignmentKey>, i: nat, turns: seq<Turn>)
    requires i <= |rows|
    ensures Converse(db, userId, rows, i, turns) == Converse(db, userId, rows, i, Heard(turns))
    decreases |turns|
  {
    if i < |rows| && |turns| > 0 {
      var rest := turns[1..];
      if turns[0].Reprompt? {
        assert Heard(turns) == Heard(rest);
        assert Converse(db, userId, rows, i, turns) == Converse(db, userId, rows, i, rest);
        RepromptsIgnored(db, userId, rows, i, rest);
      } else {
        var h := Heard(turns);
        assert h == [turns[0]] + Heard(rest);
        assert h[0] == turns[0] && h[1..] == Heard(rest);
        match turns[0]
        case Cancel =>
        case Fail(e) =>
        case Save(t) =>
          var db' := UpsertStudyPlan(db, ForUser(userId, rows[i]), t, None);
          assert Converse(db, userId, rows, i, turns) == Converse(db', userId, rows, i + 1, rest);
          assert Converse(db, userId, rows, i, h) == Converse(db', userId, rows, i + 1, Heard(rest));
          RepromptsIgnored(db', userId, rows, i + 1, rest);
      }
    }
  }

  /** Dropping the noise from the replies drops the re-prompts from the
      turns, when the noise is exactly what re-prompts. */
  lemma {:induction false} AudibleTurns(replies: seq<Reply>, answer: Reply -> Turn, noise: Reply -> bool)
    requires forall r :: answer(r).Reprompt? <==> noise(r)
    ensures Turns(Audible(replies, noise), answer) == Heard(Turns(replies, answer))
    decreases |replies|
  {
    if |replies| > 0 {
      var ts := Turns(replies, answer);
      AudibleTurns(replies[1..], answer, noise);
      assert ts[1..] == Turns(replies[1..], answer);
      if !noise(replies[0]) {
        var a := Audible(replies, noise);
        assert a == [replies[0]] + Audible(replies[1..], noise);
        assert Turns(a, answer) == [answer(replies[0])] + Turns(a[1..], answer);
      }
    }
  }

  /** Timeouts and rejected entries only re-prompt: dropping all of them
      from what the user sends leaves the outcome of the dialogue
      unchanged. */
  lemma NoiseIgnored(db: Db, userId: string, today: DateTime, localOffset: int, rows: seq<AssignmentKey>,
                     replies: seq<Reply>)
    requires today.tz.None? && InRange(today.wall)
    requires AssignmentsForWeek(db, WeekMonday(today), localOffset).Ok? ==>
               IsListing(rows, AssignmentsForWeek(db, WeekMonday(today), localOffset).value, DueRank(db))
    ensures WeeklyDialogue(db, userId, today, localOffset, rows, replies)
            == WeeklyDialogue(db, userId, today, localOffset, rows,
                              Audible(replies, NoiseOf(WeekMonday(today), localOffset)))
  {
    var monday := WeekMonday(today);
    var answer, noise := AnswerTo(monday, localOffset), NoiseOf(monday, localOffset);
    forall r ensures answer(r).Reprompt? <==> noise(r) {
      AnswerNoise(r, monday, localOffset);
    }
    var ts := Turns(replies, answer);
    AudibleTurns(replies, answer, noise);
    RepromptsIgnored(db, userId, rows, 0, ts);
    RepromptsIgnored(db, userId, rows, 0, Heard(ts));
    HeardTwice(ts);
  }

  /** Dropping re-prompts twice drops nothing more. */
  lemma {:induction false} HeardTwice(turns: seq<Turn>)
    ensures Heard(Heard(turns)) == Heard(turns)
    decreases |turns|
  {
    if |turns| > 0 {
      HeardTwice(turns[1..]);
      if !turns[0].Reprompt? {
        var h := Heard(turns);
        assert h[0] == turns[0] && h[1..] == Heard(turns[1..]);
      }
    }
  }

  /** Once the dialogue has ended, later messages are not read. */
  lemma {:induction false} LaterTurnsIgnored(db: Db, userId: string, rows: seq<AssignmentKey>, i: nat,
                                             turns: seq<Turn>, more: seq<Turn>)
    requires i <= |rows|
    requires Converse(db, userId, rows, i, turns).end != Waiting
    ensures Converse(db, userId, rows, i, turns + more) == Converse(db, userId, rows, i, turns)
    decreases |turns|
  {
    if i < |rows| {
      var all := turns + more;
      assert all[0] == turns[0] && all[1..] == turns[1..] + more;
      match turns[0]
      case Reprompt =>
        LaterTurnsIgnored(db, userId, rows, i, turns[1..], more);
      case Cancel =>
      case Fail(e) =>
      case Save(t) =>
        LaterTurnsIgnored(UpsertStudyPlan(db, ForUser(userId, rows[i]), t, None), userId, rows, i + 1, turns[1..], more);
    }
  }

  /** Answering two runs of replies answers them one after the other. */
  lemma TurnsAppend(replies: seq<Reply>, more: seq<Reply>, answer: Reply -> Turn)
    ensures Turns(replies + more, answer) == Turns(replies, answer) + Turns(more, answer)
  {
    var a, b, ab := Turns(replies, answer), Turns(more, answer), Turns(replies + more, answer);
    forall j | 0 <= j < |ab| ensures ab[j] == (a + b)[j] {
      if j < |replies| {
        assert (replies + more)[j] == replies[j];
      } else {
        assert (replies + more)[j] == more[j - |replies|];
      }
    }
  }

  /** Messages sent after the dialogue has ended change nothing. */
  lemma LaterRepliesIgnored(db: Db, userId: string, today: DateTime, localOffset: int, rows: seq<AssignmentKey>,
                            replies: seq<Reply>, more: seq<Reply>)
    requires today.tz.None? && InRange(today.wall)
    requires AssignmentsForWeek(db, WeekMonday(today), localOffset).Ok? ==>
               IsListing(rows, AssignmentsForWeek(db, WeekMonday(today), localOffset).value, DueRank(db))
    requires WeeklyDialogue(db, userId, today, localOffset, rows, replies).end != Waiting
    ensures WeeklyDialogue(db, userId, today, localOffset, rows, replies + more)
            == WeeklyDialogue(db, userId, today, localOffset, rows, replies)
  {
    var monday := WeekMonday(today);
    var answer := AnswerTo(monday, localOffset);
    var a, b := Turns(replies, answer), Turns(more, answer);
    TurnsAppend(replies, more, answer);
    if AssignmentsForWeek(db, monday, localOffset).Ok? && |rows| > 0 {
      LaterTurnsIgnored(db, userId, rows, 0, a, b);
    }
  }

  // ---------------------------------------------------------------------
  // A user who answers every prompt
  // ---------------------------------------------------------------------

  /** A reply saves a time exactly when it is a text that, stripped, is
      not `stop`/`quit`, parses to a local time, and that time has a UTC
      instant in years 1..9999; the instant is what is saved. */
  lemma AnswerSaves(r: Reply, monday: DateTime, localOffset: int)
    ensures Answer(r, monday, localOffset).Save? <==>
              && r.Said?
              && !IsStopWord(Strip(r.content))
              && WeeklyParse(Strip(r.content), monday, localOffset).Ok?
              && WeeklyParse(Strip(r.content), monday, localOffset).value.Planned?
              && StoredInstant(WeeklyParse(Strip(r.content), monday, localOffset).value.at, localOffset).Ok?
    ensures Answer(r, monday, localOffset).Save? ==>
              Answer(r, monday, localOffset).plannedAt
              == UtcSeconds(WeeklyParse(Strip(r.content), monday, localOffset).value.at, localOffset)
  {
  }

  /** Each turn saves the time given for its row, from row `i` on. */
  predicate SavesEach(turns: seq<Turn>, times: seq<int>, i: nat) {
    && i + |turns| == |times|
    && forall j :: 0 <= j < |turns| ==> turns[j] == Save(times[i + j])
  }

  /** Turns that each save a time get through every row, giving each a
      plan. */
  lemma {:induction false} ScheduleAll(db: Db, userId: string, rows: seq<AssignmentKey>, i: nat, turns: seq<Turn>,
                                       times: seq<int>)
    requires i <= |rows| && |times| == |rows|
    requires SavesEach(turns, times, i)
    ensures var o := Converse(db, userId, rows, i, turns);
            && o.end == Finished
            && (forall j :: i <= j < |rows| ==> ForUser(userId, rows[j]) in o.db.plans)
    decreases |rows| - i
  {
    if i < |rows| {
      var rest := SavesEachRest(turns, times, i);
      var db' := UpsertStudyPlan(db, ForUser(userId, rows[i]), times[i], None);
      assert Converse(db, userId, rows, i, turns) == Converse(db', userId, rows, i + 1, rest);
      ScheduleAll(db', userId, rows, i + 1, rest, times);
    }
  }

  /** After the first saving turn, the rest save the times of the rows
      that follow. */
  function SavesEachRest(turns: seq<Turn>, times: seq<int>, i: nat): (rest: seq<Turn>)
    requires SavesEach(turns, times, i) && i < |times|
    ensures turns == [Save(times[i])] + rest
    ensures SavesEach(rest, times, i + 1)
  {
    var rest := turns[1..];
    assert turns[0] == Save(times[i]);
    assert forall j :: 0 <= j < |rest| ==> rest[j] == turns[j + 1];
    rest
  }

  /** With distinct rows, turns that each save a time leave each row's
      plan at the time given for it. */
  lemma {:induction false} ScheduleTimes(db: Db, userId: string, rows: seq<AssignmentKey>, i: nat, turns: seq<Turn>,
                                         times: seq<int>)
    requires i <= |rows| && |times| == |rows|
    requires SavesEach(turns, times, i)
    requires forall j, k :: i <= j < k < |rows| ==> rows[j] != rows[k]
    ensures var o := Converse(db, userId, rows, i, turns);
            forall j :: i <= j < |rows| ==>
              ForUser(userId, rows[j]) in o.db.plans && o.db.plans[ForUser(userId, rows[j])].plannedAt == times[j]
    decreases |rows| - i
  {
    if i < |rows| {
      var rest := SavesEachRest(turns, times, i);
      var k := ForUser(userId, rows[i]);
      var db' := UpsertStudyPlan(db, k, times[i], None);
      var o := Converse(db', userId, rows, i + 1, rest);
      assert Converse(db, userId, rows, i, turns) == o;
      ScheduleTimes(db', userId, rows, i + 1, rest, times);
      ScheduleAll(db', userId, rows, i + 1, rest, times);
      assert k !in SavedKeys(userId, rows, i + 1, o.saved);
      ConverseKeepsOthers(db', userId, rows, i + 1, rest, k);
    }
  }

  /** A user who answers each prompt, in order, with a time the bot can
      store (a text such as `Wed 7:30 PM`, see `DayTime.SpellThenParse`)
      gets through every assignment due, each planned at the instant its
      reply names. */
  lemma ScheduleWeek(db: Db, userId: string, today: DateTime, localOffset: int, rows: seq<AssignmentKey>,
                     replies: seq<Reply>)
    requires today.tz.None? && InRange(today.wall)
    requires AssignmentsForWeek(db, WeekMonday(today), localOffset).Ok?
    requires IsListing(rows, AssignmentsForWeek(db, WeekMonday(today), localOffset).value, DueRank(db))
    requires |rows| > 0 && |replies| == |rows|
    requires forall j :: 0 <= j < |replies| ==> Answer(replies[j], WeekMonday(today), localOffset).Save?
    ensures var o := WeeklyDialogue(db, userId, today, localOffset, rows, replies);
            && o.end == Finished
            && forall j :: 0 <= j < |rows| ==>
                 && ForUser(userId, rows[j]) in o.db.plans
                 && o.db.plans[ForUser(userId, rows[j])].plannedAt
                    == Answer(replies[j], WeekMonday(today), localOffset).plannedAt
  {
    var monday := WeekMonday(today);
    var turns := Turns(replies, AnswerTo(monday, localOffset));
    var times := seq(|replies|, j requires 0 <= j < |replies| => turns[j].plannedAt);
    assert SavesEach(turns, times, 0);
    ScheduleAll(db, userId, rows, 0, turns, times);
    ScheduleTimes(db, userId, rows, 0, turns, times);
    assert WeeklyDialogue(db, userId, today, localOffset, rows, replies) == Converse(db, userId, rows, 0, turns);
  }
}
